=== FILE: README.md ===
# TicketForge help-desk core, modelled in Dafny

TicketForge is a help desk. Customers open tickets. Agents and
administrators answer them with public comments and internal notes.
Administrators manage users, groups, settings and the theme. This project
models that system's core as pure functions over one immutable `Store`.
The `Store` is the database: users, groups, memberships, tickets, comments,
attachments, settings, and the counter behind ticket numbers.

- **Routes.** Every Express route of the core is one function from a store
  and a request to a `Step`. A `Step` is the HTTP outcome (status code, body
  or error message), the next store, and the e-mail notices the route
  triggers.
- **`Valid`.** `Schema.Valid` holds the constraints of the first migration:
  unique usernames and e-mails, foreign keys, and the `ON DELETE` behaviour.
  Every writing route is proved to preserve it.
- **Front end.** The routing guard, the navigation drawer, the ticket list
  filters, the dashboard counters, the ticket page's controls and composer,
  and the profile page's role-and-group editor are functions too. Lemmas tie
  each one to the route that serves it.

Modules follow the source files. In the back end:

- `Schema`: the migration and the database invariant.
- `PasswordPolicy`: the password validator.
- `Auth`: the auth routes.
- `Tickets`, `Comments`, `Users`, `Groups`, `Settings`, `Theme`: the other
  routes, one module each.
- `Notify`: the e-mail service's recipient choice.
- `Bootstrap`: `initDatabase`.
- `Migrations`: the migration runner.

In the front end:

- `Navigation`: `App.js` and `Layout.js`.
- `TicketList`, `Dashboard`, `TicketDetail`, `Profile`: the pages.

The shared helpers are `Common`, `Text`, `Seqs` and `Ordering`.

Integers are unbounded. The only machine-width concern in the core is the
ticket number, a `SERIAL` column, and the model treats it as a `nat`. Times
are milliseconds as `nat`. An ISO timestamp is rendered as a decimal string
and parsed back by `Auth.ParseDate`.

## Model

| member | source | states |
|---|---|---|
| Schema.ParseRole | backend/migrations/001_initial_schema.js:13 | a label parses to a role exactly when it is one of the enum's labels, and parsing inverts the label |
| Schema.ParseStatus | backend/migrations/001_initial_schema.js:16 | a label parses to a status exactly when it is one of the five enum labels, and parsing inverts the label |
| Schema.ParsePriority | backend/migrations/001_initial_schema.js:19 | a label parses to a priority exactly when it is one of the four enum labels, and parsing inverts the label |
| Schema.EnumLabelsRoundTrip | backend/migrations/001_initial_schema.js:13-19 | each enum value's label parses back to that value |
| Schema.EmptyIsValid | backend/migrations/001_initial_schema.js:22-119 | the freshly migrated, empty database meets every constraint of the schema |
| Schema.UserByEmail | backend/migrations/001_initial_schema.js:26 | the lookup returns an account with that e-mail, and finds none exactly when no account has it |
| Schema.UserByEmailIsTheAccount | backend/migrations/001_initial_schema.js:26 | under the unique e-mail constraint the lookup returns the one account that has the address |
| Schema.UserByName | backend/migrations/001_initial_schema.js:25 | the lookup returns an account with that username, and finds none exactly when no account has it |
| Schema.UserByNameIsTheAccount | backend/migrations/001_initial_schema.js:25 | under the unique username constraint the lookup returns the one account that has the name |
| Schema.SettingValue | backend/migrations/001_initial_schema.js:111-119 | a setting's value is present exactly when its row exists and the value column is not NULL |
| Schema.Upsert | backend/routes/settings.js:152-154 | an upsert adds the key if it is missing and overwrites the value if it is present; no other row changes |
| Schema.AddAttachments | backend/routes/tickets.js:178-186 | every uploaded file becomes a row under its own new id, carrying the ticket, the comment and the uploader; existing rows are kept |
| Schema.Unlink | backend/migrations/001_initial_schema.js:71-73 | `ON DELETE SET NULL`: a reference to the deleted row becomes NULL and any other reference is untouched |
| Schema.DeleteUserRow | backend/migrations/001_initial_schema.js:55-100 | deleting a user cascades to the user's memberships and sets to NULL the ticket, comment, attachment and setting columns that pointed at the user |
| Schema.DeleteUserKeepsValid | backend/migrations/001_initial_schema.js:55-117 | after a user row is deleted, the database still meets every constraint |
| Schema.DeleteGroupRow | backend/migrations/001_initial_schema.js:56 | deleting a group cascades to its memberships and clears the group of its tickets |
| Schema.DeleteGroupKeepsValid | backend/migrations/001_initial_schema.js:56 | after a group row is deleted, the database still meets every constraint |
| Schema.DeleteCommentRow | backend/migrations/001_initial_schema.js:99 | deleting a comment cascades to exactly that comment's attachments |
| Schema.DeleteCommentKeepsValid | backend/migrations/001_initial_schema.js:99 | after a comment row is deleted, the database still meets every constraint |
| Schema.DeleteTicketRow | backend/migrations/001_initial_schema.js:85-98 | deleting a ticket cascades to its comments and to every attachment of the ticket or of those comments |
| Schema.DeleteTicketKeepsValid | backend/migrations/001_initial_schema.js:85-99 | after a ticket row is deleted, the database still meets every constraint |
| Schema.DeleteTicketLeavesNoOrphans | backend/migrations/001_initial_schema.js:85-98 | no comment and no attachment still names the deleted ticket |
| Schema.PutUserKeepsValid | backend/migrations/001_initial_schema.js:25-26 | writing an account whose username and e-mail clash with no other account preserves the invariant |
| Schema.UpsertKeepsValid | backend/migrations/001_initial_schema.js:111-119 | a settings upsert by an existing author preserves the invariant |
| PasswordPolicy.Validate | backend/utils/passwordValidator.js:4-35 | the password is valid exactly when no rule is broken; every broken rule is reported, in check order, and only broken rules are reported; the length rule counts UTF-16 code units, as `length` does |
| PasswordPolicy.FailedRulesMembership | backend/utils/passwordValidator.js:5-29 | each check runs whatever the others found: a rule is reported exactly when it is listed and broken |
| PasswordPolicy.FailedRulesOrdered | backend/utils/passwordValidator.js:5-29 | the messages come in the order the checks are written |
| PasswordPolicy.ValidIffAllRulesHold | backend/utils/passwordValidator.js:31-34 | `isValid` holds exactly when the password meets all five rules |
| PasswordPolicy.ExampleAccepted | backend/utils/passwordValidator.js:7-29 | a password with eight characters that mixes an upper-case letter, a lower-case letter, a digit and a listed symbol passes |
| PasswordPolicy.UnlistedCharactersCountForNothing | backend/utils/passwordValidator.js:11-29 | spaces, backticks, tildes and non-ASCII characters satisfy none of the four character-class rules |
| PasswordPolicy.LengthCountsCodeUnits | backend/utils/passwordValidator.js:7 | four characters outside the Basic Multilingual Plane meet the eight-unit length rule, while four ASCII letters do not |
| Auth.Iso | backend/routes/auth.js:311 | the rendered expiry time parses back to the same instant |
| Auth.CodeKeysDisjoint | backend/routes/auth.js:221 | a verification-code key (`email_verification_<id>`) never collides with a reset-code key (`password_reset_<id>`, line 318), whatever the two ids |
| Text.Utf16Length | backend/utils/passwordValidator.js:7 | `length` counts one code unit per character and one more for each character outside the Basic Multilingual Plane; it equals the character count exactly when there is no such character |
| Auth.ExpiryText | backend/routes/auth.js:362 | under either pattern, the capture is what follows the leftmost `expires at ` marker from which the rest of the text is captured, and there is none exactly when no marker matches |
| Auth.ResetDescriptionExpiry | backend/routes/auth.js:314-318 | under the route's pattern, the description written for a reset code gives back its expiry exactly when the address holds no marker; under the corrected pattern it always does |
| Auth.MarkerInAddressDisablesExpiry | backend/routes/auth.js:362-370 | for every address holding the marker, the route's pattern captures text that is not a date, so the code never expires |
| Auth.ExpiryAfterHead | backend/routes/auth.js:362 | the capture is the text after the recorded marker unless an earlier marker also matches, and then the capture holds a space |
| Auth.EarlyMarkerIsInAddress | backend/routes/auth.js:314-318 | in a reset description, an earlier matching marker exists exactly when the address holds one |
| Auth.QuotedMarkerAddress | backend/routes/auth.js:314 | the valid address `"expires at "@example.com` holds the marker |
| Auth.CorrectedExpiryHonoured | backend/routes/auth.js:362-370 | under the corrected pattern, for every address, the code is expired exactly when the clock is past the recorded expiry |
| Auth.FindAccount | backend/routes/auth.js:23-32 | a login containing `@` is looked up by e-mail and any other login by username; the result is an account the login identifies, or none exists |
| Auth.FindAccountIsTheAccount | backend/routes/auth.js:23-32 | under the unique constraints the lookup finds the one account the login identifies |
| Auth.Login | backend/routes/auth.js:14-74 | a missing field is a 400; an unknown account or a wrong password is a 401; an inactive account is refused; success stamps `last_login` and returns that account |
| Auth.LoginIffCredentials | backend/routes/auth.js:30-47 | login succeeds exactly when an account matches the login, is active, and has the given password |
| Auth.LoginHidesUnknownAccounts | backend/routes/auth.js:30-44 | an unknown login and a wrong password get the same 401 message |
| Auth.InactiveNeverLogsIn | backend/routes/auth.js:36-38 | a deactivated account is refused whatever the password |
| Auth.AtSignUsernameIsReadAsEmail | backend/routes/auth.js:23-26 | a username containing `@` is looked up as an e-mail address, so logging in with it fails |
| Auth.SetPassword | backend/routes/auth.js:118-120 | only the target account changes; its new hash matches the new password and the forced-change flag is cleared |
| Auth.ChangePassword | backend/routes/auth.js:95-129 | both fields are required; the policy applies before the current password is checked; success stores the new password and nothing else |
| Auth.ChangeThenLogin | backend/routes/auth.js:95-129 | after a successful change the new password logs in |
| Auth.CheckUsername | backend/routes/auth.js:132-148 | a name shorter than three UTF-16 code units is a 400; otherwise the answer is true exactly when no account uses the name |
| Auth.TwoEmojiNameChecked | backend/routes/auth.js:136 | a name of two emoji is four code units long, so it passes the length check and is looked up |
| Auth.AllowedDomains | backend/routes/auth.js:176-185 | the allowed domains are the non-blank, trimmed pieces of the comma-separated setting |
| Auth.EmailDomain | backend/routes/auth.js:179 | an address has a domain exactly when it contains `@` |
| Auth.EmailDomainOfAddress | backend/routes/auth.js:179 | the domain of `local@domain` is `domain` |
| Auth.RegistrationError | backend/routes/auth.js:155-197 | registration is refused exactly when a field is missing, the username is shorter than three UTF-16 code units or has a character outside `[a-zA-Z0-9_-]`, registration is off, the domain is not allowed, or the e-mail or username is taken |
| Auth.TwoEmojiNameRefusedByFormat | backend/routes/auth.js:159-167 | a name of two emoji passes the length check and is refused by the character check |
| Auth.Register | backend/routes/auth.js:151-244 | success adds exactly one unverified customer with the temporary password, stores the verification code, and mails it; a refusal changes nothing |
| Auth.RegisterKeepsValid | backend/routes/auth.js:207-212 | registration preserves the database invariant |
| Auth.RegisteredCanLogIn | backend/routes/auth.js:200-212 | the new account logs in with its temporary password |
| Auth.SingleDomainRule | backend/routes/auth.js:176-185 | with one allowed domain configured, an address is accepted exactly when its domain is that one |
| Auth.VerifyCode | backend/routes/auth.js:264-273 | the right code marks the account verified and deletes the code; a wrong code changes nothing |
| Auth.VerifyEmail | backend/routes/auth.js:247-282 | missing fields are a 400, an unknown address is a 404, otherwise the code is checked |
| Auth.RegisterThenVerify | backend/routes/auth.js:204-273 | the code mailed at registration verifies the new account |
| Auth.RegisterKeepsResetCodes | backend/routes/auth.js:217-222 | registering stores its verification code without touching any pending password-reset code |
| Auth.ForgotKeepsVerificationCodes | backend/routes/auth.js:313-319 | a reset request stores its code without touching any pending e-mail verification code |
| Auth.ForgotPassword | backend/routes/auth.js:285-331 | any non-blank login gets the same answer; only a known account gets a code stored and mailed |
| Auth.ReissueKeepsFirstExpiry | backend/routes/auth.js:314-318 | asking again replaces the code but keeps the description, and with it the first expiry |
| Auth.ResetFor | backend/routes/auth.js:357-379 | a wrong code changes nothing; a code expired under the given pattern is deleted and refused; a valid one sets the password and deletes the code |
| Auth.ResetPassword | backend/routes/auth.js:334-388 | missing fields are a 400, the policy applies first, and an unknown address is a 404 |
| Auth.SetPasswordKeepsAccounts | backend/routes/auth.js:373-379 | a password write keeps usernames and e-mails unique |
| Auth.ForgotWritesCode | backend/routes/auth.js:311-318 | a first request stores the code with a description that records its expiry |
| Auth.ForgotThenReset | backend/routes/auth.js:285-388 | while the mailed code is live (within the hour, or for ever under the route's pattern when the address holds the marker) it resets the password, and the new password logs in; afterwards it is refused as expired; either way it is spent |
| Tickets.ListTickets | backend/routes/tickets.js:42-103 | a customer sees only their own tickets, and every filter narrows the list; the list is newest first |
| Tickets.FiltersOnlyNarrow | backend/routes/tickets.js:64-92 | every filtered list is part of the unfiltered one, and a customer never sees another customer's ticket |
| Tickets.AccessError | backend/routes/tickets.js:123-132 | an unknown ticket is a 404, and a customer asking for someone else's ticket gets a 403 |
| Tickets.GetTicketAsWritten | backend/routes/tickets.js:106-147 | the ticket comes with every attachment of the ticket, including those of internal notes |
| Tickets.GetTicket | backend/routes/tickets.js:106-147 | the ticket comes with its attachments, leaving out for customers those of internal notes |
| Tickets.StaffViewUnchanged | backend/routes/tickets.js:135-140 | for staff, the corrected view equals the route as written |
| Tickets.InternalAttachmentLeaks | backend/routes/tickets.js:135-140 | in a valid store, the route as written shows a customer an internal note's attachment, and the corrected view does not |
| Tickets.AutoAssignee | backend/routes/tickets.js:163-166 | a new ticket is assigned to the configured agent exactly when that setting is present and not empty |
| Tickets.CreateTicket | backend/routes/tickets.js:150-203 | subject and description are required; the ticket gets the next number, status open, and the caller as customer; its files are recorded; staff are notified; an unknown priority fails before a number is drawn, a missing customer or assignee fails after, using up a number |
| Tickets.CreateTicketKeepsValid | backend/routes/tickets.js:168-186 | creating a ticket preserves the invariant |
| Tickets.FailedInsertSkipsANumber | backend/routes/tickets.js:168-172 | after an insert that fails on a foreign key, the next ticket created gets the number after the lost one |
| Tickets.UpdateOutcome | backend/routes/tickets.js:206-293 | the codes of the update route, in order: 404, 403 for a foreign ticket, 403 for a customer writing staff fields, 400 for an empty body |
| Tickets.UpdateTicketAsWritten | backend/routes/tickets.js:279-286 | as written, a status notice is sent whenever the body has a status that differs from the stored label, whether or not it was written, and a new assignee is notified |
| Tickets.UpdateTicket | backend/routes/tickets.js:206-293 | every successful update stamps the ticket's `updated_at`; the corrected route sends a status notice only when the stored status actually changed |
| Tickets.CustomerKeepsStaffFields | backend/routes/tickets.js:222-230 | an update by a customer leaves status, priority, assignee and group as they were |
| Tickets.StampsOnlyGrow | backend/migrations/001_initial_schema.js:166-168 | every update sets `updated_at` to its own time and leaves `created_at`; the resolved and closed stamps are only ever set (tickets.js:248-252) |
| Tickets.StatusNoticeIffStatusChanged | backend/routes/tickets.js:279-281 | the corrected route notifies exactly when the status changed |
| Tickets.SpuriousStatusNotice | backend/routes/tickets.js:222-281 | as written, a customer who sends an empty status with a new subject triggers a status notice although the status stays the same |
| Tickets.UpdateTicketKeepsValid | backend/routes/tickets.js:236-265 | an update preserves the invariant |
| Tickets.DeleteTicket | backend/routes/tickets.js:296-313 | only administrators may delete; an unknown ticket is a 404; deletion cascades |
| Comments.FilesOf | backend/routes/comments.js:67-73 | a comment's files are exactly the attachments linked to it |
| Comments.ListComments | backend/routes/comments.js:33-80 | the caller must be allowed to see the ticket; customers see no internal notes; the thread is oldest first and carries each comment's files |
| Comments.TicketViewAgreesWithThread | backend/routes/comments.js:58-73 | a customer sees a comment's attachment in the corrected ticket view exactly when the thread shows that comment |
| Comments.TicketViewAsWrittenDisagrees | backend/routes/tickets.js:135-140 | in the example store the thread hides the internal note, while the ticket route as written shows its file |
| Comments.CreateComment | backend/routes/comments.js:83-159 | content and ticket are required; access rules apply; only staff may write internal notes; the ticket's `updated_at` is bumped; the notice matches the visibility |
| Comments.CreateCommentKeepsValid | backend/routes/comments.js:115-136 | adding a comment preserves the invariant |
| Comments.CustomersNeverTouchInternalNotes | backend/routes/comments.js:58-60 | a customer's comment is never internal, and a customer's thread never shows an internal note |
| Comments.PublicCommentReachesOwner | backend/routes/comments.js:115-120 | a public comment shows in the ticket owner's thread |
| Comments.EditComment | backend/routes/comments.js:162-197 | content is required; an unknown comment is a 404; only the author may edit; only the content changes, and the comments trigger stamps `updated_at` with the time of the edit |
| Comments.EditKeepsVisibility | backend/routes/comments.js:162-197 | an edit never changes who may see the comment |
| Comments.EditCommentKeepsValid | backend/routes/comments.js:162-197 | an edit preserves the invariant |
| Comments.DeleteComment | backend/routes/comments.js:200-227 | an unknown comment is a 404; only an administrator or the author may delete; deletion cascades to the files |
| Comments.DeleteCommentTakesFiles | backend/routes/comments.js:200-227 | after a delete no attachment names the comment |
| Notify.NewTicketRecipients | backend/services/emailService.js:58-90 | a new ticket mails exactly the active, verified staff |
| Notify.NewCommentRecipients | backend/services/emailService.js:93-147 | a public comment mails the verified customer and the verified assignee, but never its own author |
| Notify.InternalCommentRecipients | backend/services/emailService.js:203-256 | an internal note mails only active, verified staff other than its author |
| Notify.StatusChangeRecipients | backend/services/emailService.js:258-302 | a status change mails the ticket's verified customer and its verified assignee, and nobody when either status is missing |
| Notify.AssignmentRecipients | backend/services/emailService.js:304-351 | an assignment mails the assignee exactly when that account is verified |
| Notify.Sent | backend/services/emailService.js:11-14 | the transporter exists only when `SMTP_HOST` and `SMTP_USER` are both set and non-empty; without it no mail is sent (lines 36-40), with it every recipient of the notice is mailed |
| Notify.TicketMailOnlyToVerified | backend/services/emailService.js:62-328 | every ticket notice goes only to verified addresses |
| Notify.InternalNoteStaysWithStaff | backend/services/emailService.js:211-242 | an internal note never reaches a customer or its own author |
| Notify.AuthorNotMailedOwnComment | backend/services/emailService.js:135-143 | a comment's author is not mailed about their own comment |
| Users.ListUsers | backend/routes/users.js:11-39 | administrators list everyone; others may list only by role; the role filter keeps exactly the named roles |
| Users.RoleFilterOpensTheList | backend/routes/users.js:16-24 | with the staff role filter, anyone may list the administrators and agents |
| Users.GetUser | backend/routes/users.js:42-64 | a user may read their own account and an administrator may read any; an unknown id is a 404 |
| Users.CreatedUserReadsBack | backend/routes/users.js:42-106 | an account an administrator creates reads back with the given columns, the default role when none was picked, active, and never logged in |
| Users.CreateUser | backend/routes/users.js:67-106 | only administrators create accounts; the fields are required; a username or e-mail clash is refused; the new account has the chosen role |
| Users.CreateUserKeepsValid | backend/routes/users.js:67-106 | creating an account preserves the invariant |
| Users.CreatedUserLogsIn | backend/routes/users.js:82-101 | an account an administrator created logs in with its password |
| Users.UpdateUser | backend/routes/users.js:109-177 | self or administrator only; the role and active flag are written only by administrators; a clash is refused; nothing else changes |
| Users.NoSelfPromotion | backend/routes/users.js:141-149 | a non-administrator never changes any account's role |
| Users.UpdateUserKeepsValid | backend/routes/users.js:109-177 | an account update preserves the invariant |
| Users.ChangeUserPassword | backend/routes/users.js:180-229 | access and policy are checked, then the write fails on a column the schema lacks, so nothing is stored |
| Users.PolicyMessagesJoinedDifferently | backend/routes/users.js:190-191 | the two password routes join the same policy messages with different separators |
| Users.DeleteUser | backend/routes/users.js:232-253 | administrators only; one's own account cannot be deleted; an unknown id is a 404; deletion cascades |
| Users.DeleteKeepsActingAdmin | backend/routes/users.js:236-243 | the acting administrator survives any delete |
| Users.SetEmailVerified | backend/routes/users.js:256-281 | administrators only; the flag is required; only that column changes |
| Users.VerifiedFlagReachesMail | backend/services/emailService.js:61-63 | an active staff account is on the staff mailing list exactly when the toggle last marked it verified |
| Users.VerifiedFlagIgnoredByLogin | backend/routes/auth.js:30-47 | the toggle changes no login answer: logging in does not read the flag |
| Users.AdminResetPassword | backend/routes/users.js:284-315 | administrators only; the password needs eight UTF-16 code units and no other rule of the policy; an unknown id is a 404; only the hash changes |
| Users.AdminResetSkipsPolicy | backend/routes/users.js:293-305 | the administrator reset accepts a password the policy refuses |
| Users.AdminResetLogsIn | backend/routes/users.js:298-301 | after the reset an active account logs in with the new password, by its username or its address |
| Groups.ListGroups | backend/routes/groups.js:9-20 | every group is listed exactly once |
| Groups.ListFollowsCreateAndDelete | backend/routes/groups.js:9-145 | a created group is listed along with the earlier ones, and a deleted group is not |
| Groups.GetGroup | backend/routes/groups.js:23-55 | an unknown group is a 404; the members listed are exactly the users in the group |
| Groups.CreateGroup | backend/routes/groups.js:58-81 | administrators only; the name is required and must be unused |
| Groups.UpdateGroup | backend/routes/groups.js:84-125 | administrators only; an empty body is a 400; an unknown group is a 404; the new name must be unused |
| Groups.GroupWritesKeepValid | backend/routes/groups.js:58-125 | creating and renaming keep group names unique and the invariant intact |
| Groups.DeleteGroup | backend/routes/groups.js:128-145 | administrators only; an unknown group is a 404; memberships go and tickets lose the group |
| Groups.AddMember | backend/routes/groups.js:148-169 | administrators only; the user id is required; the membership is added, and adding it twice is harmless |
| Groups.RemoveMember | backend/routes/groups.js:172-188 | administrators only; the membership is gone afterwards, whether or not it existed |
| Groups.AddMemberIdempotent | backend/routes/groups.js:158 | adding the same member twice leaves the store as adding once |
| Groups.RemoveUndoesAdd | backend/routes/groups.js:148-188 | removing a membership that was just added restores the store |
| Groups.MembershipShowsInGroup | backend/routes/groups.js:23-55 | an added member is listed by the group, and a removed one is not |
| Groups.MemberWritesKeepValid | backend/routes/groups.js:148-188 | membership writes preserve the invariant |
| Settings.ListSettings | backend/routes/settings.js:9-27 | administrators only; every setting is listed |
| Settings.PutThenList | backend/routes/settings.js:9-96 | after a put the list holds the key with the row the put returned, and every other key as before |
| Settings.GetSetting | backend/routes/settings.js:30-45 | administrators only; an unknown key is a 404 |
| Settings.PutSetting | backend/routes/settings.js:48-96 | administrators only; an empty body is a 400; a new key is a 201 and an existing one a 200; the author is recorded |
| Settings.PutThenGet | backend/routes/settings.js:48-96 | after a put, reading the key gives the value written |
| Settings.PutSettingIdempotent | backend/routes/settings.js:48-96 | a repeated put leaves the store as after the first |
| Settings.DeleteSetting | backend/routes/settings.js:99-116 | administrators only; an unknown key is a 404; only that key goes |
| Settings.DeleteUndoesCreate | backend/routes/settings.js:48-116 | deleting a key that was just created restores the store |
| Settings.KeepPreserved | backend/routes/settings.js:127-138 | the reset keeps exactly the preserved keys, with their values |
| Settings.ResetDatabase | backend/routes/settings.js:119-175 | administrators only; everything but the preserved keys is dropped and the defaults are written |
| Settings.ResetRestoresDefaults | backend/routes/settings.js:141-158 | after a reset the settings are the preserved ones plus every default |
| Settings.ResetKeepsValid | backend/routes/settings.js:119-175 | the reset preserves the invariant |
| Theme.ThemeSettings | backend/routes/theme.js:53-76 | the theme shows the stored values and falls back to the defaults |
| Theme.ThemeNeverBlank | backend/routes/theme.js:67-69 | mode, colour and company name are never blank |
| Theme.UpdateTheme | backend/routes/theme.js:79-122 | administrators only; each non-empty field is written; other settings are untouched |
| Theme.UpdateThenRead | backend/routes/theme.js:79-122 | after an update the theme shows the values written |
| Theme.UpdateThemeKeepsValid | backend/routes/theme.js:96-108 | a theme update preserves the invariant |
| Theme.AllowedTypes | backend/routes/theme.js:30-42 | only logos and favicons have allowed file types |
| Theme.UploadBranding | backend/routes/theme.js:125-209 | administrators only; a missing file is a 400; a type the filter refuses fails; an accepted file from an account that no longer exists fails the `updated_by` reference and is answered with PostgreSQL's own message (the catch at line 207 echoes `error.message`); success stores the new URL |
| Theme.InvalidTypeUnreachable | backend/routes/theme.js:133-134 | the route's own invalid-type answer can never be reached, because the filter refuses first |
| Theme.UploadShowsInTheme | backend/routes/theme.js:172-184 | after an upload the theme shows the new URL |
| Theme.UrlsDistinct | backend/routes/theme.js:13-28 | uploads at different times get different file names |
| Theme.UploadKeepsValid | backend/routes/theme.js:184 | an upload preserves the invariant |
| Bootstrap.BuiltInAdmin | backend/config/database.js:31-50 | the built-in administrator is active and verified, must change the password, and takes each field from the environment or its default |
| Bootstrap.InitDatabase | backend/config/database.js:20-53 | an administrator is created only when none exists and the username is free |
| Bootstrap.InitIdempotent | backend/config/database.js:25-31 | a second start changes nothing |
| Bootstrap.FirstStartCreatesAdmin | backend/config/database.js:25-50 | on an empty database the built-in administrator is created and logs in |
| Bootstrap.UsernameClashLeavesNoAdmin | backend/config/database.js:38 | if a non-administrator holds the username, the conflict clause skips the insert and no administrator exists |
| Bootstrap.InitKeepsValid | backend/config/database.js:20-53 | start-up preserves the invariant |
| Migrations.NameDropsExtension | backend/migrations/index.js:80 | the migration's name is the file name without `.js` |
| Migrations.SortNames | backend/migrations/index.js:72-74 | the sort returns a permutation in ascending order |
| Migrations.Candidates | backend/migrations/index.js:72-74 | the candidates are exactly the migration files, ascending |
| Migrations.CandidatesIgnoreListingOrder | backend/migrations/index.js:72-74 | the directory's listing order does not affect the run order |
| Migrations.Mark | backend/migrations/index.js:41-55 | marking records the name, and marking again is harmless |
| Migrations.RunMigrations | backend/migrations/index.js:58-105 | the pending migrations run in order; the run stops at the first failure with its message; the record holds those already executed plus those that ran |
| Migrations.SecondRunIsEmpty | backend/migrations/index.js:82-85 | after a complete run nothing is pending |
| Navigation.Resolve | frontend/src/App.js:46-115 | a path resolves to a page whose own path it is |
| Navigation.PathInjective | frontend/src/App.js:46-115 | different pages have different paths |
| Navigation.Guard | frontend/src/App.js:21-37 | the guard waits while loading, sends visitors to the login page, and sends a disallowed role to the dashboard |
| Navigation.Open | frontend/src/App.js:21-115 | a private page is shown only to a signed-in user |
| Navigation.WhoSeesWhat | frontend/src/App.js:83-106 | the three management pages show only to administrators, and every other page to any signed-in user |
| Navigation.VisitorsSeePublicPagesOnly | frontend/src/App.js:21-37 | without a session only the public pages show |
| Navigation.RedirectsSettle | frontend/src/App.js:24-34 | every redirect lands on a page that shows, or redirects once more to the login page |
| Navigation.GuardAgreesWithServer | frontend/src/App.js:83-106 | the management pages show exactly to the roles the admin-only routes serve |
| Navigation.Menu | frontend/src/components/Layout.js:138-155 | the drawer holds the entries the role admits, in menu order |
| Navigation.MenuByRole | frontend/src/components/Layout.js:55-63 | administrators see the whole drawer, other roles the three shared items, and nobody signed in sees nothing |
| Navigation.MenuLinksOpen | frontend/src/components/Layout.js:143-145 | every drawer link opens its page for that role, never a redirect |
| TicketList.FilterTickets | frontend/src/pages/TicketList.js:51-77 | the list keeps exactly the rows that match the search and both pickers, in their original order |
| TicketList.FilterOrderIrrelevant | frontend/src/pages/TicketList.js:51-77 | applying the three filters in another order gives the same list |
| TicketList.BlankQueryIgnored | frontend/src/pages/TicketList.js:55 | a query of only whitespace filters nothing |
| TicketList.NoFilterKeepsAll | frontend/src/pages/TicketList.js:51-77 | with no query and both pickers on `all`, every row is listed |
| TicketList.NumberFindsTicket | frontend/src/pages/TicketList.js:56-65 | searching for a ticket's number finds that ticket |
| TicketList.StatusPickerAgreesWithServer | frontend/src/pages/TicketList.js:68-70 | picking a status on the page keeps the rows the server keeps for that status filter |
| Dashboard.Summarize | frontend/src/pages/Dashboard.js:46-53 | the total is the number of tickets; each status's card counts the tickets with that status; the five cards plus the tickets without a status add up to the total |
| Dashboard.CardsSumToTotal | frontend/src/pages/Dashboard.js:47-52 | when every ticket has a status, the five cards add up to the total |
| Dashboard.CardMatchesList | frontend/src/pages/Dashboard.js:48-52 | the summary's card for a status counts what the list page shows for that status |
| Dashboard.SummaryMatchesList | frontend/src/pages/Dashboard.js:48-52 | the `open`, `inProgress`, `pending`, `resolved` and `closed` cards count what the list page shows for the labels 'open', 'in_progress', 'pending', 'resolved' and 'closed' |
| Dashboard.Recent | frontend/src/pages/Dashboard.js:55 | the recent tickets are the first five, or all of them when there are fewer |
| Dashboard.RecentAreNewest | frontend/src/pages/Dashboard.js:55 | given the server's newest-first order, no ticket left out is newer than one shown |
| TicketDetail.AgentMeansStaff | frontend/src/pages/TicketDetail.js:50 | the page's notion of agent is the server's notion of staff |
| TicketDetail.DeleteButtonMatchesServer | frontend/src/pages/TicketDetail.js:234-243 | the delete button shows exactly to the callers the delete route serves |
| TicketDetail.EditIconMatchesServer | frontend/src/pages/TicketDetail.js:403-411 | a non-blank edit from the edit icon succeeds exactly when the icon shows |
| TicketDetail.ReplyOnEveryShownComment | frontend/src/pages/TicketDetail.js:483 | every comment the thread returns has a reply button |
| TicketDetail.PickChange | frontend/src/pages/TicketDetail.js:107-115 | a picker change sends one field, and never a subject or a description |
| TicketDetail.StaffPicksAccepted | frontend/src/pages/TicketDetail.js:275-326 | a staff choice in a picker is stored, and "Unassigned" clears the assignee |
| TicketDetail.CustomerPicksRefused | frontend/src/pages/TicketDetail.js:275-326 | the route refuses every picker request from a customer |
| TicketDetail.Apply | frontend/src/pages/TicketDetail.js:136-173 | a reply copies the answered comment's visibility, the note button sets internal, and cancelling or posting resets the composer |
| TicketDetail.RunStaysCoherent | frontend/src/pages/TicketDetail.js:136-173 | whatever the clicks, the main form never carries the internal flag and the note form always does |
| TicketDetail.CommentRequest | frontend/src/pages/TicketDetail.js:123-126 | the request carries the text, and its flag reads "true" exactly when the composer is internal |
| TicketDetail.MainFormPostsPublic | frontend/src/pages/TicketDetail.js:123-173 | a comment posted from the main form is stored public |
| TicketDetail.PostsKeepTheThreadsVisibility | frontend/src/pages/TicketDetail.js:151-165 | a reply is internal exactly when it answers an internal comment and the author is staff, and a note is internal exactly when the author is staff |
| TicketDetail.ImageTestIgnoresCase | frontend/src/pages/TicketDetail.js:66-69 | the image test ignores case |
| TicketDetail.ImageNeedsDot | frontend/src/pages/TicketDetail.js:66-69 | a name without a dot is never previewed as an image |
| Profile.Additions | frontend/src/pages/Profile.js:97-101 | the groups to join are exactly those selected and not current, in selection order |
| Profile.Removals | frontend/src/pages/Profile.js:104-108 | the groups to leave are exactly those current and not selected |
| Profile.AddEach | frontend/src/pages/Profile.js:97-101 | the joins succeed exactly when every group exists and the caller is an administrator; only memberships change, and they only grow |
| Profile.RemoveEach | frontend/src/pages/Profile.js:104-108 | the leaves succeed for an administrator, and then exactly those memberships are gone |
| Profile.SaveRoleAndGroups | frontend/src/pages/Profile.js:83-119 | the save as intended, with the current groups as an input: a non-administrator's save fails and changes nothing; a save never touches groups, tickets or settings |
| Profile.SaveMakesMembershipTheSelection | frontend/src/pages/Profile.js:83-119 | after a successful save the account's groups are exactly the selection, the role is the one picked, and no other account's memberships moved |
| Profile.SaveSucceeds | frontend/src/pages/Profile.js:333-343 | the save succeeds for an administrator with a valid role and existing groups: the button shows exactly where the routes serve it |
| Profile.SaveAsWritten | frontend/src/pages/Profile.js:83-119 | the save as written always fails: the role is written, then the fetch of the current groups is refused, and no membership changes |
| Profile.AsWrittenSaveStopsAfterRole | frontend/src/pages/Profile.js:89-101 | the save as written writes the same role as the intended one but fails with the fallback message, and a group the intended save joins is not joined |
| Profile.PasswordFormError | frontend/src/pages/Profile.js:152-160 | the form passes exactly when the fields agree and the password has six UTF-16 code units, and names the first problem otherwise |
| Profile.PolicyImpliesFormCheck | frontend/src/pages/Profile.js:152-160 | every password the server's policy accepts passes the form |
| Profile.FormCheckWeakerThanPolicy | frontend/src/pages/Profile.js:152-160 | the form accepts a password the policy refuses |

## Left out

- Password hashing is a constructor: `Hashed(p)` matches `p` and nothing else. bcrypt's cost and salt are not modelled.
- JWT signing and the `auth` middleware that decodes the token are not modelled. Every route takes its caller as an `Actor` (id and role).
- Randomness is a parameter: fresh ids, the six-digit codes, and the temporary password.
- The clock is a parameter: times are naturals passed in by the caller.
- SMTP delivery and the HTML of the mails are not modelled. Only the choice of recipients is.
- PostgreSQL collation is not modelled. `GET /groups` orders the groups by name and `GET /groups/:id` orders the members by username; the model leaves both orders open and only states which rows appear.
- UUID cast errors are not modelled. A malformed id in a path or in a list filter (a ticket list's `assignedTo` or `group`) is a database error in the source; here an id is an opaque string, so it is simply unknown. Only the enum casts of the list filters (status, priority, role) are modelled.
- `VARCHAR` length limits are not modelled. The database errors that are modelled:
  - unique conflicts;
  - NOT NULL violations of a user, group or ticket update;
  - the enum casts of the list filters and of a ticket update;
  - the foreign keys of new tickets, ticket updates, new comments, memberships, setting writes, the theme update, the branding upload and the database reset;
  - the missing column named below.

  Not modelled: UUID casts (above), length limits, and failures of the connection itself.
- File storage is not modelled: multer's disk writes, image resizing with sharp, and file deletion. An upload is its metadata: its type and size. The 5 MB limit of the branding upload is modelled; the attachment limits of the ticket and comment routes are not.
- Theme.UploadBranding: a file the upload middleware refuses (a type its filter rejects, or over 5 MB) is answered here as a 500 carrying the middleware's message. The source hands that error to `next`, so the real answer depends on the server's error handler, which is not part of this model; Express's default handler answers with an HTML page, not with `{ error }`.
- Concurrency and transactions are not modelled. Every route runs alone against one store, so the theme route's BEGIN/COMMIT is one atomic step.
- `GET /auth/me` is not modelled: it only reads the caller's account.
- The audit log table is not modelled: no route of the core writes to it.
- The `updated_at` columns of users, groups and settings are not modelled. The triggers of the first migration (001_initial_schema.js:155-164) stamp the users and groups columns on every update, and the settings routes set theirs explicitly. The store keeps the column only for tickets and comments.
- TicketList.FilterTickets: `toLowerCase` is modelled for ASCII letters only (`Text.Lower`), so the search ignores case only for A to Z. JavaScript also folds other letters, such as `É` to `é`. The same holds for TicketDetail's image test.
- The seed migration is not part of this model. It stores `allow_customer_registration`, while the register route reads `registration_enabled`, so the seed data never opens registration. The model reads the key the route reads.
- Users.ChangeUserPassword: the route writes a `password` column that the schema lacks. The model answers the failed write with the route's 500 and stores nothing. It does not model a working password change, because no such column exists.
- Migrations.SortNames: it orders names character by character, by code point. JavaScript's `sort` compares UTF-16 code units, and the two orders differ only for names with characters above U+FFFF. Migration file names are ASCII.
- The `up()` bodies of the migrations are not modelled. The runner takes the set of failing migrations as a parameter, and the schema they create is the `Store` itself.
- Profile.SaveRoleAndGroups: the page reads the current groups from `GET /users/:id/groups`, which the users routes do not define (see Findings). `Profile.SaveAsWritten` models the page as written. `SaveRoleAndGroups` models the intended save, with the current list as an input. The mounting of routes in the server entry file is not part of this model.
- Profile.SaveMakesMembershipTheSelection: it holds of the intended save only. As written, no save ever changes a membership.
- Profile.SaveSucceeds: it holds of the intended save only. As written, every save fails after writing the role.
- Profile.SaveAsWritten: the fallback message assumes the 404 for the missing route has no JSON `error` member. That is Express's default, but the server entry file is not part of this model.
- Profile.SaveRoleAndGroups: the caller's role is held fixed for the whole save, although the middleware could reload it between requests.
- Profile.SaveRoleAndGroups: the profile-information form and the request behind the password form are not modelled. Only the password form's own check is.
- Navigation.Resolve: React Router's case-insensitive matching and its tolerance of a trailing slash are not modelled. Paths match exactly.
- The pages that are not part of the core are not modelled: login, registration, users, groups, settings, and the new-ticket form. Their requests are the routes modelled above.
- The dashboard's and the list page's loading spinners, snackbars and error banners are not modelled. Only the data they show is.

## Findings

| source | as written | input that shows it | evidently intended | confidence | as-written member | corrected member |
|---|---|---|---|---|---|---|
| backend/routes/tickets.js:135-140 | the ticket route returns every attachment whose `ticket_id` is the ticket, including files attached to internal notes, to any caller allowed to read the ticket | a customer reads their own ticket, on which an agent posted an internal note with a file | a customer sees only the attachments of the ticket itself and of public comments, as the comment route already filters | not executed | Tickets.InternalAttachmentLeaks | Comments.TicketViewAgreesWithThread |
| backend/routes/tickets.js:279-281 | a status notice is sent whenever the body carries a `status` member that differs from the stored one, even when the customer branch did not write it | a customer sends `{subject: "x", status: ""}` for their open ticket: the empty status passes the customer check, is not written, and still triggers a notice from "open" to "" | notify only when the stored status changed | not executed | Tickets.SpuriousStatusNotice | Tickets.StatusNoticeIffStatusChanged |
| backend/routes/auth.js:362-370 | the expiry is read with `/expires at (.+)$/`, which matches at the first `expires at ` after which the rest of the description has no line break, including one inside the user's address | an account whose address is `"expires at "@example.com` asks for a reset: the capture starts inside the address, is not a date, and the code never expires | read only the recorded expiry, for example with `/expires at (\S+)$/` | not executed; medium, since the verdict rests on `new Date` refusing the longer capture, which the model assumes | Auth.MarkerInAddressDisablesExpiry | Auth.CorrectedExpiryHonoured |
| frontend/src/pages/Profile.js:93 | after writing the role, the save fetches `GET /users/:id/groups`, which the user routes do not define, so every save fails with "Failed to update role and groups" and no membership is synced | an administrator picks a new group on their profile and saves | fetch the current groups from a route the server serves, then sync the memberships | not executed; high for the user routes, though the server entry file is not part of this model | Profile.SaveAsWritten | Profile.SaveMakesMembershipTheSelection |

=== FILE: auth.dfy ===
/** The authentication routes (`routes/auth.js`): login by username or
    e-mail, password change, username availability, self-registration with
    an e-mailed verification code, and password reset by e-mailed code.
    The one-time codes live in the `settings` table under per-user keys; a
    reset code's expiry is written into the row's description and read
    back with a regular expression. */
module Auth {

  import opened Common
  import opened Text
  import opened Schema
  import opened PasswordPolicy

  // ---------------------------------------------------------------------
  // Clock and codes
  // ---------------------------------------------------------------------

  const HourMs: nat := 60 * 60 * 1000
  const DayMs: nat := 24 * HourMs

  /** `toISOString()` of an instant. Instants are milliseconds, and the
      rendering is their decimal form, which `new Date(...)` reads back. */
  function Iso(ms: nat): (r: string)
    ensures ParseDate(r) == Some(ms)
  {
    DecimalRoundTrip(ms);
    Decimal(ms)
  }

  /** `new Date(text)`: `None` is the Invalid Date, which no comparison
      finds later than anything. */
  function ParseDate(text: string): Option<nat> {
    ParseDecimal(text)
  }

  /** `crypto.randomInt(100000, 999999)`: the upper bound is exclusive. */
  type SixDigit = n: nat | 100000 <= n < 999999 witness 100000

  /** The settings keys holding the one-time codes of user `id`. */
  function VerificationKey(id: Id): string { "email_verification_" + id }
  function ResetKey(id: Id): string { "password_reset_" + id }

  /** A verification key and a reset key never collide, whatever the ids. */
  lemma CodeKeysDisjoint(a: Id, b: Id)
    ensures VerificationKey(a) != ResetKey(b)
  {
    assert VerificationKey(a)[0] == 'e' && ResetKey(b)[0] == 'p';
  }

  /** The marker in a code's description that precedes its expiry. */
  const Marker := "expires at "

  function VerificationDescription(email: string, expiry: nat): string {
    "Email verification token for user " + email + ", " + Marker + Iso(expiry)
  }

  function ResetHead(email: string): string {
    "Password reset token for user " + email + ", "
  }

  function ResetDescription(email: string, expiry: nat): string {
    ResetHead(email) + Marker + Iso(expiry)
  }

  // ---------------------------------------------------------------------
  // `description.match(/expires at (.+)$/)`
  // ---------------------------------------------------------------------

  /** The characters `.` does not match. */
  predicate LineTerminator(c: char) {
    c == '\n' || c == '\r' || c == '\U{2028}' || c == '\U{2029}'
  }

  /** The pattern that reads the expiry back. The route's
      `/expires at (.+)$/` captures anything but line terminators, so its
      capture may start at a marker inside the address; the corrected
      `/expires at (\S+)$/` captures no white space, so it cannot run over
      the space that ends the recorded marker. */
  datatype Pattern = AsWritten | NoSpaces

  predicate Captures(p: Pattern, c: char) {
    match p
    case AsWritten => !LineTerminator(c)
    case NoSpaces => !IsSpace(c)
  }

  predicate CapturesAll(p: Pattern, s: string) {
    forall i :: 0 <= i < |s| ==> Captures(p, s[i])
  }

  lemma CapturesAllConcat(p: Pattern, a: string, b: string)
    ensures CapturesAll(p, a + b) <==> CapturesAll(p, a) && CapturesAll(p, b)
  {
    if CapturesAll(p, a) && CapturesAll(p, b) {
      forall i | 0 <= i < |a + b| ensures Captures(p, (a + b)[i]) {
        if i >= |a| { assert (a + b)[i] == b[i - |a|]; }
      }
    }
    if CapturesAll(p, a + b) {
      forall i | 0 <= i < |a| ensures Captures(p, a[i]) {
        assert (a + b)[i] == a[i];
      }
      forall i | 0 <= i < |b| ensures Captures(p, b[i]) {
        assert (a + b)[|a| + i] == b[i];
      }
    }
  }

  /** The pattern matches starting at `i`: the marker, then at least one
      character, every one up to the end of the text captured. */
  predicate ExpiryMatchAt(p: Pattern, d: string, i: int) {
    OccursAt(d, Marker, i) && i + |Marker| < |d| && CapturesAll(p, d[i + |Marker|..])
  }

  /** The leftmost match at or after `from`. */
  function FirstExpiryMatch(p: Pattern, d: string, from: nat): (r: Option<nat>)
    ensures r.Some? ==> from <= r.value && ExpiryMatchAt(p, d, r.value)
    ensures r.Some? ==> forall j :: from <= j < r.value ==> !ExpiryMatchAt(p, d, j)
    ensures r.None? ==> forall j :: from <= j ==> !ExpiryMatchAt(p, d, j)
    decreases |d| - from
  {
    if from + |Marker| >= |d| then None
    else if ExpiryMatchAt(p, d, from) then Some(from)
    else FirstExpiryMatch(p, d, from + 1)
  }

  /** The captured group: everything after the leftmost matching marker. */
  function ExpiryText(p: Pattern, d: string): (r: Option<string>)
    ensures r.None? <==> forall i :: !ExpiryMatchAt(p, d, i)
    ensures r.Some? ==> exists i :: ExpiryMatchAt(p, d, i) && r.value == d[i + |Marker|..]
  {
    match FirstExpiryMatch(p, d, 0)
    case None => None
    case Some(i) => Some(d[i + |Marker|..])
  }

  /** The expiry check of the reset route: only a description whose capture
      reads as a date, and a clock past that date, make a code expired. */
  predicate Expired(p: Pattern, description: string, now: nat) {
    match ExpiryText(p, description)
    case None => false
    case Some(t) => ParseDate(t).Some? && now > ParseDate(t).value
  }

  /** The text before the recorded marker holds a marker from which the
      pattern matches too. */
  predicate EarlyMarker(p: Pattern, head: string) {
    exists j :: 0 <= j < |head| && OccursAt(head + Marker, Marker, j) && CapturesAll(p, (head + Marker)[j + |Marker|..])
  }

  /** With no early marker the capture is what follows the recorded one;
      with one, the capture starts earlier and so holds the space that ends
      the recorded marker. */
  lemma ExpiryAfterHead(p: Pattern, head: string, s: string)
    requires s != [] && CapturesAll(p, s)
    ensures !EarlyMarker(p, head) ==> ExpiryText(p, head + Marker + s) == Some(s)
    ensures EarlyMarker(p, head) ==>
      ExpiryText(p, head + Marker + s).Some? && ' ' in ExpiryText(p, head + Marker + s).value
  {
    var d := head + Marker + s;
    var hm := head + Marker;
    assert d == hm + s;
    assert d[|head|..|head| + |Marker|] == Marker;
    assert d[|head| + |Marker|..] == s;
    assert ExpiryMatchAt(p, d, |head|);
    forall j | 0 <= j < |head|
      ensures ExpiryMatchAt(p, d, j) <==> OccursAt(hm, Marker, j) && CapturesAll(p, hm[j + |Marker|..])
    {
      assert d[j..j + |Marker|] == hm[j..j + |Marker|];
      assert d[j + |Marker|..] == hm[j + |Marker|..] + s;
      CapturesAllConcat(p, hm[j + |Marker|..], s);
    }
    var v := FirstExpiryMatch(p, d, 0).value;
    if EarlyMarker(p, head) {
      var j :| 0 <= j < |head| && OccursAt(hm, Marker, j) && CapturesAll(p, hm[j + |Marker|..]);
      assert v <= j;
      var c := d[v + |Marker|..];
      assert c[|head| + |Marker| - 1 - (v + |Marker|)] == d[|head| + |Marker| - 1] == ' ';
    } else {
      assert v == |head|;
    }
  }

  /** The corrected pattern never finds an early marker: the capture after
      one would hold the space that ends the recorded marker. */
  lemma NoSpacesNeverEarly(head: string)
    ensures !EarlyMarker(NoSpaces, head)
  {
    var hm := head + Marker;
    forall j | 0 <= j < |head| && OccursAt(hm, Marker, j) ensures !CapturesAll(NoSpaces, hm[j + |Marker|..]) {
      assert hm[j + |Marker|..][|hm| - 1 - (j + |Marker|)] == hm[|hm| - 1] == ' ';
    }
  }

  /** The address holds the marker with no line terminator after it. */
  predicate MarkerInAddress(email: string) {
    exists k :: 0 <= k < |email| && OccursAt(email, Marker, k) && CapturesAll(AsWritten, email[k + |Marker|..])
  }

  const ResetPrefix := "Password reset token for user "

  /** In a reset description, the route's pattern finds an early marker
      exactly when the address holds one: the fixed text around the address
      cannot start or finish a marker. */
  lemma EarlyMarkerIsInAddress(email: string)
    ensures EarlyMarker(AsWritten, ResetHead(email)) <==> MarkerInAddress(email)
  {
    if MarkerInAddress(email) {
      var k :| 0 <= k < |email| && OccursAt(email, Marker, k) && CapturesAll(AsWritten, email[k + |Marker|..]);
      AddressMarkerIsEarly(email, k);
    }
    if EarlyMarker(AsWritten, ResetHead(email)) {
      var j :| 0 <= j < |ResetHead(email)| && OccursAt(ResetHead(email) + Marker, Marker, j)
        && CapturesAll(AsWritten, (ResetHead(email) + Marker)[j + |Marker|..]);
      EarlyMarkerIsAddressMarker(email, j);
    }
  }

  lemma AddressMarkerIsEarly(email: string, k: int)
    requires 0 <= k < |email| && OccursAt(email, Marker, k) && CapturesAll(AsWritten, email[k + |Marker|..])
    ensures EarlyMarker(AsWritten, ResetHead(email))
  {
    var hm := ResetHead(email) + Marker;
    var n := |ResetPrefix|;
    assert hm == ResetPrefix + email + (", " + Marker);
    assert hm[n + k..n + k + |Marker|] == email[k..k + |Marker|];
    assert hm[n + k + |Marker|..] == email[k + |Marker|..] + (", " + Marker);
    assert CapturesAll(AsWritten, ", " + Marker);
    CapturesAllConcat(AsWritten, email[k + |Marker|..], ", " + Marker);
    assert 0 <= n + k < |ResetHead(email)| && OccursAt(hm, Marker, n + k) && CapturesAll(AsWritten, hm[n + k + |Marker|..]);
  }

  lemma EarlyMarkerIsAddressMarker(email: string, j: int)
    requires 0 <= j < |ResetHead(email)| && OccursAt(ResetHead(email) + Marker, Marker, j)
    requires CapturesAll(AsWritten, (ResetHead(email) + Marker)[j + |Marker|..])
    ensures MarkerInAddress(email)
  {
    var hm := ResetHead(email) + Marker;
    var n := |ResetPrefix|;
    EarlyMarkerInsideAddress(email, j);
    var k := j - n;
    assert hm == ResetPrefix + email + (", " + Marker);
    assert email[k..k + |Marker|] == hm[j..j + |Marker|];
    assert hm[j + |Marker|..] == email[k + |Marker|..] + (", " + Marker);
    CapturesAllConcat(AsWritten, email[k + |Marker|..], ", " + Marker);
    assert 0 <= k < |email| && OccursAt(email, Marker, k) && CapturesAll(AsWritten, email[k + |Marker|..]);
  }

  /** A marker before the recorded one lies wholly inside the address. */
  lemma EarlyMarkerInsideAddress(email: string, j: int)
    requires 0 <= j < |ResetHead(email)| && OccursAt(ResetHead(email) + Marker, Marker, j)
    ensures |ResetPrefix| <= j && j + |Marker| <= |ResetPrefix| + |email|
  {
    var hm := ResetHead(email) + Marker;
    assert hm[j..j + |Marker|] == Marker;
    assert hm[j] == 'e' && hm[j + 1] == 'x';
    assert 'x' !in ResetPrefix && ResetPrefix[|ResetPrefix| - 1] == ' ';
    assert ',' !in Marker;
    var c := |ResetPrefix| + |email|;
    assert hm[c] == ',' && hm[c + 1] == ' ' && |hm| == c + 2 + |Marker|;
    assert forall i :: 0 <= i < |Marker| ==> hm[j + i] == Marker[i];
    if j < |ResetPrefix| {
      assert false;
    }
    if j + |Marker| > |ResetPrefix| + |email| {
      assert false;
    }
  }

  /** The description the forgot-password route writes reads back, under
      the route's pattern, as the expiry it was written with exactly when
      the address holds no marker; under the corrected pattern, always. */
  lemma ResetDescriptionExpiry(email: string, expiry: nat)
    ensures ExpiryText(AsWritten, ResetDescription(email, expiry)) == Some(Iso(expiry)) <==> !MarkerInAddress(email)
    ensures ExpiryText(NoSpaces, ResetDescription(email, expiry)) == Some(Iso(expiry))
  {
    var head := ResetHead(email);
    var t := Iso(expiry);
    assert forall i :: 0 <= i < |t| ==> IsDigit(t[i]);
    assert CapturesAll(AsWritten, t) && CapturesAll(NoSpaces, t);
    EarlyMarkerIsInAddress(email);
    NoSpacesNeverEarly(head);
    ExpiryAfterHead(AsWritten, head, t);
    ExpiryAfterHead(NoSpaces, head, t);
    assert ' ' !in t;
  }

  /** An address holding the marker moves the route's match forward: the
      capture then holds the rest of the address and no longer reads as a
      date, so the reset code of such an account never expires. */
  lemma MarkerInAddressDisablesExpiry(email: string, expiry: nat, now: nat)
    requires MarkerInAddress(email)
    ensures !Expired(AsWritten, ResetDescription(email, expiry), now)
  {
    var head := ResetHead(email);
    var t := Iso(expiry);
    assert forall i :: 0 <= i < |t| ==> IsDigit(t[i]);
    assert CapturesAll(AsWritten, t);
    EarlyMarkerIsInAddress(email);
    ExpiryAfterHead(AsWritten, head, t);
    var c := ExpiryText(AsWritten, ResetDescription(email, expiry)).value;
    assert exists i :: 0 <= i < |c| && !IsDigit(c[i]);
  }

  /** Such an address is a valid one: a quoted local part may hold spaces. */
  lemma QuotedMarkerAddress()
    ensures MarkerInAddress("\"expires at \"@example.com")
  {
    var e := "\"expires at \"@example.com";
    assert e == "\"" + Marker + "\"@example.com";
    assert e[1..1 + |Marker|] == Marker;
    assert 0 <= 1 < |e| && OccursAt(e, Marker, 1) && CapturesAll(AsWritten, e[1 + |Marker|..]);
  }

  /** Under the corrected pattern every address gets its expiry: the code
      is expired exactly when the clock is past the recorded instant. */
  lemma CorrectedExpiryHonoured(email: string, expiry: nat, now: nat)
    ensures Expired(NoSpaces, ResetDescription(email, expiry), now) <==> now > expiry
  {
    ResetDescriptionExpiry(email, expiry);
  }

  // ---------------------------------------------------------------------
  // POST /login
  // ---------------------------------------------------------------------

  /** A login value names an account by e-mail when it contains `@`, by
      username otherwise. */
  predicate Identifies(u: User, login: string) {
    if '@' in login then u.email == login else u.username == login
  }

  ghost function FindAccount(st: Store, login: string): (r: Option<Id>)
    ensures r.Some? ==> r.value in st.users && Identifies(st.users[r.value], login)
    ensures r.None? <==> forall u :: u in st.users ==> !Identifies(st.users[u], login)
  {
    if '@' in login then UserByEmail(st, login) else UserByName(st, login)
  }

  /** Under the uniqueness constraints the lookup finds THE account. */
  lemma FindAccountIsTheAccount(st: Store, login: string, u: Id)
    requires UniqueAccounts(st.users)
    requires u in st.users && Identifies(st.users[u], login)
    ensures FindAccount(st, login) == Some(u)
  {
  }

  /** The login answer without the token: who logged in, with which role,
      and whether the client must force a password change. */
  datatype Session = Session(user: Id, role: Role, forcePasswordChange: bool)

  const BadCredentials := "Invalid username or password"

  ghost function Login(st: Store, login: Field<string>, password: Field<string>, now: nat): (s: Step<Session>)
    ensures s.notices == []
    ensures !s.out.Success() ==> s.st == st && s.out.code in {BadRequest400, Unauthorized401}
    ensures !(Truthy(login) && Truthy(password)) ==> s.out == Err(BadRequest400, "Login and password are required")
    ensures s.out.Success() ==>
      var id := s.out.value.user;
      Truthy(login) && Truthy(password) && id in st.users
      && Identifies(st.users[id], login.v) && st.users[id].isActive
      && PasswordMatches(password.v, st.users[id].passwordHash)
      && s.out == Ok(Ok200, Session(id, st.users[id].role, st.users[id].forcePasswordChange))
      && s.st == st.(users := st.users[id := st.users[id].(lastLogin := Some(now))])
  {
    if !Truthy(login) || !Truthy(password) then Answer(st, Err(BadRequest400, "Login and password are required"))
    else match FindAccount(st, login.v)
      case None => Answer(st, Err(Unauthorized401, BadCredentials))
      case Some(id) =>
        var u := st.users[id];
        if !u.isActive then Answer(st, Err(Unauthorized401, "Account is inactive"))
        else if !PasswordMatches(password.v, u.passwordHash) then Answer(st, Err(Unauthorized401, BadCredentials))
        else
          Answer(st.(users := st.users[id := u.(lastLogin := Some(now))]),
                 Ok(Ok200, Session(id, u.role, u.forcePasswordChange)))
  }

  /** Login succeeds exactly for an active account named by the login value
      whose password matches. */
  lemma LoginIffCredentials(st: Store, login: string, password: string, now: nat)
    requires UniqueAccounts(st.users) && login != [] && password != []
    ensures Login(st, Val(login), Val(password), now).out.Success() <==>
      exists u :: u in st.users && Identifies(st.users[u], login) && st.users[u].isActive
                  && PasswordMatches(password, st.users[u].passwordHash)
  {
    if u :| u in st.users && Identifies(st.users[u], login) && st.users[u].isActive
            && PasswordMatches(password, st.users[u].passwordHash) {
      FindAccountIsTheAccount(st, login, u);
    }
  }

  /** A wrong password and an unknown account get the same answer, so the
      answer does not reveal which accounts exist; the inactive answer is
      given only after the account is found. */
  lemma LoginHidesUnknownAccounts(st: Store, login: string, password: string, now: nat)
    requires UniqueAccounts(st.users) && login != [] && password != []
    requires forall u :: u in st.users && Identifies(st.users[u], login) ==>
      st.users[u].isActive && !PasswordMatches(password, st.users[u].passwordHash)
    ensures Login(st, Val(login), Val(password), now).out == Err(Unauthorized401, BadCredentials)
  {
  }

  /** An inactive account cannot log in, whatever the password. */
  lemma InactiveNeverLogsIn(st: Store, u: Id, login: string, password: string, now: nat)
    requires UniqueAccounts(st.users) && u in st.users && !st.users[u].isActive
    requires login != [] && password != [] && Identifies(st.users[u], login)
    ensures Login(st, Val(login), Val(password), now).out == Err(Unauthorized401, "Account is inactive")
  {
    FindAccountIsTheAccount(st, login, u);
  }

  /** A username containing `@` is looked up as an e-mail address, so its
      account can log in by that name only if it is also its address. */
  lemma AtSignUsernameIsReadAsEmail(st: Store, u: Id, password: string, now: nat)
    requires UniqueAccounts(st.users) && u in st.users
    requires '@' in st.users[u].username && password != []
    requires st.users[u].email != st.users[u].username
    ensures var s := Login(st, Val(st.users[u].username), Val(password), now);
      s.out.Success() ==> s.out.value.user != u
  {
  }

  // ---------------------------------------------------------------------
  // POST /change-password
  // ---------------------------------------------------------------------

  /** A password-changing update of one account: new hash, flag cleared. */
  function SetPassword(st: Store, id: Id, newPassword: string): (r: Store)
    requires id in st.users
    ensures r.users.Keys == st.users.Keys
    ensures PasswordMatches(newPassword, r.users[id].passwordHash) && !r.users[id].forcePasswordChange
    ensures r.users[id].(passwordHash := st.users[id].passwordHash,
                         forcePasswordChange := st.users[id].forcePasswordChange) == st.users[id]
    ensures r == st.(users := r.users)
    ensures forall v :: v in st.users && v != id ==> r.users[v] == st.users[v]
  {
    st.(users := st.users[id := st.users[id].(passwordHash := Hashed(newPassword), forcePasswordChange := false)])
  }

  function ChangePassword(st: Store, actor: Actor, current: Field<string>, newPassword: Field<string>): (s: Step<string>)
    ensures s.notices == []
    ensures !s.out.Success() ==> s.st == st
    ensures !(Truthy(current) && Truthy(newPassword)) ==>
      s.out == Err(BadRequest400, "Current and new password are required")
    ensures Truthy(current) && Truthy(newPassword) && !Validate(newPassword.v).isValid ==>
      s.out == Err(BadRequest400, ErrorText(Validate(newPassword.v), ". "))
    ensures s.out.Success() ==>
      actor.id in st.users && Validate(newPassword.v).isValid
      && PasswordMatches(current.v, st.users[actor.id].passwordHash)
      && s.st == SetPassword(st, actor.id, newPassword.v)
  {
    if !Truthy(current) || !Truthy(newPassword) then
      Answer(st, Err(BadRequest400, "Current and new password are required"))
    else if !Validate(newPassword.v).isValid then
      Answer(st, Err(BadRequest400, ErrorText(Validate(newPassword.v), ". ")))
    else if actor.id !in st.users then
      Answer(st, Err(ServerError500, "Failed to change password"))
    else if !PasswordMatches(current.v, st.users[actor.id].passwordHash) then
      Answer(st, Err(Unauthorized401, "Current password is incorrect"))
    else
      Answer(SetPassword(st, actor.id, newPassword.v), Ok(Ok200, "Password changed successfully"))
  }

  /** After a successful change the new password logs in (by username or
      address) and an old one different from it no longer does. */
  lemma ChangeThenLogin(st: Store, actor: Actor, current: string, newPassword: string, login: string, now: nat)
    requires UniqueAccounts(st.users) && current != [] && newPassword != [] && login != []
    requires ChangePassword(st, actor, Val(current), Val(newPassword)).out.Success()
    requires Identifies(st.users[actor.id], login) && st.users[actor.id].isActive
    ensures var st' := ChangePassword(st, actor, Val(current), Val(newPassword)).st;
      Login(st', Val(login), Val(newPassword), now).out == Ok(Ok200, Session(actor.id, st.users[actor.id].role, false))
      && (current != newPassword ==> !Login(st', Val(login), Val(current), now).out.Success())
  {
    var st' := ChangePassword(st, actor, Val(current), Val(newPassword)).st;
    assert st'.users[actor.id].username == st.users[actor.id].username;
    assert st'.users[actor.id].email == st.users[actor.id].email;
    FindAccountIsTheAccount(st', login, actor.id);
  }

  // ---------------------------------------------------------------------
  // GET /check-username/:username
  // ---------------------------------------------------------------------

  function CheckUsername(st: Store, username: string): (r: Outcome<bool>)
    ensures r.Success() <==> Utf16Length(username) >= 3
    ensures !r.Success() ==> r == Err(BadRequest400, "Username must be at least 3 characters long")
    ensures r.Success() ==> (r.value <==> forall u :: u in st.users ==> st.users[u].username != username)
  {
    if Utf16Length(username) < 3 then Err(BadRequest400, "Username must be at least 3 characters long")
    else Ok(Ok200, !UsernameTaken(st, username))
  }

  /** The length is counted in code units: a name of two emoji is long
      enough to be looked up. */
  lemma TwoEmojiNameChecked(st: Store)
    ensures CheckUsername(st, "\U{1F600}\U{1F600}").Success()
  {
    TwoEmojiAreFourUnits();
  }

  // ---------------------------------------------------------------------
  // POST /register
  // ---------------------------------------------------------------------

  datatype Registration = Registration(firstName: Field<string>, lastName: Field<string>,
                                       username: Field<string>, email: Field<string>)

  /** The 201 body: the new account and its temporary password. */
  datatype Registered = Registered(user: Id, tempPassword: string)

  /** `/^[a-zA-Z0-9_-]+$/`. */
  predicate UsernameChar(c: char) {
    IsUpper(c) || IsLower(c) || IsDigit(c) || c == '_' || c == '-'
  }

  predicate WellFormedUsername(name: string) {
    name != [] && forall i :: 0 <= i < |name| ==> UsernameChar(name[i])
  }

  /** `value.split(',').map(d => d.trim()).filter(d => d)`. */
  function AllowedDomains(value: string): (ds: seq<string>)
    ensures forall d :: d in ds <==> d != [] && exists p :: p in Split(value, ',') && Trim(p) == d
  {
    NonBlank(Split(value, ','))
  }

  function NonBlank(pieces: seq<string>): (ds: seq<string>)
    ensures forall d :: d in ds <==> d != [] && exists p :: p in pieces && Trim(p) == d
  {
    if pieces == [] then []
    else
      var rest := NonBlank(pieces[1..]);
      assert forall p :: p in pieces <==> p == pieces[0] || p in pieces[1..];
      var t := Trim(pieces[0]);
      if t == [] then rest else [t] + rest
  }

  /** `email.split('@')[1]`: what follows the first `@` up to the next one,
      or `undefined` for an address without `@`. */
  function EmailDomain(email: string): (r: Option<string>)
    ensures r.None? <==> '@' !in email
  {
    var pieces := Split(email, '@');
    if |pieces| >= 2 then Some(pieces[1]) else None
  }

  /** For an address `local@domain` the domain is what is compared. */
  lemma EmailDomainOfAddress(local: string, domain: string)
    requires '@' !in local && '@' !in domain
    ensures EmailDomain(local + "@" + domain) == Some(domain)
  {
    SplitAtFirst(local, '@', domain);
  }

  /** The allowed-domains rule: an unset, NULL, empty or all-blank list
      allows every address; otherwise the address's domain must be listed. */
  predicate DomainAllowed(st: Store, email: string) {
    var setting := SettingValue(st, "allowed_email_domains");
    setting.None? || setting.value == [] || AllowedDomains(setting.value) == []
    || (EmailDomain(email).Some? && EmailDomain(email).value in AllowedDomains(setting.value))
  }

  /** The row a registration inserts: a verified-nothing customer who must
      change the mailed temporary password. */
  function NewCustomer(req: Registration, tempPassword: string, now: nat): User
    requires req.firstName.Val? && req.lastName.Val? && req.username.Val? && req.email.Val?
  {
    User(req.username.v, req.email.v, Hashed(tempPassword), Some(req.firstName.v), Some(req.lastName.v),
         Customer, true, false, true, now, None)
  }

  /** Every check the registration route makes, in order; `None` when
      all pass. */
  function RegistrationError(st: Store, req: Registration): (e: Option<Outcome<Registered>>)
    ensures e.Some? ==> !e.value.Success()
    ensures e.None? <==>
      Truthy(req.firstName) && Truthy(req.lastName) && Truthy(req.username) && Truthy(req.email)
      && Utf16Length(req.username.v) >= 3 && WellFormedUsername(req.username.v)
      && SettingValue(st, "registration_enabled") == Some("true")
      && DomainAllowed(st, req.email.v)
      && !EmailTaken(st, req.email.v) && !UsernameTaken(st, req.username.v)
  {
    if !Truthy(req.firstName) || !Truthy(req.lastName) || !Truthy(req.username) || !Truthy(req.email) then
      Some(Err(BadRequest400, "First name, last name, username, and email are required"))
    else if Utf16Length(req.username.v) < 3 then
      Some(Err(BadRequest400, "Username must be at least 3 characters long"))
    else if !WellFormedUsername(req.username.v) then
      Some(Err(BadRequest400, "Username can only contain letters, numbers, underscores, and hyphens"))
    else if SettingValue(st, "registration_enabled") != Some("true") then
      Some(Err(Forbidden403, "Registration is currently disabled"))
    else if !DomainAllowed(st, req.email.v) then
      Some(Err(Forbidden403, "Email domain not allowed for registration"))
    else if EmailTaken(st, req.email.v) then
      Some(Err(BadRequest400, "Email already registered"))
    else if UsernameTaken(st, req.username.v) then
      Some(Err(BadRequest400, "Username already taken"))
    else None
  }

  /** A name of two emoji passes the length check and is refused by the
      format check. */
  lemma TwoEmojiNameRefusedByFormat(st: Store, first: string, last: string, email: string)
    requires first != [] && last != [] && email != []
    ensures RegistrationError(st, Registration(Val(first), Val(last), Val("\U{1F600}\U{1F600}"), Val(email)))
            == Some(Err(BadRequest400, "Username can only contain letters, numbers, underscores, and hyphens"))
  {
    TwoEmojiAreFourUnits();
    assert !UsernameChar("\U{1F600}\U{1F600}"[0]);
  }

  function Register(st: Store, req: Registration, newId: Id, tempPassword: string, code: SixDigit, now: nat): (s: Step<Registered>)
    requires newId !in st.users
    ensures !s.out.Success() ==> s.st == st && s.notices == []
    ensures s.out.Success() <==> RegistrationError(st, req).None?
    ensures s.out.Success() ==>
      s.out == Ok(Created201, Registered(newId, tempPassword))
      && s.st.users == st.users[newId := NewCustomer(req, tempPassword, now)]
      && SettingValue(s.st, VerificationKey(newId)) == Some(Decimal(code))
      && st.settings.Keys <= s.st.settings.Keys
      && (forall k :: k in st.settings && k != VerificationKey(newId) ==> s.st.settings[k] == st.settings[k])
      && s.st == st.(users := s.st.users, settings := s.st.settings)
      && s.notices == [VerificationCode(req.email.v, Decimal(code), tempPassword)]
  {
    match RegistrationError(st, req)
    case Some(e) => Answer(st, e)
    case None =>
      var row := Setting(Some(Decimal(code)),
                         Some(VerificationDescription(req.email.v, now + DayMs)), Some(newId));
      var st' := st.(users := st.users[newId := NewCustomer(req, tempPassword, now)],
                     settings := Upsert(st.settings, VerificationKey(newId), row, ValueOnly));
      Step(Ok(Created201, Registered(newId, tempPassword)), st',
           [VerificationCode(req.email.v, Decimal(code), tempPassword)])
  }

  /** Registration keeps the database constraints: the uniqueness checks
      run before the insert, and the code row is written by the new user. */
  lemma RegisterKeepsValid(st: Store, req: Registration, newId: Id, tempPassword: string, code: SixDigit, now: nat)
    requires Valid(st) && newId !in st.users
    ensures Valid(Register(st, req, newId, tempPassword, code, now).st)
  {
    if RegistrationError(st, req).None? {
      var u := NewCustomer(req, tempPassword, now);
      var st1 := st.(users := st.users[newId := u]);
      PutUserKeepsValid(st, newId, u);
      var row := Setting(Some(Decimal(code)), Some(VerificationDescription(req.email.v, now + DayMs)), Some(newId));
      UpsertKeepsValid(st1, VerificationKey(newId), row, ValueOnly);
    }
  }

  /** A registered account can log in by username with the mailed
      temporary password, and is told to change it. */
  lemma RegisteredCanLogIn(st: Store, req: Registration, newId: Id, tempPassword: string, code: SixDigit, now: nat, later: nat)
    requires Valid(st) && newId !in st.users && tempPassword != []
    requires Register(st, req, newId, tempPassword, code, now).out.Success()
    ensures Login(Register(st, req, newId, tempPassword, code, now).st, req.username, Val(tempPassword), later).out
      == Ok(Ok200, Session(newId, Customer, true))
  {
    var st' := Register(st, req, newId, tempPassword, code, now).st;
    RegisterKeepsValid(st, req, newId, tempPassword, code, now);
    var name := req.username.v;
    forall i | 0 <= i < |name| ensures name[i] != '@' {
      assert UsernameChar(name[i]);
    }
    FindAccountIsTheAccount(st', name, newId);
  }

  /** The domain rule at work: with a single allowed domain configured,
      an address passes exactly when its domain is that one. */
  lemma SingleDomainRule(st: Store, allowed: string, local: string, domain: string)
    requires SettingValue(st, "allowed_email_domains") == Some(allowed)
    requires allowed != [] && ',' !in allowed && !IsSpace(allowed[0]) && !IsSpace(allowed[|allowed| - 1])
    requires '@' !in local && '@' !in domain
    ensures DomainAllowed(st, local + "@" + domain) <==> domain == allowed
  {
    EmailDomainOfAddress(local, domain);
    assert Split(allowed, ',') == [allowed];
    TrimUnchanged(allowed);
    assert forall d :: d in AllowedDomains(allowed) <==> d == allowed;
  }

  // ---------------------------------------------------------------------
  // POST /verify-email
  // ---------------------------------------------------------------------

  /** The route once the address has found account `id`. */
  function VerifyCode(st: Store, id: Id, code: string): (s: Step<string>)
    requires id in st.users
    ensures s.notices == []
    ensures s.out.Success() <==> SettingValue(st, VerificationKey(id)) == Some(code)
    ensures !s.out.Success() ==> s == Answer(st, Err(BadRequest400, "Invalid verification code"))
    ensures s.out.Success() ==>
      s.st.users == st.users[id := st.users[id].(emailVerified := true)]
      && VerificationKey(id) !in s.st.settings
      && s.st == st.(users := s.st.users, settings := st.settings - {VerificationKey(id)})
  {
    if SettingValue(st, VerificationKey(id)) != Some(code) then
      Answer(st, Err(BadRequest400, "Invalid verification code"))
    else
      Answer(st.(users := st.users[id := st.users[id].(emailVerified := true)],
                 settings := st.settings - {VerificationKey(id)}),
             Ok(Ok200, "Email verified successfully"))
  }

  ghost function VerifyEmail(st: Store, email: Field<string>, code: Field<string>): (s: Step<string>)
    ensures !(Truthy(email) && Truthy(code)) ==>
      s == Answer(st, Err(BadRequest400, "Email and verification code are required"))
    ensures Truthy(email) && Truthy(code) && UserByEmail(st, email.v).None? ==>
      s == Answer(st, Err(NotFound404, "User not found"))
    ensures Truthy(email) && Truthy(code) && UserByEmail(st, email.v).Some? ==>
      s == VerifyCode(st, UserByEmail(st, email.v).value, code.v)
  {
    if !Truthy(email) || !Truthy(code) then
      Answer(st, Err(BadRequest400, "Email and verification code are required"))
    else match UserByEmail(st, email.v)
      case None => Answer(st, Err(NotFound404, "User not found"))
      case Some(id) => VerifyCode(st, id, code.v)
  }

  /** The mailed code verifies the new account, and only once. */
  lemma RegisterThenVerify(st: Store, req: Registration, newId: Id, tempPassword: string, code: SixDigit, now: nat)
    requires Valid(st) && newId !in st.users
    requires Register(st, req, newId, tempPassword, code, now).out.Success()
    ensures var st1 := Register(st, req, newId, tempPassword, code, now).st;
      var v := VerifyEmail(st1, req.email, Val(Decimal(code)));
      v.out.Success() && v.st.users[newId].emailVerified
      && VerifyEmail(v.st, req.email, Val(Decimal(code))).out == Err(BadRequest400, "Invalid verification code")
  {
    RegisterKeepsValid(st, req, newId, tempPassword, code, now);
    var st1 := Register(st, req, newId, tempPassword, code, now).st;
    assert st1.users[newId].email == req.email.v;
    VerifyOnce(st1, newId, Decimal(code));
  }

  /** A stored code verifies its account by the account's address; the
      code is spent, so the same request then fails. */
  lemma VerifyOnce(st: Store, id: Id, c: string)
    requires UniqueAccounts(st.users) && id in st.users && st.users[id].email != [] && c != []
    requires SettingValue(st, VerificationKey(id)) == Some(c)
    ensures var email := st.users[id].email;
      var v := VerifyEmail(st, Val(email), Val(c));
      v.out.Success() && v.st.users[id].emailVerified
      && VerifyEmail(v.st, Val(email), Val(c)).out == Err(BadRequest400, "Invalid verification code")
  {
    var email := st.users[id].email;
    UserByEmailIsTheAccount(st, email, id);
    var v := VerifyEmail(st, Val(email), Val(c));
    assert v == VerifyCode(st, id, c);
    assert UniqueAccounts(v.st.users) by {
      forall a, b | a in v.st.users && b in v.st.users && a != b
        ensures v.st.users[a].username != v.st.users[b].username && v.st.users[a].email != v.st.users[b].email
      {
        assert v.st.users[a].email == st.users[a].email && v.st.users[b].email == st.users[b].email;
        assert v.st.users[a].username == st.users[a].username && v.st.users[b].username == st.users[b].username;
      }
    }
    UserByEmailIsTheAccount(v.st, email, id);
  }

  // ---------------------------------------------------------------------
  // POST /forgot-password
  // ---------------------------------------------------------------------

  const ForgotAnswer := "If the username or email address is registered, you will receive an email to reset your password"

  ghost function ForgotPassword(st: Store, loginValue: Field<string>, code: SixDigit, now: nat): (s: Step<string>)
    ensures !Truthy(loginValue) ==> s == Answer(st, Err(BadRequest400, "Username or email is required"))
    ensures Truthy(loginValue) ==> s.out == Ok(Ok200, ForgotAnswer)
    ensures Truthy(loginValue) && FindAccount(st, loginValue.v).None? ==> s.st == st && s.notices == []
    ensures Truthy(loginValue) && FindAccount(st, loginValue.v).Some? ==>
      var id := FindAccount(st, loginValue.v).value;
      var email := st.users[id].email;
      s.notices == [ResetCode(email, Decimal(code))]
      && s.st == st.(settings := Upsert(st.settings, ResetKey(id),
                       Setting(Some(Decimal(code)), Some(ResetDescription(email, now + HourMs)), Some(id)), ValueOnly))
  {
    if !Truthy(loginValue) then Answer(st, Err(BadRequest400, "Username or email is required"))
    else match FindAccount(st, loginValue.v)
      case None => Answer(st, Ok(Ok200, ForgotAnswer))
      case Some(id) =>
        var email := st.users[id].email;
        var row := Setting(Some(Decimal(code)), Some(ResetDescription(email, now + HourMs)), Some(id));
        Step(Ok(Ok200, ForgotAnswer), st.(settings := Upsert(st.settings, ResetKey(id), row, ValueOnly)),
             [ResetCode(email, Decimal(code))])
  }

  /** Registering never disturbs a pending password-reset code: the
      verification key it writes is never a reset key. */
  lemma RegisterKeepsResetCodes(st: Store, req: Registration, newId: Id, tempPassword: string, code: SixDigit,
                                now: nat, u: Id)
    requires newId !in st.users && ResetKey(u) in st.settings
    ensures var s := Register(st, req, newId, tempPassword, code, now);
      ResetKey(u) in s.st.settings && s.st.settings[ResetKey(u)] == st.settings[ResetKey(u)]
  {
    CodeKeysDisjoint(newId, u);
  }

  /** A reset request never disturbs a pending e-mail verification code:
      the reset key it writes is never a verification key. */
  lemma ForgotKeepsVerificationCodes(st: Store, loginValue: Field<string>, code: SixDigit, now: nat, v: Id)
    requires VerificationKey(v) in st.settings
    ensures var s := ForgotPassword(st, loginValue, code, now);
      VerificationKey(v) in s.st.settings && s.st.settings[VerificationKey(v)] == st.settings[VerificationKey(v)]
  {
    if Truthy(loginValue) && FindAccount(st, loginValue.v).Some? {
      CodeKeysDisjoint(v, FindAccount(st, loginValue.v).value);
    }
  }

  /** A second request replaces the code but, because the conflict clause
      rewrites only the value, keeps the first request's expiry. */
  lemma ReissueKeepsFirstExpiry(st: Store, loginValue: string, code: SixDigit, now: nat)
    requires loginValue != [] && FindAccount(st, loginValue).Some?
    requires ResetKey(FindAccount(st, loginValue).value) in st.settings
    ensures var key := ResetKey(FindAccount(st, loginValue).value);
      var st' := ForgotPassword(st, Val(loginValue), code, now).st;
      st'.settings[key].description == st.settings[key].description
      && SettingValue(st', key) == Some(Decimal(code))
  {
  }

  // ---------------------------------------------------------------------
  // POST /reset-password
  // ---------------------------------------------------------------------

  const BadResetCode := "Invalid reset code or email"

  /** The route once the address has found account `id`: the code must be
      the stored one and, if its description carries an expiry readable
      under pattern `p`, not past it. An expired code is spent; a valid one
      is spent and sets the password. */
  function ResetFor(p: Pattern, st: Store, id: Id, resetCode: string, newPassword: string, now: nat): (s: Step<string>)
    requires id in st.users
    ensures s.notices == []
    ensures SettingValue(st, ResetKey(id)) != Some(resetCode) ==> s == Answer(st, Err(BadRequest400, BadResetCode))
    ensures s.out.Success() <==>
      SettingValue(st, ResetKey(id)) == Some(resetCode) && st.settings[ResetKey(id)].description.Some?
      && !Expired(p, st.settings[ResetKey(id)].description.value, now)
    ensures s.out.Success() ==>
      s.out.value == "Password reset successful"
      && s.st == SetPassword(st, id, newPassword).(settings := st.settings - {ResetKey(id)})
    ensures s.out == Err(BadRequest400, "Reset code has expired") <==>
      SettingValue(st, ResetKey(id)) == Some(resetCode) && st.settings[ResetKey(id)].description.Some?
      && Expired(p, st.settings[ResetKey(id)].description.value, now)
    ensures s.out == Err(BadRequest400, "Reset code has expired") ==>
      s.st == st.(settings := st.settings - {ResetKey(id)})
    ensures !s.out.Success() && s.out != Err(BadRequest400, "Reset code has expired") ==> s.st == st
  {
    var key := ResetKey(id);
    if SettingValue(st, key) != Some(resetCode) then Answer(st, Err(BadRequest400, BadResetCode))
    else if st.settings[key].description.None? then Answer(st, Err(ServerError500, "Password reset failed"))
    else if Expired(p, st.settings[key].description.value, now) then
      Answer(st.(settings := st.settings - {key}), Err(BadRequest400, "Reset code has expired"))
    else
      Answer(SetPassword(st, id, newPassword).(settings := st.settings - {key}),
             Ok(Ok200, "Password reset successful"))
  }

  ghost function ResetPassword(p: Pattern, st: Store, email: Field<string>, resetCode: Field<string>, newPassword: Field<string>, now: nat): (s: Step<string>)
    ensures !(Truthy(email) && Truthy(resetCode) && Truthy(newPassword)) ==>
      s == Answer(st, Err(BadRequest400, "Email, reset code, and new password are required"))
    ensures Truthy(email) && Truthy(resetCode) && Truthy(newPassword) && !Validate(newPassword.v).isValid ==>
      s == Answer(st, Err(BadRequest400, ErrorText(Validate(newPassword.v), ". ")))
    ensures Truthy(email) && Truthy(resetCode) && Truthy(newPassword) && Validate(newPassword.v).isValid ==>
      s == (match UserByEmail(st, email.v)
            case None => Answer(st, Err(NotFound404, BadResetCode))
            case Some(id) => ResetFor(p, st, id, resetCode.v, newPassword.v, now))
  {
    if !Truthy(email) || !Truthy(resetCode) || !Truthy(newPassword) then
      Answer(st, Err(BadRequest400, "Email, reset code, and new password are required"))
    else if !Validate(newPassword.v).isValid then
      Answer(st, Err(BadRequest400, ErrorText(Validate(newPassword.v), ". ")))
    else match UserByEmail(st, email.v)
      case None => Answer(st, Err(NotFound404, BadResetCode))
      case Some(id) => ResetFor(p, st, id, resetCode.v, newPassword.v, now)
  }

  /** A password change leaves every username and address in place. */
  lemma SetPasswordKeepsAccounts(st: Store, id: Id, newPassword: string)
    requires id in st.users && UniqueAccounts(st.users)
    ensures UniqueAccounts(SetPassword(st, id, newPassword).users)
    ensures SetPassword(st, id, newPassword).users[id].email == st.users[id].email
    ensures SetPassword(st, id, newPassword).users[id].username == st.users[id].username
  {
    var r := SetPassword(st, id, newPassword).users;
    forall a, b | a in r && b in r && a != b
      ensures r[a].username != r[b].username && r[a].email != r[b].email
    {
      assert r[a].username == st.users[a].username && r[a].email == st.users[a].email;
      assert r[b].username == st.users[b].username && r[b].email == st.users[b].email;
    }
  }

  /** What forgot-password leaves behind for an account asked for by its
      own address, when it had no pending code. */
  lemma ForgotWritesCode(st: Store, u: Id, code: SixDigit, issued: nat)
    requires UniqueAccounts(st.users) && u in st.users
    requires ResetKey(u) !in st.settings && '@' in st.users[u].email
    ensures var st1 := ForgotPassword(st, Val(st.users[u].email), code, issued).st;
      st1.users == st.users
      && ResetKey(u) in st1.settings
      && st1.settings[ResetKey(u)] ==
           Setting(Some(Decimal(code)), Some(ResetDescription(st.users[u].email, issued + HourMs)), Some(u))
  {
    FindAccountIsTheAccount(st, st.users[u].email, u);
  }

  /** Whether the code of `email`, issued at `issued`, is still accepted at
      `now` under pattern `p`: within the hour, or at any time once the route's
      pattern has been thrown off by a marker in the address. */
  predicate ResetLive(p: Pattern, email: string, issued: nat, now: nat) {
    now <= issued + HourMs || (p == AsWritten && MarkerInAddress(email))
  }

  /** The whole reset flow: the mailed code, used by the account's address
      while live, sets the new password (which then logs in) and is spent;
      used afterwards it is refused as expired and spent too. */
  lemma ForgotThenReset(p: Pattern, st: Store, u: Id, code: SixDigit, issued: nat, newPassword: string, now: nat)
    requires UniqueAccounts(st.users) && u in st.users && st.users[u].isActive
    requires ResetKey(u) !in st.settings && '@' in st.users[u].email
    requires Validate(newPassword).isValid
    ensures var email := st.users[u].email;
      var st1 := ForgotPassword(st, Val(email), code, issued).st;
      var r := ResetPassword(p, st1, Val(email), Val(Decimal(code)), Val(newPassword), now);
      (ResetLive(p, email, issued, now) ==>
        r.out == Ok(Ok200, "Password reset successful")
        && Login(r.st, Val(email), Val(newPassword), now).out.Success())
      && (!ResetLive(p, email, issued, now) ==> r.out == Err(BadRequest400, "Reset code has expired"))
      && ResetKey(u) !in r.st.settings
  {
    var email := st.users[u].email;
    ForgotWritesCode(st, u, code, issued);
    ResetFindsTheAccount(p, st, u, code, issued, newPassword, now);
    var st1 := ForgotPassword(st, Val(email), code, issued).st;
    var desc := ResetDescription(email, issued + HourMs);
    assert st1.settings[ResetKey(u)].description == Some(desc);
    if p == AsWritten && MarkerInAddress(email) {
      MarkerInAddressDisablesExpiry(email, issued + HourMs, now);
    } else {
      ResetDescriptionExpiry(email, issued + HourMs);
      assert ExpiryText(p, desc) == Some(Iso(issued + HourMs));
    }
    assert Expired(p, desc, now) <==> !ResetLive(p, email, issued, now);
    if ResetLive(p, email, issued, now) {
      ResetLogsIn(p, st1, u, Decimal(code), newPassword, now);
    }
  }

  /** After forgot-password, the reset route finds the account by the
      address it was asked for. */
  lemma ResetFindsTheAccount(p: Pattern, st: Store, u: Id, code: SixDigit, issued: nat, newPassword: string, now: nat)
    requires UniqueAccounts(st.users) && u in st.users
    requires ResetKey(u) !in st.settings && '@' in st.users[u].email
    requires Validate(newPassword).isValid
    ensures var email := st.users[u].email;
      var st1 := ForgotPassword(st, Val(email), code, issued).st;
      st1.users == st.users
      && ResetPassword(p, st1, Val(email), Val(Decimal(code)), Val(newPassword), now)
         == ResetFor(p, st1, u, Decimal(code), newPassword, now)
  {
    var email := st.users[u].email;
    FindAccountIsTheAccount(st, email, u);
    var st1 := ForgotPassword(st, Val(email), code, issued).st;
    assert st1.users == st.users;
    UserByEmailIsTheAccount(st1, email, u);
    ValidMeansLong(newPassword);
    assert Truthy(Val(email)) && Truthy(Val(Decimal(code))) && Truthy(Val(newPassword));
  }

  /** A successful reset lets the account log in with the new password. */
  lemma ResetLogsIn(p: Pattern, st: Store, u: Id, resetCode: string, newPassword: string, now: nat)
    requires UniqueAccounts(st.users) && u in st.users && st.users[u].isActive
    requires '@' in st.users[u].email && newPassword != []
    requires ResetFor(p, st, u, resetCode, newPassword, now).out.Success()
    ensures Login(ResetFor(p, st, u, resetCode, newPassword, now).st, Val(st.users[u].email), Val(newPassword), now).out.Success()
  {
    var email := st.users[u].email;
    SetPasswordKeepsAccounts(st, u, newPassword);
    var st2 := ResetFor(p, st, u, resetCode, newPassword, now).st;
    assert st2.users == SetPassword(st, u, newPassword).users;
    LoginIffCredentials(st2, email, newPassword, now);
    assert PasswordMatches(newPassword, st2.users[u].passwordHash);
  }

}

=== FILE: bootstrap.dfy ===
/** Start-up of the backend (`config/database.js`, `initDatabase`): when no
    administrator exists, a built-in one is inserted from the environment. */
module Bootstrap {

  import opened Common
  import opened Schema
  import opened Auth

  /** `ADMIN_USERNAME`, `ADMIN_EMAIL` and `ADMIN_PASSWORD`. */
  datatype AdminEnv = AdminEnv(username: Option<string>, email: Option<string>, password: Option<string>)

  predicate HasAdmin(st: Store) {
    exists u :: u in st.users && st.users[u].role == Admin
  }

  /** The built-in account: pre-verified, active, and forced to choose a
      new password at its first login. Unset or empty variables fall back
      to `admin`, `admin@ticketforge.local` and `admin123`. */
  function BuiltInAdmin(env: AdminEnv, now: nat): (u: User)
    ensures u.role == Admin && u.isActive && u.emailVerified && u.forcePasswordChange
    ensures u.username == OrDefault(env.username, "admin") && u.email == OrDefault(env.email, "admin@ticketforge.local")
    ensures u.passwordHash == Hashed(OrDefault(env.password, "admin123"))
    ensures u.lastLogin.None?
  {
    User(OrDefault(env.username, "admin"), OrDefault(env.email, "admin@ticketforge.local"),
         Hashed(OrDefault(env.password, "admin123")), Some("System"), Some("Administrator"),
         Admin, true, true, true, now, None)
  }

  /** The start-up outcome: the store, or `None` when the insert hits the
      email uniqueness constraint and start-up throws.
      `ON CONFLICT (username) DO NOTHING` silently skips the insert when the
      username is held by any account. */
  function InitDatabase(st: Store, env: AdminEnv, newId: Id, now: nat): (r: Option<Store>)
    requires newId !in st.users
    ensures HasAdmin(st) ==> r == Some(st)
    ensures !HasAdmin(st) && UsernameTaken(st, BuiltInAdmin(env, now).username) ==> r == Some(st)
    ensures r.None? <==>
      !HasAdmin(st) && !UsernameTaken(st, BuiltInAdmin(env, now).username) && EmailTaken(st, BuiltInAdmin(env, now).email)
    ensures r.Some? && r.value != st ==>
      !HasAdmin(st) && r.value == st.(users := st.users[newId := BuiltInAdmin(env, now)])
  {
    var admin := BuiltInAdmin(env, now);
    if HasAdmin(st) then Some(st)
    else if UsernameTaken(st, admin.username) then Some(st)
    else if EmailTaken(st, admin.email) then None
    else Some(st.(users := st.users[newId := admin]))
  }

  /** Start-up never changes anything once an administrator exists, so it
      may be repeated. */
  lemma InitIdempotent(st: Store, env: AdminEnv, newId: Id, id2: Id, now: nat, later: nat)
    requires newId !in st.users
    requires InitDatabase(st, env, newId, now).Some?
    requires id2 !in InitDatabase(st, env, newId, now).value.users
    requires HasAdmin(InitDatabase(st, env, newId, now).value)
    ensures var s1 := InitDatabase(st, env, newId, now).value;
      InitDatabase(s1, env, id2, later) == Some(s1)
  {
  }

  /** On a store with no account at all the built-in administrator is
      created, and it can log in with the configured password, being sent
      straight to the password change. */
  lemma FirstStartCreatesAdmin(env: AdminEnv, newId: Id, now: nat, later: nat)
    ensures var r := InitDatabase(Empty, env, newId, now);
      r.Some? && HasAdmin(r.value) && Valid(r.value)
    ensures var r := InitDatabase(Empty, env, newId, now).value;
      var name := OrDefault(env.username, "admin");
      '@' !in name ==>
        Login(r, Val(name), Val(OrDefault(env.password, "admin123")), later).out
        == Ok(Ok200, Session(newId, Admin, true))
  {
    var r := InitDatabase(Empty, env, newId, now).value;
    assert r.users == map[newId := BuiltInAdmin(env, now)];
    assert HasAdmin(r) by { assert r.users[newId].role == Admin; }
    var name := OrDefault(env.username, "admin");
    if '@' !in name {
      FindAccountIsTheAccount(r, name, newId);
    }
  }

  /** A customer already named `admin` blocks the bootstrap: start-up
      succeeds, yet the system has no administrator. */
  lemma UsernameClashLeavesNoAdmin(st: Store, env: AdminEnv, newId: Id, now: nat, squatter: Id)
    requires newId !in st.users
    requires forall u :: u in st.users ==> st.users[u].role != Admin
    requires squatter in st.users && st.users[squatter].username == OrDefault(env.username, "admin")
    ensures var r := InitDatabase(st, env, newId, now); r.Some? && !HasAdmin(r.value)
  {
  }

  lemma InitKeepsValid(st: Store, env: AdminEnv, newId: Id, now: nat)
    requires Valid(st) && newId !in st.users
    ensures var r := InitDatabase(st, env, newId, now); r.Some? ==> Valid(r.value)
  {
    var r := InitDatabase(st, env, newId, now);
    if r.Some? && r.value != st {
      var admin := BuiltInAdmin(env, now);
      assert AccountFits(st.users, newId, admin);
      PutUserKeepsValid(st, newId, admin);
    }
  }
}

=== FILE: comments.dfy ===
/** The comment routes (`routes/comments.js`): the thread of a ticket, adding
    a (possibly internal) comment, editing and deleting one. */
module Comments {

  import opened Common
  import opened Schema
  import opened Ordering
  import opened Tickets

  // ---------------------------------------------------------------------
  // GET /ticket/:ticketId
  // ---------------------------------------------------------------------

  /** One entry of the thread: the comment and the files posted with it. */
  datatype CommentView = CommentView(id: Id, comment: Comment, attachments: map<Id, FileInfo>)

  /** A comment shown to the caller: on the ticket, and not internal when
      the caller is a customer. */
  predicate Shown(st: Store, actor: Actor, ticket: Id, c: Id)
    requires c in st.comments
  {
    st.comments[c].ticket == ticket && !(actor.role == Customer && st.comments[c].isInternal)
  }

  /** `ORDER BY c.created_at ASC`. */
  function OldestFirst(st: Store): Id -> int {
    c => if c in st.comments then st.comments[c].createdAt as int else 0
  }

  /** The files posted with comment `c`. */
  function FilesOf(st: Store, c: Id): (m: map<Id, FileInfo>)
    ensures forall a :: a in m <==> a in st.attachments && st.attachments[a].comment == Some(c)
    ensures forall a :: a in m ==> m[a] == Info(st.attachments[a])
  {
    map a | a in st.attachments && st.attachments[a].comment == Some(c) :: Info(st.attachments[a])
  }

  /** The thread entries for the comments `xs`, in that order. */
  function Views(st: Store, xs: seq<Id>): (vs: seq<CommentView>)
    requires forall i :: 0 <= i < |xs| ==> xs[i] in st.comments
    ensures |vs| == |xs|
    ensures forall i :: 0 <= i < |xs| ==> vs[i] == CommentView(xs[i], st.comments[xs[i]], FilesOf(st, xs[i]))
  {
    seq(|xs|, i requires 0 <= i < |xs| => CommentView(xs[i], st.comments[xs[i]], FilesOf(st, xs[i])))
  }

  /** The comments of the thread, oldest first. */
  ghost function ThreadIds(st: Store, actor: Actor, ticket: Id): (xs: seq<Id>)
    ensures forall c :: c in xs <==> c in st.comments && Shown(st, actor, ticket, c)
    ensures forall i, j :: 0 <= i < j < |xs| ==>
      xs[i] != xs[j] && st.comments[xs[i]].createdAt <= st.comments[xs[j]].createdAt
  {
    var picked := set c | c in st.comments && Shown(st, actor, ticket, c);
    var xs := OrderBy(picked, OldestFirst(st));
    assert forall i, j :: 0 <= i < j < |xs| ==> OldestFirst(st)(xs[i]) <= OldestFirst(st)(xs[j]);
    xs
  }

  ghost function ListComments(st: Store, actor: Actor, ticket: Id): (r: Outcome<seq<CommentView>>)
    ensures !r.Success() ==> Some(r) == AccessError(st, actor, ticket)
    ensures r.Success() <==> AccessError<seq<CommentView>>(st, actor, ticket).None?
    ensures r.Success() ==> forall i :: 0 <= i < |r.value| ==>
      r.value[i].id in st.comments && Shown(st, actor, ticket, r.value[i].id)
      && r.value[i].comment == st.comments[r.value[i].id]
      && r.value[i].attachments == FilesOf(st, r.value[i].id)
    ensures r.Success() ==> forall c :: c in st.comments && Shown(st, actor, ticket, c) ==> InThread(r.value, c)
    ensures r.Success() ==> forall i, j :: 0 <= i < j < |r.value| ==>
      r.value[i].id != r.value[j].id && r.value[i].comment.createdAt <= r.value[j].comment.createdAt
  {
    var e := AccessError<seq<CommentView>>(st, actor, ticket);
    if e.Some? then e.value
    else
      var xs := ThreadIds(st, actor, ticket);
      var vs := Views(st, xs);
      forall c | c in xs ensures InThread(vs, c) {
        var i :| 0 <= i < |xs| && xs[i] == c;
        assert vs[i].id == c;
      }
      Ok(Ok200, vs)
  }

  /** Comment `c` has an entry in the thread. */
  predicate InThread(thread: seq<CommentView>, c: Id) {
    exists i :: 0 <= i < |thread| && thread[i].id == c
  }

  /** The corrected ticket view and the thread agree: a customer sees a
      comment's file on the ticket exactly when the thread shows that
      comment with the file. */
  lemma TicketViewAgreesWithThread(st: Store, actor: Actor, ticket: Id, a: Id)
    requires Valid(st) && actor.role == Customer && GetTicket(st, actor, ticket).Success()
    requires a in st.attachments && st.attachments[a].ticket == ticket && st.attachments[a].comment.Some?
    ensures var thread := ListComments(st, actor, ticket).value;
      a in GetTicket(st, actor, ticket).value.attachments <==>
      exists i :: 0 <= i < |thread| && thread[i].id == st.attachments[a].comment.value && a in thread[i].attachments
  {
    var c := st.attachments[a].comment.value;
    var thread := ListComments(st, actor, ticket).value;
    assert c in st.comments && st.comments[c].ticket == ticket;
    if !st.comments[c].isInternal {
      var i :| 0 <= i < |thread| && thread[i].id == c;
      assert a in thread[i].attachments;
    }
  }

  /** As written, the ticket view does not agree with the thread: the
      example's customer sees the internal note's file on the ticket
      though the thread leaves the note out. */
  lemma TicketViewAsWrittenDisagrees()
    ensures var thread := ListComments(LeakExample(), Actor("c", Customer), "t");
      thread.Success() && (forall i :: 0 <= i < |thread.value| ==> thread.value[i].id != "n")
      && "f" in GetTicketAsWritten(LeakExample(), Actor("c", Customer), "t").value.attachments
  {
    InternalAttachmentLeaks();
    var st := LeakExample();
    assert !Shown(st, Actor("c", Customer), "t", "n");
  }

  // ---------------------------------------------------------------------
  // POST /
  // ---------------------------------------------------------------------

  datatype NewCommentRequest = NewCommentRequest(ticketId: Field<string>, content: Field<string>, isInternal: Field<string>)

  /** Only staff may mark a comment internal, and only with the form value
      `'true'`. */
  predicate MakesInternal(actor: Actor, req: NewCommentRequest) {
    IsStaff(actor.role) && req.isInternal == Val("true")
  }

  function CreateComment(st: Store, actor: Actor, req: NewCommentRequest, files: seq<FileMeta>,
                         newId: Id, fileIds: seq<Id>, now: nat): (s: Step<Comment>)
    requires newId !in st.comments
    requires |fileIds| == |files| && Distinct(fileIds) && forall i :: 0 <= i < |fileIds| ==> fileIds[i] !in st.attachments
    ensures !s.out.Success() ==> s.st == st && s.notices == []
    ensures !(Truthy(req.ticketId) && Truthy(req.content)) ==>
      s.out == Err(BadRequest400, "Ticket ID and content are required")
    ensures Truthy(req.ticketId) && Truthy(req.content) ==>
      (req.ticketId.v !in st.tickets ==> s.out == Err(NotFound404, "Ticket not found"))
      && (req.ticketId.v in st.tickets && !MayAccess(actor, st.tickets[req.ticketId.v]) ==>
            s.out == Err(Forbidden403, Insufficient))
    ensures s.out.Success() <==>
      Truthy(req.ticketId) && Truthy(req.content) && AccessError<Comment>(st, actor, req.ticketId.v).None?
      && actor.id in st.users
    ensures s.out.Success() ==> newId in s.st.comments
    ensures s.out.Success() ==>
      var t := req.ticketId.v;
      s.out == Ok(Created201, s.st.comments[newId])
      && s.st.comments == st.comments[newId := Comment(t, Some(actor.id), req.content.v, MakesInternal(actor, req), now, now)]
      && s.st.tickets == st.tickets[t := st.tickets[t].(updatedAt := now)]
      && s.notices == [if MakesInternal(actor, req) then InternalComment(t, newId) else NewComment(t, newId)]
    ensures s.out.Success() ==>
      (forall a :: a in s.st.attachments <==> a in st.attachments || a in fileIds)
      && (forall i :: 0 <= i < |fileIds| ==>
            s.st.attachments[fileIds[i]] == Attachment(req.ticketId.v, Some(newId), Some(actor.id), files[i], now))
      && s.st == st.(tickets := s.st.tickets, comments := s.st.comments, attachments := s.st.attachments)
  {
    if !Truthy(req.ticketId) || !Truthy(req.content) then
      Answer(st, Err(BadRequest400, "Ticket ID and content are required"))
    else
      var t := req.ticketId.v;
      match AccessError(st, actor, t)
      case Some(e) => Answer(st, e)
      case None =>
        if actor.id !in st.users then Answer(st, Err(ServerError500, "Failed to create comment"))
        else
          var internal := MakesInternal(actor, req);
          var cm := Comment(t, Some(actor.id), req.content.v, internal, now, now);
          Step(Ok(Created201, cm),
               st.(comments := st.comments[newId := cm],
                   attachments := AddAttachments(st.attachments, t, Some(newId), actor.id, files, fileIds, now),
                   tickets := st.tickets[t := st.tickets[t].(updatedAt := now)]),
               [if internal then InternalComment(t, newId) else NewComment(t, newId)])
  }

  lemma CreateCommentKeepsValid(st: Store, actor: Actor, req: NewCommentRequest, files: seq<FileMeta>,
                                newId: Id, fileIds: seq<Id>, now: nat)
    requires Valid(st) && newId !in st.comments
    requires |fileIds| == |files| && Distinct(fileIds) && forall i :: 0 <= i < |fileIds| ==> fileIds[i] !in st.attachments
    ensures Valid(CreateComment(st, actor, req, files, newId, fileIds, now).st)
  {
    var s := CreateComment(st, actor, req, files, newId, fileIds, now);
    if s.out.Success() {
      var r := s.st;
      assert NumbersFromSequence(r.tickets, r.lastNumber) by {
        assert forall t :: t in r.tickets ==> r.tickets[t].number == st.tickets[t].number;
      }
      assert TicketsRef(r) by {
        forall t | t in r.tickets
          ensures RefersToUser(r, r.tickets[t].customer) && RefersToUser(r, r.tickets[t].assignedTo)
        {
          assert RefersToUser(st, st.tickets[t].customer) && RefersToUser(st, st.tickets[t].assignedTo);
        }
      }
      assert AttachmentsRef(r) by {
        forall a | a in r.attachments
          ensures r.attachments[a].ticket in r.tickets && RefersToUser(r, r.attachments[a].uploader)
          ensures r.attachments[a].comment.Some? ==>
            r.attachments[a].comment.value in r.comments
            && r.comments[r.attachments[a].comment.value].ticket == r.attachments[a].ticket
        {
          if a in st.attachments && a !in fileIds {
            assert r.attachments[a] == st.attachments[a];
            assert RefersToUser(st, st.attachments[a].uploader);
          } else {
            var i :| 0 <= i < |fileIds| && fileIds[i] == a;
            assert r.attachments[a] == Attachment(req.ticketId.v, Some(newId), Some(actor.id), files[i], now);
          }
        }
      }
    }
  }

  /** Customers are kept out of internal notes both ways: what they post
      is never internal, and what they read never is. */
  lemma CustomersNeverTouchInternalNotes(st: Store, actor: Actor, req: NewCommentRequest, files: seq<FileMeta>,
                                         newId: Id, fileIds: seq<Id>, now: nat, ticket: Id)
    requires actor.role == Customer && newId !in st.comments
    requires |fileIds| == |files| && Distinct(fileIds) && forall i :: 0 <= i < |fileIds| ==> fileIds[i] !in st.attachments
    ensures var s := CreateComment(st, actor, req, files, newId, fileIds, now);
      s.out.Success() ==> !s.out.value.isInternal && s.notices == [NewComment(req.ticketId.v, newId)]
    ensures var thread := ListComments(st, actor, ticket);
      thread.Success() ==> forall i :: 0 <= i < |thread.value| ==> !thread.value[i].comment.isInternal
  {
    var thread := ListComments(st, actor, ticket);
    if thread.Success() {
      forall i | 0 <= i < |thread.value| ensures !thread.value[i].comment.isInternal {
        assert Shown(st, actor, ticket, thread.value[i].id);
      }
    }
  }

  /** A comment a staff member posts without the internal flag shows up in
      the ticket owner's thread. */
  lemma PublicCommentReachesOwner(st: Store, actor: Actor, req: NewCommentRequest, files: seq<FileMeta>,
                                  newId: Id, fileIds: seq<Id>, now: nat, owner: Id)
    requires newId !in st.comments
    requires |fileIds| == |files| && Distinct(fileIds) && forall i :: 0 <= i < |fileIds| ==> fileIds[i] !in st.attachments
    requires req.isInternal != Val("true")
    requires CreateComment(st, actor, req, files, newId, fileIds, now).out.Success()
    requires st.tickets[req.ticketId.v].customer == Some(owner)
    ensures var r := CreateComment(st, actor, req, files, newId, fileIds, now).st;
      var thread := ListComments(r, Actor(owner, Customer), req.ticketId.v);
      thread.Success() && exists i :: 0 <= i < |thread.value| && thread.value[i].id == newId
  {
    var r := CreateComment(st, actor, req, files, newId, fileIds, now).st;
    assert newId in r.comments && Shown(r, Actor(owner, Customer), req.ticketId.v, newId);
  }

  // ---------------------------------------------------------------------
  // PUT /:id
  // ---------------------------------------------------------------------

  /** The UPDATE writes the content; the trigger stamps `updated_at`. */
  function EditComment(st: Store, actor: Actor, id: Id, content: Field<string>, now: nat): (s: Step<Comment>)
    ensures s.notices == []
    ensures !s.out.Success() ==> s.st == st
    ensures !Truthy(content) ==> s.out == Err(BadRequest400, "Content is required")
    ensures Truthy(content) && id !in st.comments ==> s.out == Err(NotFound404, "Comment not found")
    ensures Truthy(content) && id in st.comments && st.comments[id].author != Some(actor.id) ==>
      s.out == Err(Forbidden403, "Only the comment author can edit this comment")
    ensures s.out.Success() <==> Truthy(content) && id in st.comments && st.comments[id].author == Some(actor.id)
    ensures s.out.Success() ==>
      s.st == st.(comments := st.comments[id := st.comments[id].(content := content.v, updatedAt := now)])
      && s.out == Ok(Ok200, s.st.comments[id])
  {
    if !Truthy(content) then Answer(st, Err(BadRequest400, "Content is required"))
    else if id !in st.comments then Answer(st, Err(NotFound404, "Comment not found"))
    else if st.comments[id].author != Some(actor.id) then
      Answer(st, Err(Forbidden403, "Only the comment author can edit this comment"))
    else
      var cm := st.comments[id].(content := content.v, updatedAt := now);
      Answer(st.(comments := st.comments[id := cm]), Ok(Ok200, cm))
  }

  /** Editing changes only the text and its stamp: ticket, author, flag and
      creation time stay, so an edit cannot move a note in or out of the
      customer's view. */
  lemma EditKeepsVisibility(st: Store, actor: Actor, id: Id, content: Field<string>, now: nat, viewer: Actor, ticket: Id)
    requires EditComment(st, actor, id, content, now).out.Success()
    ensures var r := EditComment(st, actor, id, content, now).st;
      r.comments.Keys == st.comments.Keys
      && forall c :: c in r.comments ==> (Shown(r, viewer, ticket, c) <==> Shown(st, viewer, ticket, c))
  {
  }

  lemma EditCommentKeepsValid(st: Store, actor: Actor, id: Id, content: Field<string>, now: nat)
    requires Valid(st)
    ensures Valid(EditComment(st, actor, id, content, now).st)
  {
  }

  // ---------------------------------------------------------------------
  // DELETE /:id
  // ---------------------------------------------------------------------

  function DeleteComment(st: Store, actor: Actor, id: Id): (s: Step<string>)
    ensures s.notices == []
    ensures id !in st.comments ==> s == Answer(st, Err(NotFound404, "Comment not found"))
    ensures id in st.comments && actor.role != Admin && st.comments[id].author != Some(actor.id) ==>
      s == Answer(st, Err(Forbidden403, Insufficient))
    ensures s.out.Success() <==>
      id in st.comments && (actor.role == Admin || st.comments[id].author == Some(actor.id))
    ensures s.out.Success() ==> s.st == DeleteCommentRow(st, id) && s.out == Ok(Ok200, "Comment deleted successfully")
  {
    if id !in st.comments then Answer(st, Err(NotFound404, "Comment not found"))
    else if actor.role != Admin && st.comments[id].author != Some(actor.id) then Answer(st, Err(Forbidden403, Insufficient))
    else Answer(DeleteCommentRow(st, id), Ok(Ok200, "Comment deleted successfully"))
  }

  /** Deleting a comment takes its files with it and leaves every other
      comment and file in place. */
  lemma DeleteCommentTakesFiles(st: Store, actor: Actor, id: Id)
    requires DeleteComment(st, actor, id).out.Success()
    ensures var r := DeleteComment(st, actor, id).st;
      FilesOf(r, id) == map[]
      && (forall c :: c in r.comments ==> c != id && FilesOf(r, c) == FilesOf(st, c))
  {
    var r := DeleteComment(st, actor, id).st;
    assert FilesOf(r, id) == map[] by {
      forall a | a in r.attachments ensures r.attachments[a].comment != Some(id) {
      }
    }
    forall c | c in r.comments ensures c != id && FilesOf(r, c) == FilesOf(st, c) {
      assert FilesOf(r, c).Keys == FilesOf(st, c).Keys;
    }
  }
}

=== FILE: common.dfy ===
/** Shared vocabulary of the help-desk model: optional values, request-body
    members as JSON delivers them, HTTP result codes and handler outcomes. */
module Common {

  /** A value that may be absent (a SQL NULL column, a missing row). */
  datatype Option<+T> = None | Some(value: T) {
    function GetOr(default: T): T {
      match this
      case Some(v) => v
      case None => default
    }
  }

  /** Row identifiers (the schema's UUIDs) are opaque strings. */
  type Id = string

  /** One member of a JSON request body: left out (`undefined`), explicitly
      `null`, or a value. */
  datatype Field<+T> = Undefined | Null | Val(v: T)

  /** JavaScript's `x !== undefined`. */
  predicate Defined<T>(f: Field<T>) {
    !f.Undefined?
  }

  /** JavaScript truthiness of a string-valued member: present and non-empty. */
  predicate Truthy(f: Field<string>) {
    f.Val? && f.v != ""
  }

  /** The value a defined member writes into a nullable column. */
  function Nullable<T>(f: Field<T>): (r: Option<T>)
    requires Defined(f)
    ensures r.None? <==> f.Null?
    ensures f.Val? ==> r == Some(f.v)
  {
    match f
    case Null => None
    case Val(v) => Some(v)
  }

  /** The value a member that may be missing or null inserts into a nullable column. */
  function Stored<T>(f: Field<T>): (r: Option<T>)
    ensures r.Some? <==> f.Val?
    ensures f.Val? ==> r.value == f.v
  {
    if f.Val? then Some(f.v) else None
  }

  /** `a || b` on strings, as used for environment fallbacks: an unset or
      empty variable takes the default. */
  function OrDefault(v: Option<string>, default: string): (r: string)
    ensures v.Some? && v.value != "" ==> r == v.value
    ensures v.None? || v.value == "" ==> r == default
  {
    if v.Some? && v.value != "" then v.value else default
  }

  /** The HTTP status codes the routes answer with. */
  datatype Code = Ok200 | Created201 | BadRequest400 | Unauthorized401
                | Forbidden403 | NotFound404 | ServerError500

  /** What a route sends back: a success code with a body, or an error code
      with the message the route puts in `{ error }`. */
  datatype Outcome<+T> = Ok(code: Code, value: T) | Err(code: Code, message: string)
  {
    predicate Success() {
      Ok?
    }
  }

  /** The uniform denial the routes send when ownership decides. */
  const Insufficient := "Insufficient permissions"

  /** `authorize('admin')`: the middleware turns every non-admin away with 403. */
  function AdminOnly<T>(isAdmin: bool): (r: Option<Outcome<T>>)
    ensures r.None? <==> isAdmin
    ensures r.Some? ==> r.value == Err(Forbidden403, Insufficient)
  {
    if isAdmin then None else Some(Err(Forbidden403, Insufficient))
  }
}

=== FILE: dashboard.dfy ===
/** The dashboard (`pages/Dashboard.js`): per-status counts over the
    tickets the caller may see, and the first few of them. */
module Dashboard {

  import opened Common
  import opened Schema
  import opened Seqs
  import opened TicketList

  datatype Stats = Stats(total: nat, open: nat, inProgress: nat, pending: nat, resolved: nat, closed: nat)

  /** `tickets.filter(t => t.status === label).length`. */
  function CountStatus(rows: seq<Row>, s: Status): (n: nat)
    ensures n <= |rows|
  {
    if rows == [] then 0 else (if rows[0].status == Some(s) then 1 else 0) + CountStatus(rows[1..], s)
  }

  /** The tickets whose status is NULL, which no card counts. */
  function CountUnset(rows: seq<Row>): (n: nat)
    ensures n <= |rows|
  {
    if rows == [] then 0 else (if rows[0].status.None? then 1 else 0) + CountUnset(rows[1..])
  }

  /** The card a status is shown on. */
  function Card(r: Stats, s: Status): nat {
    match s
    case Open => r.open
    case InProgress => r.inProgress
    case Pending => r.pending
    case Resolved => r.resolved
    case Closed => r.closed
  }

  function Summarize(rows: seq<Row>): (r: Stats)
    ensures r.total == |rows|
    ensures forall s :: Card(r, s) == CountStatus(rows, s)
    ensures r.open + r.inProgress + r.pending + r.resolved + r.closed + CountUnset(rows) == r.total
  {
    CountsAddUp(rows);
    Stats(|rows|, CountStatus(rows, Open), CountStatus(rows, InProgress), CountStatus(rows, Pending),
          CountStatus(rows, Resolved), CountStatus(rows, Closed))
  }

  /** Every ticket is counted once: under its status, or among those whose
      status is NULL. */
  lemma {:induction false} CountsAddUp(rows: seq<Row>)
    ensures CountStatus(rows, Open) + CountStatus(rows, InProgress) + CountStatus(rows, Pending)
            + CountStatus(rows, Resolved) + CountStatus(rows, Closed) + CountUnset(rows) == |rows|
  {
    if rows != [] {
      CountsAddUp(rows[1..]);
      var rest := rows[1..];
      assert CountStatus(rows, Open) == (if rows[0].status == Some(Open) then 1 else 0) + CountStatus(rest, Open);
      assert CountStatus(rows, InProgress) == (if rows[0].status == Some(InProgress) then 1 else 0) + CountStatus(rest, InProgress);
      assert CountStatus(rows, Pending) == (if rows[0].status == Some(Pending) then 1 else 0) + CountStatus(rest, Pending);
      assert CountStatus(rows, Resolved) == (if rows[0].status == Some(Resolved) then 1 else 0) + CountStatus(rest, Resolved);
      assert CountStatus(rows, Closed) == (if rows[0].status == Some(Closed) then 1 else 0) + CountStatus(rest, Closed);
      match rows[0].status
      case None =>
      case Some(x) => assert x.Open? || x.InProgress? || x.Pending? || x.Resolved? || x.Closed?;
    }
  }

  /** When every ticket carries a status, the five cards add up to the
      total. */
  lemma CardsSumToTotal(rows: seq<Row>)
    requires forall i :: 0 <= i < |rows| ==> rows[i].status.Some?
    ensures var r := Summarize(rows); r.open + r.inProgress + r.pending + r.resolved + r.closed == r.total
  {
    NoneUnset(rows);
  }

  lemma {:induction false} NoneUnset(rows: seq<Row>)
    requires forall i :: 0 <= i < |rows| ==> rows[i].status.Some?
    ensures CountUnset(rows) == 0
  {
    if rows != [] {
      NoneUnset(rows[1..]);
    }
  }

  /** Each card shows as many tickets as the list page lists for that
      status. */
  lemma CardMatchesList(rows: seq<Row>, s: Status)
    ensures CountStatus(rows, s) == |FilterTickets(rows, StatusName(s), "all", "")|
    ensures Card(Summarize(rows), s) == |FilterTickets(rows, StatusName(s), "all", "")|
  {
    StatusFilterIsKeep(rows, StatusName(s));
    CountIsFilterLength(rows, s);
  }

  /** Each card of the summary, named by the label the page compares with,
      counts exactly the tickets the list page shows under that label. */
  lemma SummaryMatchesList(rows: seq<Row>)
    ensures var r := Summarize(rows);
      r.open == |FilterTickets(rows, "open", "all", "")|
      && r.inProgress == |FilterTickets(rows, "in_progress", "all", "")|
      && r.pending == |FilterTickets(rows, "pending", "all", "")|
      && r.resolved == |FilterTickets(rows, "resolved", "all", "")|
      && r.closed == |FilterTickets(rows, "closed", "all", "")|
  {
    CardMatchesList(rows, Open);
    CardMatchesList(rows, InProgress);
    CardMatchesList(rows, Pending);
    CardMatchesList(rows, Resolved);
    CardMatchesList(rows, Closed);
  }

  lemma {:induction false} CountIsFilterLength(rows: seq<Row>, s: Status)
    ensures CountStatus(rows, s) == |Keep(rows, t => StatusIs(t, StatusName(s)))|
  {
    if rows != [] {
      CountIsFilterLength(rows[1..], s);
      KeepHead(rows, t => StatusIs(t, StatusName(s)));
      if rows[0].status.Some? {
        EnumLabelsRoundTrip(Admin, rows[0].status.value, Low);
        EnumLabelsRoundTrip(Admin, s, Low);
      }
    }
  }

  /** `tickets.slice(0, 5)`. */
  function Recent(rows: seq<Row>): (r: seq<Row>)
    ensures |r| == if |rows| < 5 then |rows| else 5
    ensures forall i :: 0 <= i < |r| ==> r[i] == rows[i]
  {
    if |rows| < 5 then rows else rows[..5]
  }

  /** The server lists tickets newest first, so the recent ones are the
      newest: none left out is newer than one shown. */
  lemma RecentAreNewest(rows: seq<Row>)
    requires forall i, j :: 0 <= i < j < |rows| ==> rows[i].createdAt >= rows[j].createdAt
    ensures forall t, u :: t in Recent(rows) && u in rows && u !in Recent(rows) ==> t.createdAt >= u.createdAt
  {
    forall t, u | t in Recent(rows) && u in rows && u !in Recent(rows) ensures t.createdAt >= u.createdAt {
      var i :| 0 <= i < |Recent(rows)| && Recent(rows)[i] == t;
      var j :| 0 <= j < |rows| && rows[j] == u;
      if j < |Recent(rows)| {
        assert u == Recent(rows)[j];
      }
    }
  }
}

=== FILE: groups.dfy ===
/** The group routes (`routes/groups.js`): listing the groups, reading a
    group with its members, creating, renaming and deleting groups, and adding and removing
    members. Membership is the set of (user, group) pairs. */
module Groups {

  import opened Common
  import opened Schema
  import opened Ordering

  predicate GroupNameTaken(st: Store, name: string, except: Option<Id>) {
    exists g :: g in st.groups && Some(g) != except && st.groups[g].name == name
  }

  // ---------------------------------------------------------------------
  // GET /
  // ---------------------------------------------------------------------

  /** Every group once, to any signed-in caller. The rows come `ORDER BY
      name` under the database's collation, which is not modelled, so the
      order here is left open. */
  ghost function ListGroups(st: Store): (xs: seq<Id>)
    ensures forall g :: g in xs <==> g in st.groups
    ensures forall i, j :: 0 <= i < j < |xs| ==> xs[i] != xs[j]
  {
    OrderBy(st.groups.Keys, g => 0)
  }

  /** A created group is listed next to the earlier ones; a deleted one
      is no longer listed. */
  lemma ListFollowsCreateAndDelete(st: Store, actor: Actor, name: Field<string>, description: Field<string>, newId: Id,
                                   gone: Id)
    requires newId !in st.groups
    ensures var s := CreateGroup(st, actor, name, description, newId);
      s.out.Success() ==> newId in ListGroups(s.st) && forall g :: g in st.groups ==> g in ListGroups(s.st)
    ensures var s := DeleteGroup(st, actor, gone);
      s.out.Success() ==> gone !in ListGroups(s.st) && forall g :: g in st.groups && g != gone ==> g in ListGroups(s.st)
  {
  }

  // ---------------------------------------------------------------------
  // GET /:id
  // ---------------------------------------------------------------------

  datatype GroupView = GroupView(group: Group, members: set<Id>)

  function GetGroup(st: Store, id: Id): (r: Outcome<GroupView>)
    ensures r.Success() <==> id in st.groups
    ensures !r.Success() ==> r == Err(NotFound404, "Group not found")
    ensures r.Success() ==> r.value.group == st.groups[id]
    ensures r.Success() ==>
      forall u :: u in r.value.members <==> u in st.users && Membership(u, id) in st.members
  {
    if id !in st.groups then Err(NotFound404, "Group not found")
    else Ok(Ok200, GroupView(st.groups[id], set m | m in st.members && m.group == id && m.user in st.users :: m.user))
  }

  // ---------------------------------------------------------------------
  // POST /
  // ---------------------------------------------------------------------

  function CreateGroup(st: Store, actor: Actor, name: Field<string>, description: Field<string>, newId: Id): (s: Step<Id>)
    requires newId !in st.groups
    ensures s.notices == []
    ensures !s.out.Success() ==> s.st == st
    ensures actor.role != Admin ==> s.out == Err(Forbidden403, Insufficient)
    ensures actor.role == Admin && !Truthy(name) ==> s.out == Err(BadRequest400, "Group name is required")
    ensures actor.role == Admin && Truthy(name) && GroupNameTaken(st, name.v, None) ==>
      s.out == Err(BadRequest400, "Group name already exists")
    ensures s.out.Success() <==> actor.role == Admin && Truthy(name) && !GroupNameTaken(st, name.v, None)
    ensures s.out.Success() ==>
      s.out == Ok(Created201, newId) && s.st == st.(groups := st.groups[newId := Group(name.v, Stored(description))])
  {
    match AdminOnly(actor.role == Admin)
    case Some(e) => Answer(st, e)
    case None =>
      if !Truthy(name) then Answer(st, Err(BadRequest400, "Group name is required"))
      else if GroupNameTaken(st, name.v, None) then Answer(st, Err(BadRequest400, "Group name already exists"))
      else Answer(st.(groups := st.groups[newId := Group(name.v, Stored(description))]), Ok(Created201, newId))
  }

  // ---------------------------------------------------------------------
  // PUT /:id
  // ---------------------------------------------------------------------

  function UpdateGroup(st: Store, actor: Actor, id: Id, name: Field<string>, description: Field<string>): (s: Step<Group>)
    ensures s.notices == []
    ensures !s.out.Success() ==> s.st == st
    ensures actor.role != Admin ==> s.out == Err(Forbidden403, Insufficient)
    ensures actor.role == Admin && !Defined(name) && !Defined(description) ==> s.out == Err(BadRequest400, "No updates provided")
    ensures actor.role == Admin && (Defined(name) || Defined(description)) && id !in st.groups ==>
      s.out == Err(NotFound404, "Group not found")
    ensures s.out.Success() <==>
      actor.role == Admin && (Defined(name) || Defined(description)) && id in st.groups && !name.Null?
      && !(name.Val? && GroupNameTaken(st, name.v, Some(id)))
    ensures s.out.Success() ==>
      var g := st.groups[id];
      s.out.value == Group(if name.Val? then name.v else g.name,
                           if Defined(description) then Stored(description) else g.description)
      && s.st == st.(groups := st.groups[id := s.out.value])
  {
    match AdminOnly(actor.role == Admin)
    case Some(e) => Answer(st, e)
    case None =>
      if !Defined(name) && !Defined(description) then Answer(st, Err(BadRequest400, "No updates provided"))
      else if id !in st.groups then Answer(st, Err(NotFound404, "Group not found"))
      else if name.Null? then Answer(st, Err(ServerError500, "Failed to update group"))
      else if name.Val? && GroupNameTaken(st, name.v, Some(id)) then
        Answer(st, Err(BadRequest400, "Group name already exists"))
      else
        var g := st.groups[id];
        var g' := Group(if name.Val? then name.v else g.name,
                        if Defined(description) then Stored(description) else g.description);
        Answer(st.(groups := st.groups[id := g']), Ok(Ok200, g'))
  }

  lemma GroupWritesKeepValid(st: Store, actor: Actor, id: Id, name: Field<string>, description: Field<string>, newId: Id)
    requires Valid(st) && newId !in st.groups
    ensures Valid(CreateGroup(st, actor, name, description, newId).st)
    ensures Valid(UpdateGroup(st, actor, id, name, description).st)
  {
    CreateGroupKeepsValid(st, actor, name, description, newId);
    UpdateGroupKeepsValid(st, actor, id, name, description);
  }

  lemma CreateGroupKeepsValid(st: Store, actor: Actor, name: Field<string>, description: Field<string>, newId: Id)
    requires Valid(st) && newId !in st.groups
    ensures Valid(CreateGroup(st, actor, name, description, newId).st)
  {
  }

  lemma UpdateGroupKeepsValid(st: Store, actor: Actor, id: Id, name: Field<string>, description: Field<string>)
    requires Valid(st)
    ensures Valid(UpdateGroup(st, actor, id, name, description).st)
  {
    var s := UpdateGroup(st, actor, id, name, description);
    if s.out.Success() {
      var gs := s.st.groups;
      forall a, b | a in gs && b in gs && a != b ensures gs[a].name != gs[b].name {
        if a != id && b != id { assert gs[a] == st.groups[a] && gs[b] == st.groups[b]; }
      }
    }
  }

  // ---------------------------------------------------------------------
  // DELETE /:id
  // ---------------------------------------------------------------------

  function DeleteGroup(st: Store, actor: Actor, id: Id): (s: Step<string>)
    ensures s.notices == []
    ensures actor.role != Admin ==> s == Answer(st, Err(Forbidden403, Insufficient))
    ensures actor.role == Admin && id !in st.groups ==> s == Answer(st, Err(NotFound404, "Group not found"))
    ensures s.out.Success() <==> actor.role == Admin && id in st.groups
    ensures s.out.Success() ==> s.st == DeleteGroupRow(st, id) && s.out.value == "Group deleted successfully"
  {
    match AdminOnly(actor.role == Admin)
    case Some(e) => Answer(st, e)
    case None =>
      if id !in st.groups then Answer(st, Err(NotFound404, "Group not found"))
      else Answer(DeleteGroupRow(st, id), Ok(Ok200, "Group deleted successfully"))
  }

  // ---------------------------------------------------------------------
  // POST /:id/members and DELETE /:id/members/:userId
  // ---------------------------------------------------------------------

  /** `INSERT ... ON CONFLICT DO NOTHING`: a pair already present is left
      alone; a pair naming no user or no group fails its foreign key. */
  function AddMember(st: Store, actor: Actor, group: Id, userId: Field<string>): (s: Step<string>)
    ensures s.notices == []
    ensures !s.out.Success() ==> s.st == st
    ensures actor.role != Admin ==> s.out == Err(Forbidden403, Insufficient)
    ensures actor.role == Admin && !Truthy(userId) ==> s.out == Err(BadRequest400, "User ID is required")
    ensures s.out.Success() <==> actor.role == Admin && Truthy(userId) && userId.v in st.users && group in st.groups
    ensures s.out.Success() ==>
      s.st == st.(members := st.members + {Membership(userId.v, group)})
      && s.out.value == "User added to group successfully"
  {
    match AdminOnly(actor.role == Admin)
    case Some(e) => Answer(st, e)
    case None =>
      if !Truthy(userId) then Answer(st, Err(BadRequest400, "User ID is required"))
      else if userId.v !in st.users || group !in st.groups then
        Answer(st, Err(ServerError500, "Failed to add user to group"))
      else
        Answer(st.(members := st.members + {Membership(userId.v, group)}), Ok(Ok200, "User added to group successfully"))
  }

  /** Deletes exactly the pair, and succeeds whether or not it was there. */
  function RemoveMember(st: Store, actor: Actor, group: Id, user: Id): (s: Step<string>)
    ensures s.notices == []
    ensures actor.role != Admin ==> s == Answer(st, Err(Forbidden403, Insufficient))
    ensures s.out.Success() <==> actor.role == Admin
    ensures s.out.Success() ==>
      s.st == st.(members := st.members - {Membership(user, group)})
      && s.out.value == "User removed from group successfully"
  {
    match AdminOnly(actor.role == Admin)
    case Some(e) => Answer(st, e)
    case None =>
      Answer(st.(members := st.members - {Membership(user, group)}), Ok(Ok200, "User removed from group successfully"))
  }

  /** Adding a member twice is the same as adding it once. */
  lemma AddMemberIdempotent(st: Store, actor: Actor, group: Id, userId: Field<string>)
    ensures var s1 := AddMember(st, actor, group, userId);
      var s2 := AddMember(s1.st, actor, group, userId);
      s2.st == s1.st && s2.out == s1.out
  {
  }

  /** Removing a pair that was just added restores the memberships, when
      the pair was new. */
  lemma RemoveUndoesAdd(st: Store, actor: Actor, group: Id, user: Id)
    requires Membership(user, group) !in st.members
    ensures RemoveMember(AddMember(st, actor, group, Val(user)).st, actor, group, user).st == st
  {
  }

  /** After a successful add the user is listed in the group, and after a
      remove the user is not, whatever was there before. */
  lemma MembershipShowsInGroup(st: Store, actor: Actor, group: Id, user: Id)
    requires actor.role == Admin && user in st.users && group in st.groups && user != ""
    ensures var r := GetGroup(AddMember(st, actor, group, Val(user)).st, group);
      r.Success() && user in r.value.members
    ensures var r := GetGroup(RemoveMember(st, actor, group, user).st, group);
      r.Success() && user !in r.value.members
  {
  }

  lemma MemberWritesKeepValid(st: Store, actor: Actor, group: Id, userId: Field<string>, user: Id)
    requires Valid(st)
    ensures Valid(AddMember(st, actor, group, userId).st)
    ensures Valid(RemoveMember(st, actor, group, user).st)
  {
  }
}

=== FILE: migrations.dfy ===
/** The migration runner (`migrations/index.js`, `runMigrations`): which
    files count as migrations, the order they run in, skipping the ones
    already recorded, and stopping at the first failure. Running a
    migration's `up()` is outside the model: the caller says which names
    fail and with what message. */
module Migrations {

  import opened Common
  import opened Text

  // ---------------------------------------------------------------------
  // Selecting and naming files
  // ---------------------------------------------------------------------

  /** Characters the regex `.` does not match. */
  predicate IsLineTerminator(c: char) {
    c == '\n' || c == '\r' || c == '\U{2028}' || c == '\U{2029}'
  }

  /** `f.match(/^\d{3}_.*\.js$/) && f !== 'index.js'`. */
  predicate IsMigrationFile(f: string) {
    |f| >= 7 && IsDigit(f[0]) && IsDigit(f[1]) && IsDigit(f[2]) && f[3] == '_'
    && EndsWith(f, ".js")
    && (forall i :: 4 <= i < |f| - 3 ==> !IsLineTerminator(f[i]))
    && f != "index.js"
  }

  /** The first position where `sub` occurs in `s`. */
  function FirstOccurrence(s: string, sub: string): (r: Option<nat>)
    ensures r.Some? ==> OccursAt(s, sub, r.value) && forall j :: 0 <= j < r.value ==> !OccursAt(s, sub, j)
    ensures r.None? ==> forall j :: !OccursAt(s, sub, j)
    decreases |s|
  {
    if |sub| > |s| then None
    else if s[..|sub|] == sub then Some(0)
    else
      match FirstOccurrence(s[1..], sub)
      case None =>
        assert forall j :: !OccursAt(s, sub, j) by {
          forall j | OccursAt(s, sub, j) ensures false {
            assert j != 0;
            assert s[1..][j - 1..j - 1 + |sub|] == s[j..j + |sub|];
            assert OccursAt(s[1..], sub, j - 1);
          }
        }
        None
      case Some(k) =>
        assert s[1..][k..k + |sub|] == s[k + 1..k + 1 + |sub|];
        assert forall j :: 0 <= j < k + 1 ==> !OccursAt(s, sub, j) by {
          forall j | 0 <= j < k + 1 && OccursAt(s, sub, j) ensures false {
            assert j != 0;
            assert s[1..][j - 1..j - 1 + |sub|] == s[j..j + |sub|];
            assert OccursAt(s[1..], sub, j - 1);
          }
        }
        Some(k + 1)
  }

  /** `s.replace(pat, rep)` with a string pattern: the first occurrence only. */
  function ReplaceFirst(s: string, pat: string, rep: string): string {
    match FirstOccurrence(s, pat)
    case None => s
    case Some(i) => s[..i] + rep + s[i + |pat|..]
  }

  /** `file.replace('.js', '')`. */
  function MigrationName(f: string): string {
    ReplaceFirst(f, ".js", "")
  }

  /** For the usual file, whose only `.js` is the extension, the name is
      the file name without it. */
  lemma NameDropsExtension(f: string)
    requires IsMigrationFile(f)
    requires forall j :: 0 <= j < |f| - 3 ==> !OccursAt(f, ".js", j)
    ensures MigrationName(f) == f[..|f| - 3]
  {
    assert OccursAt(f, ".js", |f| - 3);
  }

  // ---------------------------------------------------------------------
  // Ordering: the default `Array.prototype.sort` on strings
  // ---------------------------------------------------------------------

  /** Lexicographic order on characters, a prefix coming first. It agrees
      with the code-unit order of `sort` for names below U+10000, which
      covers every migration file name. */
  predicate Below(a: string, b: string)
    decreases |a|
  {
    a == [] || (b != [] && (a[0] < b[0] || (a[0] == b[0] && Below(a[1..], b[1..]))))
  }

  lemma {:induction false} BelowTotal(a: string, b: string)
    ensures Below(a, b) || Below(b, a)
    decreases |a|
  {
    if a != [] && b != [] && a[0] == b[0] {
      BelowTotal(a[1..], b[1..]);
    }
  }

  lemma {:induction false} BelowTransitive(a: string, b: string, c: string)
    requires Below(a, b) && Below(b, c)
    ensures Below(a, c)
    decreases |a|
  {
    if a != [] && a[0] == b[0] && b[0] == c[0] {
      BelowTransitive(a[1..], b[1..], c[1..]);
    }
  }

  lemma {:induction false} BelowAntisymmetric(a: string, b: string)
    requires Below(a, b) && Below(b, a)
    ensures a == b
    decreases |a|
  {
    if a != [] {
      BelowAntisymmetric(a[1..], b[1..]);
      assert a == [a[0]] + a[1..] && b == [b[0]] + b[1..];
    }
  }

  predicate Ascending(xs: seq<string>) {
    forall i, j :: 0 <= i < j < |xs| ==> Below(xs[i], xs[j])
  }

  /** Places `x` before the first element it is below. */
  function Insert(x: string, xs: seq<string>): (r: seq<string>)
    requires Ascending(xs)
    ensures multiset(r) == multiset(xs) + multiset{x}
    ensures Ascending(r)
    decreases |xs|
  {
    if xs == [] then [x]
    else if Below(x, xs[0]) then
      InsertFront(x, xs);
      [x] + xs
    else
      BelowTotal(x, xs[0]);
      var rest := Insert(x, xs[1..]);
      InsertBehind(x, xs, rest);
      assert xs == [xs[0]] + xs[1..];
      [xs[0]] + rest
  }

  /** Below the head of an ascending list is below all of it. */
  lemma InsertFront(x: string, xs: seq<string>)
    requires Ascending(xs) && xs != [] && Below(x, xs[0])
    ensures Ascending([x] + xs)
  {
    forall j | 0 <= j < |xs| ensures Below(x, xs[j]) {
      if j > 0 { BelowTransitive(x, xs[0], xs[j]); }
    }
    var r := [x] + xs;
    forall i, j | 0 <= i < j < |r| ensures Below(r[i], r[j]) {
      if i > 0 { assert r[i] == xs[i - 1] && r[j] == xs[j - 1]; }
    }
  }

  /** The head stays in front of the rest with `x` inserted, since it is
      below `x` and below everything after it. */
  lemma InsertBehind(x: string, xs: seq<string>, rest: seq<string>)
    requires Ascending(xs) && xs != [] && Below(xs[0], x)
    requires Ascending(rest) && multiset(rest) == multiset(xs[1..]) + multiset{x}
    ensures Ascending([xs[0]] + rest)
  {
    forall j | 0 <= j < |rest| ensures Below(xs[0], rest[j]) {
      var y := rest[j];
      assert y in multiset(rest);
      if y != x {
        assert y in multiset(xs[1..]);
        var k :| 0 <= k < |xs[1..]| && xs[1..][k] == y;
        assert xs[k + 1] == y;
      }
    }
    var r := [xs[0]] + rest;
    forall i, j | 0 <= i < j < |r| ensures Below(r[i], r[j]) {
      if i > 0 { assert r[i] == rest[i - 1] && r[j] == rest[j - 1]; }
    }
  }

  /** The sorted list of names, as `sort()` leaves it. */
  function SortNames(xs: seq<string>): (r: seq<string>)
    ensures multiset(r) == multiset(xs)
    ensures Ascending(r)
    decreases |xs|
  {
    if xs == [] then []
    else
      assert xs == [xs[0]] + xs[1..];
      Insert(xs[0], SortNames(xs[1..]))
  }

  /** The candidate files, in the order they run. */
  function Candidates(files: seq<string>): (r: seq<string>)
    ensures Ascending(r)
    ensures forall f :: f in r <==> f in files && IsMigrationFile(f)
  {
    var kept := Filter(files);
    var r := SortNames(kept);
    assert forall f :: f in r <==> f in multiset(kept);
    r
  }

  function Filter(files: seq<string>): (r: seq<string>)
    ensures forall f :: f in r <==> f in files && IsMigrationFile(f)
    ensures forall f :: multiset(r)[f] == if IsMigrationFile(f) then multiset(files)[f] else 0
    decreases |files|
  {
    if files == [] then []
    else
      assert files == [files[0]] + files[1..];
      (if IsMigrationFile(files[0]) then [files[0]] else []) + Filter(files[1..])
  }

  // ---------------------------------------------------------------------
  // Running
  // ---------------------------------------------------------------------

  /** The names not yet recorded, in run order. */
  function Pending(names: seq<string>, executed: seq<string>): seq<string>
    decreases |names|
  {
    if names == [] then []
    else (if names[0] in executed then [] else [names[0]]) + Pending(names[1..], executed)
  }

  lemma {:induction false} PendingMembers(names: seq<string>, executed: seq<string>)
    ensures forall n :: n in Pending(names, executed) <==> n in names && n !in executed
    decreases |names|
  {
    if names != [] {
      PendingMembers(names[1..], executed);
      assert names == [names[0]] + names[1..];
    }
  }

  /** `markMigrationExecuted`: `INSERT ... ON CONFLICT (name) DO NOTHING`. */
  function Mark(recorded: seq<string>, name: string): (r: seq<string>)
    ensures forall n :: n in r <==> n in recorded || n == name
    ensures name in recorded ==> r == recorded
  {
    if name in recorded then recorded else recorded + [name]
  }

  /** The outcome of a run: the migrations that ran, the `migrations`
      table afterwards, and the error the run throws, if any. */
  datatype Report = Report(ran: seq<string>, recorded: seq<string>, error: Option<string>)

  function FailureMessage(name: string, message: string): string {
    "Migration " + name + " failed: " + message
  }

  predicate NoneFail(ran: seq<string>, failures: map<string, string>) {
    forall k :: 0 <= k < |ran| ==> ran[k] !in failures
  }

  /** The run went through `todo` in order and stopped exactly at the first
      failing name, or at the end. */
  predicate StoppedAtFirstFailure(todo: seq<string>, failures: map<string, string>, rep: Report) {
    |rep.ran| <= |todo| && rep.ran == todo[..|rep.ran|]
    && NoneFail(rep.ran, failures)
    && (rep.error.None? ==> rep.ran == todo)
    && (rep.error.Some? ==>
          |rep.ran| < |todo| && todo[|rep.ran|] in failures
          && rep.error.value == FailureMessage(todo[|rep.ran|], failures[todo[|rep.ran|]]))
  }

  /** The loop of `runMigrations` over names in run order. The recorded
      names are read once, before the loop; a migration is recorded only
      after its `up()` succeeds; the first failure throws and nothing after
      it runs. */
  method RunPending(names: seq<string>, executed: seq<string>, failures: map<string, string>) returns (rep: Report)
    ensures StoppedAtFirstFailure(Pending(names, executed), failures, rep)
    ensures forall n :: n in rep.recorded <==> n in executed || n in rep.ran
  {
    ghost var todo := Pending(names, executed);
    var ran: seq<string> := [];
    var recorded := executed;
    var i := 0;
    assert names[0..] == names;
    while i < |names|
      invariant 0 <= i <= |names|
      invariant todo == ran + Pending(names[i..], executed)
      invariant NoneFail(ran, failures)
      invariant forall n :: n in recorded <==> n in executed || n in ran
    {
      var name := names[i];
      Visit(names, i, executed, todo, ran, failures);
      if name !in executed {
        if name in failures {
          rep := Report(ran, recorded, Some(FailureMessage(name, failures[name])));
          StopAt(todo, ran, name, Pending(names[i + 1..], executed), failures, rep);
          return;
        }
        ran := ran + [name];
        recorded := Mark(recorded, name);
      }
      i := i + 1;
    }
    assert names[i..] == [];
    rep := Report(ran, recorded, None);
    RanAll(todo, failures, rep);
  }

  /** A run that met no failure went through every pending name. */
  lemma RanAll(todo: seq<string>, failures: map<string, string>, rep: Report)
    requires rep.ran == todo && rep.error.None? && NoneFail(rep.ran, failures)
    ensures StoppedAtFirstFailure(todo, failures, rep)
  {
    assert todo[..|todo|] == todo;
  }

  /** One turn of the loop: a recorded name is skipped, and a pending one
      is next in run order and, if it succeeds, joins those that ran. */
  lemma Visit(names: seq<string>, i: nat, executed: seq<string>, todo: seq<string>, ran: seq<string>,
              failures: map<string, string>)
    requires i < |names| && todo == ran + Pending(names[i..], executed)
    requires NoneFail(ran, failures)
    ensures names[i] in executed ==> todo == ran + Pending(names[i + 1..], executed)
    ensures names[i] !in executed ==> todo == ran + [names[i]] + Pending(names[i + 1..], executed)
    ensures names[i] !in executed && names[i] !in failures ==>
      todo == (ran + [names[i]]) + Pending(names[i + 1..], executed) && NoneFail(ran + [names[i]], failures)
  {
    PendingStep(names, i, executed);
    if names[i] !in executed && names[i] !in failures {
      RunOneMore(todo, ran, names[i], Pending(names[i + 1..], executed), failures);
    }
  }

  /** A migration that succeeds joins those that ran, in run order. */
  lemma RunOneMore(todo: seq<string>, ran: seq<string>, name: string, rest: seq<string>,
                   failures: map<string, string>)
    requires todo == ran + ([name] + rest)
    requires NoneFail(ran, failures) && name !in failures
    ensures todo == (ran + [name]) + rest
    ensures NoneFail(ran + [name], failures)
  {
    var longer := ran + [name];
    forall k | 0 <= k < |longer| ensures longer[k] !in failures {
      if k < |ran| { assert longer[k] == ran[k]; }
    }
  }

  /** The run stops at `name`, the first pending migration that fails. */
  lemma StopAt(todo: seq<string>, ran: seq<string>, name: string, rest: seq<string>,
               failures: map<string, string>, rep: Report)
    requires todo == ran + [name] + rest
    requires NoneFail(ran, failures)
    requires name in failures
    requires rep.ran == ran && rep.error == Some(FailureMessage(name, failures[name]))
    ensures StoppedAtFirstFailure(todo, failures, rep)
  {
    assert todo[|ran|] == name && todo[..|ran|] == ran;
  }

  lemma PendingStep(names: seq<string>, i: nat, executed: seq<string>)
    requires i < |names|
    ensures Pending(names[i..], executed) == (if names[i] in executed then [] else [names[i]]) + Pending(names[i + 1..], executed)
  {
    assert names[i..][1..] == names[i + 1..];
  }

  /** The migration names, in run order. */
  function Names(files: seq<string>): (r: seq<string>)
    ensures |r| == |Candidates(files)|
    ensures forall i :: 0 <= i < |r| ==> r[i] == MigrationName(Candidates(files)[i])
  {
    var c := Candidates(files);
    seq(|c|, i requires 0 <= i < |c| => MigrationName(c[i]))
  }

  /** `runMigrations`: the candidate files, sorted, run through the loop. */
  method RunMigrations(files: seq<string>, executed: seq<string>, failures: map<string, string>) returns (rep: Report)
    ensures StoppedAtFirstFailure(Pending(Names(files), executed), failures, rep)
    ensures forall n :: n in rep.recorded <==> n in executed || n in rep.ran
  {
    rep := RunPending(Names(files), executed, failures);
  }

  /** After a run with no failure every candidate is recorded, so running
      again executes nothing. */
  lemma SecondRunIsEmpty(names: seq<string>, executed: seq<string>, failures: map<string, string>, rep: Report)
    requires StoppedAtFirstFailure(Pending(names, executed), failures, rep) && rep.error.None?
    requires forall n :: n in rep.recorded <==> n in executed || n in rep.ran
    ensures Pending(names, rep.recorded) == []
  {
    PendingMembers(names, executed);
    NothingPending(names, rep.recorded);
  }

  lemma {:induction false} NothingPending(names: seq<string>, recorded: seq<string>)
    requires forall n :: n in names ==> n in recorded
    ensures Pending(names, recorded) == []
    decreases |names|
  {
    if names != [] {
      assert names[0] in names;
      NothingPending(names[1..], recorded);
    }
  }

  lemma {:induction false} BelowReflexive(a: string)
    ensures Below(a, a)
    decreases |a|
  {
    if a != [] { BelowReflexive(a[1..]); }
  }

  lemma HeadIsLeast(xs: seq<string>, y: string)
    requires Ascending(xs) && y in multiset(xs)
    ensures xs != [] && Below(xs[0], y)
  {
    var j :| 0 <= j < |xs| && xs[j] == y;
    if j == 0 { BelowReflexive(y); }
  }

  /** An ascending list is determined by its elements. */
  lemma {:induction false} AscendingUnique(xs: seq<string>, ys: seq<string>)
    requires Ascending(xs) && Ascending(ys) && multiset(xs) == multiset(ys)
    ensures xs == ys
    decreases |xs|
  {
    if xs != [] {
      assert |ys| == |xs| by { assert |multiset(ys)| == |multiset(xs)|; }
      assert xs[0] in multiset(ys);
      assert ys[0] in multiset(xs);
      HeadIsLeast(ys, xs[0]);
      HeadIsLeast(xs, ys[0]);
      BelowAntisymmetric(xs[0], ys[0]);
      assert xs == [xs[0]] + xs[1..] && ys == [ys[0]] + ys[1..];
      assert multiset(xs) == multiset{xs[0]} + multiset(xs[1..]);
      assert multiset(ys) == multiset{ys[0]} + multiset(ys[1..]);
      forall z ensures multiset(xs[1..])[z] == multiset(ys[1..])[z] {
        assert multiset(xs)[z] == multiset(ys)[z];
      }
      assert multiset(xs[1..]) == multiset(ys[1..]);
      AscendingUnique(xs[1..], ys[1..]);
    }
  }

  /** The order of the directory listing does not matter. */
  lemma CandidatesIgnoreListingOrder(a: seq<string>, b: seq<string>)
    requires multiset(a) == multiset(b)
    ensures Candidates(a) == Candidates(b)
  {
    assert multiset(Filter(a)) == multiset(Filter(b));
    AscendingUnique(SortNames(Filter(a)), SortNames(Filter(b)));
  }
}

=== FILE: navigation.dfy ===
/** The single-page application's routing (`App.js`) and its navigation
    drawer (`components/Layout.js`): which screen a path shows to whom,
    and which menu entries each role sees. */
module Navigation {

  import opened Common
  import opened Schema
  import opened Seqs
  import Settings
  import Groups

  // ---------------------------------------------------------------------
  // Routes
  // ---------------------------------------------------------------------

  datatype Route =
    | LoginPage | RegisterPage | VerifyEmailPage | ForgotPasswordPage | ForcePasswordChangePage
    | DashboardPage | TicketsPage | NewTicketPage | TicketPage(id: string)
    | UsersPage | GroupsPage | SettingsPage | ProfilePage

  function Path(r: Route): string {
    match r
    case LoginPage => "/login"
    case RegisterPage => "/register"
    case VerifyEmailPage => "/verify-email"
    case ForgotPasswordPage => "/forgot-password"
    case ForcePasswordChangePage => "/force-password-change"
    case DashboardPage => "/dashboard"
    case TicketsPage => "/tickets"
    case NewTicketPage => "/tickets/new"
    case TicketPage(id) => "/tickets/" + id
    case UsersPage => "/users"
    case GroupsPage => "/groups"
    case SettingsPage => "/settings"
    case ProfilePage => "/profile"
  }

  /** A ticket page's `:id` is one non-empty path segment, and the static
      `/tickets/new` outranks it. */
  predicate WellFormed(r: Route) {
    r.TicketPage? ==> r.id != "" && '/' !in r.id && r.id != "new"
  }

  const TicketPrefix: string := "/tickets/"

  /** The route a path matches, if any. */
  function Resolve(path: string): (r: Option<Route>)
    ensures r.Some? ==> WellFormed(r.value) && Path(r.value) == path
  {
    if path == "/login" then Some(LoginPage)
    else if path == "/register" then Some(RegisterPage)
    else if path == "/verify-email" then Some(VerifyEmailPage)
    else if path == "/forgot-password" then Some(ForgotPasswordPage)
    else if path == "/force-password-change" then Some(ForcePasswordChangePage)
    else if path == "/dashboard" then Some(DashboardPage)
    else if path == "/tickets" then Some(TicketsPage)
    else if path == "/tickets/new" then Some(NewTicketPage)
    else if |path| > |TicketPrefix| && path[..|TicketPrefix|] == TicketPrefix && '/' !in path[|TicketPrefix|..] then
      assert path == TicketPrefix + path[|TicketPrefix|..];
      Some(TicketPage(path[|TicketPrefix|..]))
    else if path == "/users" then Some(UsersPage)
    else if path == "/groups" then Some(GroupsPage)
    else if path == "/settings" then Some(SettingsPage)
    else if path == "/profile" then Some(ProfilePage)
    else None
  }

  /** Every page is reached by its own path, and by no other. */
  lemma ResolvePath(r: Route)
    requires WellFormed(r)
    ensures Resolve(Path(r)) == Some(r)
  {
    if r.TicketPage? {
      var p := Path(r);
      assert p[..|TicketPrefix|] == TicketPrefix && p[|TicketPrefix|..] == r.id;
      assert p[1] == 't' && |p| >= 10;
    }
  }

  lemma PathInjective(r1: Route, r2: Route)
    requires WellFormed(r1) && WellFormed(r2) && Path(r1) == Path(r2)
    ensures r1 == r2
  {
    ResolvePath(r1);
    ResolvePath(r2);
  }

  /** The pages reachable without signing in. */
  predicate IsPublic(r: Route) {
    r in {LoginPage, RegisterPage, VerifyEmailPage, ForgotPasswordPage, ForcePasswordChangePage}
  }

  /** The `roles` of the private route: administrators only for user,
      group and settings management, anyone signed in elsewhere. */
  function RequiredRoles(r: Route): Option<seq<Role>> {
    if r in {UsersPage, GroupsPage, SettingsPage} then Some([Admin]) else None
  }

  // ---------------------------------------------------------------------
  // The guard
  // ---------------------------------------------------------------------

  datatype Screen = Loading | RedirectTo(path: string) | Shows(page: Route) | NothingMatches

  /** The private-route guard: wait for the session, send a visitor to the
      login page, send a role the route does not admit to the dashboard. */
  function Guard(loading: bool, user: Option<Role>, roles: Option<seq<Role>>, page: Route): (s: Screen)
    ensures loading ==> s == Loading
    ensures !loading && user.None? ==> s == RedirectTo("/login")
    ensures !loading && user.Some? && roles.Some? && user.value !in roles.value ==> s == RedirectTo("/dashboard")
    ensures s == Shows(page) <==> !loading && user.Some? && (roles.None? || user.value in roles.value)
  {
    if loading then Loading
    else if user.None? then RedirectTo("/login")
    else if roles.Some? && user.value !in roles.value then RedirectTo("/dashboard")
    else Shows(page)
  }

  /** What the application shows at a path: `/` forwards to the dashboard,
      public pages show to everyone, private ones pass the guard. */
  function Open(path: string, loading: bool, user: Option<Role>): (s: Screen)
    ensures s == NothingMatches <==> path != "/" && Resolve(path).None?
    ensures s.Shows? ==> Resolve(path) == Some(s.page)
    ensures s.Shows? && !IsPublic(s.page) ==> !loading && user.Some?
  {
    if path == "/" then RedirectTo("/dashboard")
    else match Resolve(path)
      case None => NothingMatches
      case Some(r) => if IsPublic(r) then Shows(r) else Guard(loading, user, RequiredRoles(r), r)
  }

  /** Once the session is known, a signed-in user sees every page except
      the three management pages, which only administrators see. */
  lemma WhoSeesWhat(r: Route, role: Role)
    requires WellFormed(r)
    ensures Open(Path(r), false, Some(role)) == Shows(r) <==> (r in {UsersPage, GroupsPage, SettingsPage} ==> role == Admin)
  {
    ResolvePath(r);
  }

  /** Without a session only the public pages show. */
  lemma VisitorsSeePublicPagesOnly(r: Route)
    requires WellFormed(r)
    ensures Open(Path(r), false, None) == (if IsPublic(r) then Shows(r) else RedirectTo("/login"))
  {
    ResolvePath(r);
  }

  /** Every redirect goes to the login page, which always shows, or to the
      dashboard, which shows to any signed-in user and otherwise forwards
      to the login page: the guard never loops. */
  lemma RedirectsSettle(path: string, user: Option<Role>)
    ensures Open(path, false, user).RedirectTo? ==> Open(path, false, user).path in {"/login", "/dashboard"}
    ensures Open("/login", false, user) == Shows(LoginPage)
    ensures Open("/dashboard", false, user) == if user.Some? then Shows(DashboardPage) else RedirectTo("/login")
  {
    ResolvePath(LoginPage);
    ResolvePath(DashboardPage);
  }

  /** The management pages show exactly to the roles the server serves:
      the settings list and the group membership writes answer 403 to
      everyone else. */
  lemma GuardAgreesWithServer(st: Store, actor: Actor, g: Id, u: Id)
    ensures Open("/settings", false, Some(actor.role)) == Shows(SettingsPage) <==>
      Settings.ListSettings(st, actor).Success()
    ensures Open("/groups", false, Some(actor.role)) == Shows(GroupsPage) <==>
      Groups.RemoveMember(st, actor, g, u).out.Success()
  {
    ResolvePath(SettingsPage);
    ResolvePath(GroupsPage);
  }

  // ---------------------------------------------------------------------
  // The navigation drawer
  // ---------------------------------------------------------------------

  datatype Entry = Item(text: string, target: Route, roles: seq<Role>) | Divider(roles: seq<Role>)

  const Everyone: seq<Role> := [Admin, Agent, Customer]

  /** The entries every role sees. */
  const SharedItems: seq<Entry> := [
    Item("Dashboard", DashboardPage, Everyone),
    Item("Tickets", TicketsPage, Everyone),
    Item("New Ticket", NewTicketPage, Everyone)
  ]

  /** The divider and the management entries. */
  const AdminItems: seq<Entry> := [
    Divider([Admin]),
    Item("Users", UsersPage, [Admin]),
    Item("Groups", GroupsPage, [Admin]),
    Item("Settings", SettingsPage, [Admin])
  ]

  const MenuItems: seq<Entry> := SharedItems + AdminItems

  /** `item.roles.includes(user?.role)`: no user is in no list. */
  predicate Visible(e: Entry, user: Option<Role>) {
    user.Some? && user.value in e.roles
  }

  /** The drawer: the entries the user's role admits, in menu order. */
  function Menu(user: Option<Role>): (r: seq<Entry>)
    ensures forall e :: e in r <==> e in MenuItems && Visible(e, user)
    ensures Subsequence(r, MenuItems)
  {
    KeepIsSubsequence(MenuItems, e => Visible(e, user));
    Keep(MenuItems, e => Visible(e, user))
  }

  /** Administrators see the whole drawer; agents and customers see the
      three shared items; without a user the drawer is empty. */
  lemma MenuByRole(user: Option<Role>)
    ensures Menu(user) == if user == Some(Admin) then MenuItems else if user.Some? then SharedItems else []
  {
    if user == Some(Admin) {
      AdminMenu();
    } else if user.Some? {
      SharedMenu(user.value);
    } else {
      EmptyMenu();
    }
  }

  lemma AdminMenu()
    ensures Menu(Some(Admin)) == MenuItems
  {
    KeepAll(MenuItems, e => Visible(e, Some(Admin)));
  }

  lemma SharedMenu(role: Role)
    requires role != Admin
    ensures Menu(Some(role)) == SharedItems
  {
    var p := (e: Entry) => Visible(e, Some(role));
    assert forall i :: 0 <= i < |SharedItems| ==> SharedItems[i].roles == Everyone;
    assert forall i :: 0 <= i < |AdminItems| ==> AdminItems[i].roles == [Admin];
    KeepAll(SharedItems, p);
    KeepNone(AdminItems, p);
    KeepAppend(SharedItems, AdminItems, p);
    assert Keep(MenuItems, p) == SharedItems + [];
  }

  lemma EmptyMenu()
    ensures Menu(None) == []
  {
    KeepNone(MenuItems, e => Visible(e, None));
  }

  /** Every item of the drawer opens its page rather than a redirect. */
  lemma MenuLinksOpen(role: Role, e: Entry)
    requires e in Menu(Some(role)) && e.Item?
    ensures Open(Path(e.target), false, Some(role)) == Shows(e.target)
  {
    WhoSeesWhat(e.target, role);
  }
}

=== FILE: notify.dfy ===
/** Who receives the mail a route asks for (`services/emailService.js`).
    The service looks the recipients up after the route has committed, so
    they are computed on the store the route leaves behind. Subjects and
    bodies are not modelled. */
module Notify {

  import opened Common
  import opened Schema

  /** `initTransporter`: mail is only sent when both `SMTP_HOST` and
      `SMTP_USER` are set and non-empty. */
  predicate SmtpConfigured(host: Option<string>, user: Option<string>) {
    host.Some? && host.value != "" && user.Some? && user.value != ""
  }

  /** Active, verified agents and admins: the staff mailing list. */
  predicate OnStaffList(u: User) {
    IsStaff(u.role) && u.isActive && u.emailVerified
  }

  /** The verified address of an optional user, as the joins read it. */
  predicate VerifiedUser(st: Store, o: Option<Id>) {
    o.Some? && o.value in st.users && st.users[o.value].emailVerified
  }

  /** `notifyNewTicket`: the whole staff list. */
  function NewTicketRecipients(st: Store): (r: set<string>)
    ensures forall e :: e in r <==> exists u :: u in st.users && OnStaffList(st.users[u]) && st.users[u].email == e
  {
    set u | u in st.users && OnStaffList(st.users[u]) :: st.users[u].email
  }

  /** `notifyNewComment`: the customer, unless they share the author's
      address, when their address is non-empty and verified; and the
      assignee, unless they wrote the comment or are the customer, when
      verified. Nothing is sent when the ticket, the comment or its author
      is missing, since the mail text cannot be built. */
  function NewCommentRecipients(st: Store, ticket: Id, comment: Id): (r: set<string>)
    ensures r != {} ==> ticket in st.tickets && comment in st.comments && st.comments[comment].author.Some?
    ensures forall e :: e in r ==> exists u :: u in st.users && st.users[u].emailVerified && st.users[u].email == e
    ensures ticket in st.tickets && comment in st.comments && VerifiedUser(st, st.comments[comment].author) ==>
      var tk := st.tickets[ticket];
      var author := st.comments[comment].author.value;
      (VerifiedUser(st, tk.customer) && st.users[tk.customer.value].email != ""
       && st.users[tk.customer.value].email != st.users[author].email ==>
         st.users[tk.customer.value].email in r)
      && (VerifiedUser(st, tk.assignedTo) && tk.assignedTo != Some(author) && tk.assignedTo != tk.customer ==>
            st.users[tk.assignedTo.value].email in r)
  {
    if ticket !in st.tickets || comment !in st.comments then {}
    else
      var tk := st.tickets[ticket];
      var authorId := st.comments[comment].author;
      if authorId.None? || authorId.value !in st.users then {}
      else
        var authorEmail := st.users[authorId.value].email;
        (if VerifiedUser(st, tk.customer) && st.users[tk.customer.value].email != ""
            && st.users[tk.customer.value].email != authorEmail
         then {st.users[tk.customer.value].email} else {})
        + (if VerifiedUser(st, tk.assignedTo) && tk.assignedTo != authorId && tk.assignedTo != tk.customer
           then {st.users[tk.assignedTo.value].email} else {})
  }

  /** `notifyInternalComment`: the staff list without the author. */
  function InternalCommentRecipients(st: Store, ticket: Id, comment: Id): (r: set<string>)
    ensures r != {} ==> ticket in st.tickets && comment in st.comments
    ensures ticket in st.tickets && comment in st.comments && st.comments[comment].author.Some?
            && st.comments[comment].author.value in st.users ==>
      forall e :: e in r <==> exists u :: u in st.users && OnStaffList(st.users[u])
                                        && Some(u) != st.comments[comment].author && st.users[u].email == e
  {
    if ticket !in st.tickets || comment !in st.comments then {}
    else
      var authorId := st.comments[comment].author;
      if authorId.None? || authorId.value !in st.users then {}
      else set u | u in st.users && OnStaffList(st.users[u]) && Some(u) != authorId :: st.users[u].email
  }

  /** `notifyStatusChange`: nothing when either status is NULL (the text
      cannot be built); otherwise the customer when their address is
      non-empty and verified, and the assignee, unless they are the
      customer, when verified. */
  function StatusChangeRecipients(st: Store, ticket: Id, oldStatus: Option<string>, newStatus: Option<string>): (r: set<string>)
    ensures oldStatus.None? || newStatus.None? || ticket !in st.tickets ==> r == {}
    ensures ticket in st.tickets && oldStatus.Some? && newStatus.Some? ==>
      var tk := st.tickets[ticket];
      forall e :: e in r <==>
        (VerifiedUser(st, tk.customer) && st.users[tk.customer.value].email != "" && e == st.users[tk.customer.value].email)
        || (VerifiedUser(st, tk.assignedTo) && tk.assignedTo != tk.customer && e == st.users[tk.assignedTo.value].email)
  {
    if ticket !in st.tickets || oldStatus.None? || newStatus.None? then {}
    else
      var tk := st.tickets[ticket];
      (if VerifiedUser(st, tk.customer) && st.users[tk.customer.value].email != ""
       then {st.users[tk.customer.value].email} else {})
      + (if VerifiedUser(st, tk.assignedTo) && tk.assignedTo != tk.customer
         then {st.users[tk.assignedTo.value].email} else {})
  }

  /** `notifyAssignment`: the new assignee, when the ticket exists and the
      assignee is verified. */
  function AssignmentRecipients(st: Store, ticket: Id, assignee: Id): (r: set<string>)
    ensures r != {} <==> ticket in st.tickets && VerifiedUser(st, Some(assignee))
    ensures r != {} ==> r == {st.users[assignee].email}
  {
    if ticket in st.tickets && VerifiedUser(st, Some(assignee)) then {st.users[assignee].email} else {}
  }

  /** The addresses the service writes to for one notice. */
  function Recipients(st: Store, n: Notice): set<string> {
    match n
    case NewTicket(_) => NewTicketRecipients(st)
    case NewComment(t, c) => NewCommentRecipients(st, t, c)
    case InternalComment(t, c) => InternalCommentRecipients(st, t, c)
    case StatusChange(t, o, s) => StatusChangeRecipients(st, t, o, s)
    case Assignment(t, a) => AssignmentRecipients(st, t, a)
    case VerificationCode(to, _, _) => {to}
    case ResetCode(to, _) => {to}
  }

  /** What actually leaves, given `SMTP_HOST` and `SMTP_USER`: nothing at
      all unless both are set and non-empty. */
  function Sent(host: Option<string>, user: Option<string>, st: Store, n: Notice): (r: set<string>)
    ensures host.None? || host == Some("") || user.None? || user == Some("") ==> r == {}
    ensures SmtpConfigured(host, user) ==> r == Recipients(st, n)
  {
    if SmtpConfigured(host, user) then Recipients(st, n) else {}
  }

  /** Ticket mail only reaches verified accounts. */
  lemma TicketMailOnlyToVerified(st: Store, n: Notice, e: string)
    requires !n.VerificationCode? && !n.ResetCode?
    requires e in Recipients(st, n)
    ensures exists u :: u in st.users && st.users[u].emailVerified && st.users[u].email == e
  {
  }

  /** An internal note never reaches a customer, nor its own author. */
  lemma InternalNoteStaysWithStaff(st: Store, ticket: Id, comment: Id, v: Id)
    requires UniqueAccounts(st.users) && v in st.users
    requires st.users[v].email in Recipients(st, InternalComment(ticket, comment))
    ensures IsStaff(st.users[v].role) && st.comments[comment].author != Some(v)
  {
    var e := st.users[v].email;
    var u :| u in st.users && OnStaffList(st.users[u]) && Some(u) != st.comments[comment].author && st.users[u].email == e;
    assert u == v;
  }

  /** The author of a public comment is never mailed about it. */
  lemma AuthorNotMailedOwnComment(st: Store, ticket: Id, comment: Id)
    requires UniqueAccounts(st.users)
    requires comment in st.comments && st.comments[comment].author.Some? && st.comments[comment].author.value in st.users
    ensures st.users[st.comments[comment].author.value].email !in Recipients(st, NewComment(ticket, comment))
  {
  }
}

=== FILE: ordering.dfy ===
/** `ORDER BY <key>`: a set of row ids laid out as a list sorted on a key.
    Rows with equal keys may come in any order, as in SQL. */
module Ordering {

  import opened Common

  predicate SortedBy(xs: seq<Id>, key: Id -> int) {
    forall i, j :: 0 <= i < j < |xs| ==> key(xs[i]) <= key(xs[j])
  }

  /** Every finite non-empty set has an element of least key. */
  lemma {:induction false} LeastExists(ids: set<Id>, key: Id -> int)
    requires ids != {}
    ensures exists m :: m in ids && forall y :: y in ids ==> key(m) <= key(y)
    decreases |ids|
  {
    var x :| x in ids;
    if ids - {x} != {} {
      LeastExists(ids - {x}, key);
      var m :| m in ids - {x} && forall y :: y in ids - {x} ==> key(m) <= key(y);
      if key(x) < key(m) {
        assert forall y :: y in ids ==> key(x) <= key(y);
      } else {
        assert forall y :: y in ids ==> key(m) <= key(y);
      }
    } else {
      assert ids == {x};
    }
  }

  /** The ids of `ids`, each once, in ascending key order. */
  ghost function OrderBy(ids: set<Id>, key: Id -> int): (xs: seq<Id>)
    ensures forall x :: x in xs <==> x in ids
    ensures |xs| == |ids|
    ensures forall i, j :: 0 <= i < j < |xs| ==> xs[i] != xs[j]
    ensures SortedBy(xs, key)
    decreases |ids|
  {
    if ids == {} then []
    else
      LeastExists(ids, key);
      var m :| m in ids && forall y :: y in ids ==> key(m) <= key(y);
      var rest := OrderBy(ids - {m}, key);
      assert forall j :: 0 <= j < |rest| ==> key(m) <= key(rest[j]);
      [m] + rest
  }
}

=== FILE: password_policy.dfy ===
/** The server's password policy (`validatePassword`): five independent rules,
    every violated rule reported, in a fixed order. */
module PasswordPolicy {

  import opened Text

  /** The five rules, in the order the validator checks them. */
  datatype Rule = MinLength | Uppercase | Lowercase | Digit | Symbol

  const AllRules: seq<Rule> := [MinLength, Uppercase, Lowercase, Digit, Symbol]

  /** Position of a rule in the checking order. */
  function Rank(r: Rule): nat {
    match r
    case MinLength => 0
    case Uppercase => 1
    case Lowercase => 2
    case Digit => 3
    case Symbol => 4
  }

  /** The message pushed onto `errors` for each rule. */
  function Message(r: Rule): string {
    match r
    case MinLength => "Password must be at least 8 characters long"
    case Uppercase => "Password must contain at least 1 uppercase letter"
    case Lowercase => "Password must contain at least 1 lowercase letter"
    case Digit => "Password must contain at least 1 number"
    case Symbol => "Password must contain at least 1 symbol (!@#$%^&*()_+-=[]{};':\"|,.<>?/)"
  }

  /** The rule's own requirement, stated over characters rather than counts. */
  predicate Satisfies(pw: string, r: Rule) {
    match r
    case MinLength => Utf16Length(pw) >= 8
    case Uppercase => exists i :: 0 <= i < |pw| && IsUpper(pw[i])
    case Lowercase => exists i :: 0 <= i < |pw| && IsLower(pw[i])
    case Digit => exists i :: 0 <= i < |pw| && IsDigit(pw[i])
    case Symbol => exists i :: 0 <= i < |pw| && IsSymbol(pw[i])
  }

  /** The validator's result object `{ isValid, errors }`. */
  datatype Validation = Validation(isValid: bool, errors: seq<Rule>)

  /** Strictly increasing in the checking order (so also free of repeats). */
  predicate InCheckOrder(errs: seq<Rule>) {
    forall i, j :: 0 <= i < j < |errs| ==> Rank(errs[i]) < Rank(errs[j])
  }

  /** The validator's test for one rule, on counts as the code computes it. */
  predicate Fails(pw: string, r: Rule) {
    match r
    case MinLength => Utf16Length(pw) < 8
    case Uppercase => Count(pw, IsUpper) < 1
    case Lowercase => Count(pw, IsLower) < 1
    case Digit => Count(pw, IsDigit) < 1
    case Symbol => Count(pw, IsSymbol) < 1
  }

  /** Counting below one is the same as having no character of the class. */
  lemma FailsIffBroken(pw: string, r: Rule)
    ensures Fails(pw, r) <==> !Satisfies(pw, r)
  {
  }

  /** One check: the rule's error when its test fails. */
  function Check(pw: string, r: Rule): seq<Rule> {
    if Fails(pw, r) then [r] else []
  }

  /** The failed rules among `rules`, kept in the order given. */
  function FailedRules(pw: string, rules: seq<Rule>): seq<Rule> {
    if rules == [] then [] else Check(pw, rules[0]) + FailedRules(pw, rules[1..])
  }

  /** `validatePassword`: the five checks run in a fixed order and none
      short-circuits another, so every broken rule is reported, in order. */
  function Validate(pw: string): (v: Validation)
    ensures v.isValid <==> v.errors == []
    ensures forall r :: r in v.errors <==> !Satisfies(pw, r)
    ensures InCheckOrder(v.errors) && |v.errors| <= 5
  {
    var errors := FailedRules(pw, AllRules);
    ReportedIffBroken(pw);
    FailedRulesOrdered(pw, AllRules);
    Validation(|errors| == 0, errors)
  }

  lemma ReportedIffBroken(pw: string)
    ensures forall r :: r in FailedRules(pw, AllRules) <==> !Satisfies(pw, r)
  {
    forall r ensures r in FailedRules(pw, AllRules) <==> !Satisfies(pw, r) {
      FailedRulesMembership(pw, AllRules, r);
    }
  }

  /** A rule is reported exactly when it is listed and the password fails it. */
  lemma {:induction false} FailedRulesMembership(pw: string, rules: seq<Rule>, r: Rule)
    ensures r in FailedRules(pw, rules) <==> r in rules && !Satisfies(pw, r)
  {
    FailsIffBroken(pw, r);
    if rules != [] {
      FailedRulesMembership(pw, rules[1..], r);
      assert rules == [rules[0]] + rules[1..];
    }
  }

  /** Filtering keeps the relative order, so an ordered rule list gives an
      ordered error list, no longer than the rule list. */
  lemma {:induction false} FailedRulesOrdered(pw: string, rules: seq<Rule>)
    requires InCheckOrder(rules)
    ensures InCheckOrder(FailedRules(pw, rules))
    ensures |FailedRules(pw, rules)| <= |rules|
  {
    if rules != [] {
      var tail := rules[1..];
      assert InCheckOrder(tail) by {
        forall i, j | 0 <= i < j < |tail| ensures Rank(tail[i]) < Rank(tail[j]) {
          assert tail[i] == rules[i + 1] && tail[j] == rules[j + 1];
        }
      }
      FailedRulesOrdered(pw, tail);
      var rest := FailedRules(pw, tail);
      forall x | x in rest ensures Rank(rules[0]) < Rank(x) {
        FailedRulesMembership(pw, tail, x);
        var k :| 0 <= k < |tail| && tail[k] == x;
        assert rules[k + 1] == x;
      }
    }
  }

  /** A password is accepted exactly when it meets all five rules. */
  lemma ValidIffAllRulesHold(pw: string)
    ensures Validate(pw).isValid <==> forall r :: Satisfies(pw, r)
  {
    var v := Validate(pw);
    if !v.isValid {
      assert !Satisfies(pw, v.errors[0]);
    }
  }

  /** The text of a failed validation, `errors.join(sep)`: the routes use
      ". " and ", " as separators. */
  function ErrorText(v: Validation, sep: string): string {
    JoinWith(seq(|v.errors|, i requires 0 <= i < |v.errors| => Message(v.errors[i])), sep)
  }

  /** An accepted password has at least eight code units, so at least four
      characters. */
  lemma ValidMeansLong(pw: string)
    requires Validate(pw).isValid
    ensures Utf16Length(pw) >= 8 && |pw| >= 4
  {
    var v := Validate(pw);
    assert MinLength !in v.errors;
    assert Satisfies(pw, MinLength);
  }

  /** A strong password: the smallest input that passes every rule. */
  lemma ExampleAccepted()
    ensures Validate("Abcdef1!").isValid
  {
    var pw := "Abcdef1!";
    assert Utf16Length(pw) == |pw|;
    assert IsUpper(pw[0]) && IsLower(pw[1]) && IsDigit(pw[6]) && IsSymbol(pw[7]);
  }

  /** The length rule counts code units: four characters outside the Basic
      Multilingual Plane meet it, where four plain letters do not. */
  lemma LengthCountsCodeUnits()
    ensures Satisfies("\U{1F600}\U{1F600}\U{1F600}\U{1F600}", MinLength)
    ensures !Satisfies("abcd", MinLength)
  {
    var e := "\U{1F600}\U{1F600}\U{1F600}\U{1F600}";
    assert e[1..] == "\U{1F600}\U{1F600}\U{1F600}";
    TwoEmojiAreFourUnits();
    assert e[1..][1..] == "\U{1F600}\U{1F600}";
    assert Utf16Length("abcd") == |"abcd"|;
  }

  /** Blanks, backticks, tildes and non-ASCII characters fall in no character
      class: a password made only of them breaks all four class rules. */
  lemma UnlistedCharactersCountForNothing(pw: string)
    requires forall i :: 0 <= i < |pw| ==> pw[i] == ' ' || pw[i] == '`' || pw[i] == '~' || pw[i] > '\U{007F}'
    ensures forall r :: r != MinLength ==> r in Validate(pw).errors
  {
    forall i | 0 <= i < |pw| ensures !IsSymbol(pw[i]) {
      assert forall j :: 0 <= j < |Symbols| ==> Symbols[j] != ' ' && Symbols[j] != '`' && Symbols[j] != '~' && Symbols[j] <= '\U{007F}';
    }
  }
}

=== FILE: profile.dfy ===
/** The profile page (`pages/Profile.js`): the administrator-only role and
    group editor, which syncs a user's memberships through the group
    routes, and the client-side check of the password form. */
module Profile {

  import opened Common
  import opened Text
  import opened Schema
  import opened Seqs
  import opened PasswordPolicy
  import Users
  import Groups

  /** The role and group pickers are disabled, and the save button absent,
      for everyone but administrators. */
  predicate RoleEditorEnabled(viewer: Role) {
    viewer == Admin
  }

  // ---------------------------------------------------------------------
  // Syncing memberships
  // ---------------------------------------------------------------------

  /** The groups to join: selected but not current, in selection order. */
  function Additions(selected: seq<Id>, current: seq<Id>): (r: seq<Id>)
    ensures forall g :: g in r <==> g in selected && g !in current
    ensures Subsequence(r, selected)
  {
    KeepIsSubsequence(selected, g => g !in current);
    Keep(selected, g => g !in current)
  }

  /** The groups to leave: current but no longer selected. */
  function Removals(selected: seq<Id>, current: seq<Id>): (r: seq<Id>)
    ensures forall g :: g in r <==> g in current && g !in selected
    ensures Subsequence(r, current)
  {
    KeepIsSubsequence(current, g => g !in selected);
    Keep(current, g => g !in selected)
  }

  /** The first loop: one `POST /groups/:id/members` per group, the first
      failure abandoning the rest while the joins before it stay. */
  function AddEach(st: Store, actor: Actor, user: Id, gs: seq<Id>): (s: Step<string>)
    ensures s.notices == []
    ensures s.st == st.(members := s.st.members)
    ensures st.members <= s.st.members
    ensures s.out.Success() <==>
      forall i :: 0 <= i < |gs| ==> actor.role == Admin && user != "" && user in st.users && gs[i] in st.groups
    ensures s.out.Success() ==>
      forall m :: m in s.st.members <==> m in st.members || (m.user == user && m.group in gs)
    decreases |gs|
  {
    if gs == [] then Answer(st, Ok(Ok200, ""))
    else
      var s1 := Groups.AddMember(st, actor, gs[0], Val(user));
      if !s1.out.Success() then s1
      else
        var rest := AddEach(s1.st, actor, user, gs[1..]);
        assert forall i :: 1 <= i < |gs| ==> gs[i] == gs[1..][i - 1];
        assert forall g :: g in gs <==> g == gs[0] || g in gs[1..];
        rest
  }

  /** The second loop: one `DELETE /groups/:id/members/:userId` per group. */
  function RemoveEach(st: Store, actor: Actor, user: Id, gs: seq<Id>): (s: Step<string>)
    ensures s.notices == []
    ensures s.st == st.(members := s.st.members)
    ensures s.out.Success() <==> gs == [] || actor.role == Admin
    ensures s.out.Success() ==>
      forall m :: m in s.st.members <==> m in st.members && !(m.user == user && m.group in gs)
    ensures !s.out.Success() ==> s.st == st
    decreases |gs|
  {
    if gs == [] then Answer(st, Ok(Ok200, ""))
    else
      var s1 := Groups.RemoveMember(st, actor, gs[0], user);
      if !s1.out.Success() then s1
      else
        var rest := RemoveEach(s1.st, actor, user, gs[1..]);
        assert forall g :: g in gs <==> g == gs[0] || g in gs[1..];
        rest
  }

  /** The body of `PUT /users/:id` that carries only the role. */
  function RoleChange(role: string): Users.UserChange {
    Users.UserChange(Undefined, Undefined, Undefined, Undefined, Val(role), Undefined)
  }

  /** `handleRoleGroupSave`, on the viewer's own account: the role first,
      then the joins, then the leaves; the first failing request ends the
      save with its error. `current` is the account's group list as fetched
      before the loops. */
  function SaveRoleAndGroups(st: Store, actor: Actor, role: string, selected: seq<Id>, current: seq<Id>): (s: Step<string>)
    ensures s.notices == []
    ensures s.st.groups == st.groups && s.st.tickets == st.tickets && s.st.settings == st.settings
    ensures !RoleEditorEnabled(actor.role) ==> !s.out.Success() && s.st == st
    ensures s.out.Success() ==> s.out.value == "Role and groups updated successfully!"
  {
    var user := actor.id;
    var r := Users.UpdateUser(st, actor, user, RoleChange(role));
    if !r.out.Success() then Answer(st, Err(r.out.code, r.out.message))
    else
      var a := AddEach(r.st, actor, user, Additions(selected, current));
      if !a.out.Success() then a
      else
        var d := RemoveEach(a.st, actor, user, Removals(selected, current));
        if !d.out.Success() then d
        else Answer(d.st, Ok(Ok200, "Role and groups updated successfully!"))
  }

  /** After a successful save the viewer's memberships are exactly the
      selection (among existing groups), the role is the one picked, and
      nobody else's memberships moved. */
  lemma SaveMakesMembershipTheSelection(st: Store, actor: Actor, role: string, selected: seq<Id>, current: seq<Id>)
    requires forall g :: g in current <==> g in st.groups && Membership(actor.id, g) in st.members
    requires SaveRoleAndGroups(st, actor, role, selected, current).out.Success()
    ensures var s := SaveRoleAndGroups(st, actor, role, selected, current).st;
      forall g :: g in st.groups ==> (Membership(actor.id, g) in s.members <==> g in selected)
    ensures var s := SaveRoleAndGroups(st, actor, role, selected, current).st;
      forall m: Membership :: m.user != actor.id ==> (m in s.members <==> m in st.members)
    ensures var s := SaveRoleAndGroups(st, actor, role, selected, current).st;
      actor.id in s.users && ParseRole(role) == Some(s.users[actor.id].role)
  {
    var r := Users.UpdateUser(st, actor, actor.id, RoleChange(role));
    assert r.st.members == st.members;
  }

  /** Run by an administrator whose account exists, with a valid role and
      every picked group still present, the save succeeds: the editor is
      shown exactly to the callers the routes serve. */
  lemma SaveSucceeds(st: Store, actor: Actor, role: string, selected: seq<Id>, current: seq<Id>)
    requires Valid(st) && RoleEditorEnabled(actor.role) && actor.id in st.users && actor.id != "" && ParseRole(role).Some?
    requires forall i :: 0 <= i < |selected| ==> selected[i] in st.groups
    ensures SaveRoleAndGroups(st, actor, role, selected, current).out.Success()
  {
    var c := RoleChange(role);
    var u := Users.Changed(st.users[actor.id], c, actor);
    assert AccountFits(st.users, actor.id, u);
    var r := Users.UpdateUser(st, actor, actor.id, c);
    assert r.out.Success();
    var adds := Additions(selected, current);
    assert forall i :: 0 <= i < |adds| ==> adds[i] in selected;
  }

  /** `handleRoleGroupSave` as the page is written. After the role is
      written it fetches `GET /users/:id/groups`, a route the user routes do
      not define, so the fetch is answered 404 with no `error` field and the
      page shows its fallback message: the role is saved, the memberships
      never are. */
  function SaveAsWritten(st: Store, actor: Actor, role: string): (s: Step<string>)
    ensures s.notices == []
    ensures !s.out.Success()
    ensures s.st.members == st.members && s.st.groups == st.groups
    ensures !RoleEditorEnabled(actor.role) ==> s.st == st
  {
    var r := Users.UpdateUser(st, actor, actor.id, RoleChange(role));
    if !r.out.Success() then Answer(st, Err(r.out.code, r.out.message))
    else Answer(r.st, Err(NotFound404, "Failed to update role and groups"))
  }

  /** The page as written ends every save in an error, having written the
      same role the intended save writes and none of its membership
      changes; whenever the intended save would join a group, the two
      leave different memberships. */
  lemma AsWrittenSaveStopsAfterRole(st: Store, actor: Actor, role: string, selected: seq<Id>, current: seq<Id>, g: Id)
    requires SaveRoleAndGroups(st, actor, role, selected, current).out.Success()
    requires g in selected && g !in current && Membership(actor.id, g) !in st.members
    ensures var w := SaveAsWritten(st, actor, role);
      !w.out.Success() && w.out.message == "Failed to update role and groups"
    ensures SaveAsWritten(st, actor, role).st.users == SaveRoleAndGroups(st, actor, role, selected, current).st.users
    ensures Membership(actor.id, g) in SaveRoleAndGroups(st, actor, role, selected, current).st.members
    ensures Membership(actor.id, g) !in SaveAsWritten(st, actor, role).st.members
  {
    var r := Users.UpdateUser(st, actor, actor.id, RoleChange(role));
    assert r.out.Success();
    assert g in Additions(selected, current);
  }

  // ---------------------------------------------------------------------
  // The password form
  // ---------------------------------------------------------------------

  /** The page's own check before any request: the confirmation must match,
      then the new password must have six characters. */
  function PasswordFormError(newPassword: string, confirm: string): (r: Option<string>)
    ensures r.None? <==> newPassword == confirm && Utf16Length(newPassword) >= 6
    ensures newPassword != confirm ==> r == Some("New passwords do not match")
    ensures newPassword == confirm && Utf16Length(newPassword) < 6 ==> r == Some("Password must be at least 6 characters")
  {
    if newPassword != confirm then Some("New passwords do not match")
    else if Utf16Length(newPassword) < 6 then Some("Password must be at least 6 characters")
    else None
  }

  /** Every password the server's policy accepts passes the page's check. */
  lemma PolicyImpliesFormCheck(pw: string)
    requires Validate(pw).isValid
    ensures PasswordFormError(pw, pw).None?
  {
    assert MinLength !in Validate(pw).errors;
  }

  /** The page's check is strictly weaker: six lowercase letters pass it,
      and the policy refuses them. */
  lemma FormCheckWeakerThanPolicy()
    ensures PasswordFormError("abcdef", "abcdef").None?
    ensures !Validate("abcdef").isValid
  {
    assert Utf16Length("abcdef") == |"abcdef"|;
    assert !Satisfies("abcdef", MinLength);
    assert MinLength in Validate("abcdef").errors;
  }
}

=== FILE: schema.dfy ===
/** The database of the help desk (`001_initial_schema`): the three enums,
    one record per table row, the store of all tables, its integrity
    constraints, and what a DELETE does to the rows that reference the
    deleted one. */
module Schema {

  import opened Common

  /** `user_role`. */
  datatype Role = Admin | Agent | Customer

  function RoleName(r: Role): string {
    match r
    case Admin => "admin"
    case Agent => "agent"
    case Customer => "customer"
  }

  /** Casting text to `user_role`: only the three labels are accepted. */
  function ParseRole(s: string): (r: Option<Role>)
    ensures r.Some? ==> RoleName(r.value) == s
    ensures r.None? ==> forall x: Role :: RoleName(x) != s
  {
    if s == "admin" then Some(Admin)
    else if s == "agent" then Some(Agent)
    else if s == "customer" then Some(Customer)
    else None
  }

  /** Agents and admins: the roles the routes call staff. */
  predicate IsStaff(r: Role) {
    r == Admin || r == Agent
  }

  /** `ticket_status`. */
  datatype Status = Open | InProgress | Pending | Resolved | Closed

  function StatusName(s: Status): string {
    match s
    case Open => "open"
    case InProgress => "in_progress"
    case Pending => "pending"
    case Resolved => "resolved"
    case Closed => "closed"
  }

  function ParseStatus(s: string): (r: Option<Status>)
    ensures r.Some? ==> StatusName(r.value) == s
    ensures r.None? ==> forall x: Status :: StatusName(x) != s
  {
    if s == "open" then Some(Open)
    else if s == "in_progress" then Some(InProgress)
    else if s == "pending" then Some(Pending)
    else if s == "resolved" then Some(Resolved)
    else if s == "closed" then Some(Closed)
    else None
  }

  /** `ticket_priority`. */
  datatype Priority = Low | Medium | High | Urgent

  function PriorityName(p: Priority): string {
    match p
    case Low => "low"
    case Medium => "medium"
    case High => "high"
    case Urgent => "urgent"
  }

  function ParsePriority(s: string): (r: Option<Priority>)
    ensures r.Some? ==> PriorityName(r.value) == s
    ensures r.None? ==> forall x: Priority :: PriorityName(x) != s
  {
    if s == "low" then Some(Low)
    else if s == "medium" then Some(Medium)
    else if s == "high" then Some(High)
    else if s == "urgent" then Some(Urgent)
    else None
  }

  /** Every label of the three enums reads back as itself, and distinct
      values have distinct labels. */
  lemma EnumLabelsRoundTrip(r: Role, s: Status, p: Priority)
    ensures ParseRole(RoleName(r)) == Some(r)
    ensures ParseStatus(StatusName(s)) == Some(s)
    ensures ParsePriority(PriorityName(p)) == Some(p)
  {
  }

  /** A bcrypt digest. Hashing is modelled as an injective constructor, and
      `bcrypt.compare` as comparing the secret it was made from. */
  datatype Hash = Hashed(secret: string)

  predicate PasswordMatches(plain: string, h: Hash) {
    h.secret == plain
  }

  /** A `users` row. The three flags are read everywhere as "true or not":
      a NULL stored through a JSON `null` behaves as false, so it is false here. */
  datatype User = User(
    username: string,
    email: string,
    passwordHash: Hash,
    firstName: Option<string>,
    lastName: Option<string>,
    role: Role,
    isActive: bool,
    emailVerified: bool,
    forcePasswordChange: bool,
    createdAt: nat,
    lastLogin: Option<nat>)

  /** A `groups` row. */
  datatype Group = Group(name: string, description: Option<string>)

  /** A `user_groups` row: the primary key is the pair itself. */
  datatype Membership = Membership(user: Id, group: Id)

  /** A `tickets` row. Status and priority are nullable columns. */
  datatype Ticket = Ticket(
    number: nat,
    subject: string,
    description: string,
    status: Option<Status>,
    priority: Option<Priority>,
    customer: Option<Id>,
    assignedTo: Option<Id>,
    group: Option<Id>,
    createdAt: nat,
    updatedAt: nat,
    resolvedAt: Option<nat>,
    closedAt: Option<nat>)

  /** A `comments` row. `updatedAt` is stamped by the
      `update_comments_updated_at` trigger on every UPDATE. */
  datatype Comment = Comment(
    ticket: Id,
    author: Option<Id>,
    content: string,
    isInternal: bool,
    createdAt: nat,
    updatedAt: nat)

  /** An uploaded file as the upload middleware describes it. */
  datatype FileMeta = FileMeta(
    filename: string,
    originalName: string,
    mimeType: string,
    size: nat,
    path: string)

  /** An `attachments` row: always on a ticket, optionally on one of its comments. */
  datatype Attachment = Attachment(
    ticket: Id,
    comment: Option<Id>,
    uploader: Option<Id>,
    file: FileMeta,
    createdAt: nat)

  /** A `settings` row (the key is the map key). */
  datatype Setting = Setting(value: Option<string>, description: Option<string>, updatedBy: Option<Id>)

  /** All tables. `lastNumber` is the last value handed out by the
      `ticket_number` sequence. */
  datatype Store = Store(
    users: map<Id, User>,
    groups: map<Id, Group>,
    members: set<Membership>,
    tickets: map<Id, Ticket>,
    comments: map<Id, Comment>,
    attachments: map<Id, Attachment>,
    settings: map<string, Setting>,
    lastNumber: nat)

  /** An empty database, as right after the schema migration. */
  const Empty := Store(map[], map[], {}, map[], map[], map[], map[], 0)

  /** The authenticated caller (`req.user`). */
  datatype Actor = Actor(id: Id, role: Role)

  /** The e-mails a route asks the mail service to send. */
  datatype Notice =
    | NewTicket(ticket: Id)
    | NewComment(ticket: Id, comment: Id)
    | InternalComment(ticket: Id, comment: Id)
    | StatusChange(ticket: Id, oldStatus: Option<string>, newStatus: Option<string>)
    | Assignment(ticket: Id, assignee: Id)
    | VerificationCode(to: string, code: string, tempPassword: string)
    | ResetCode(to: string, code: string)

  /** What a route does: its answer, the database afterwards, and the mail
      it triggers. */
  datatype Step<+T> = Step(out: Outcome<T>, st: Store, notices: seq<Notice>)

  /** A route that answers without changing anything or sending mail. */
  function Answer<T>(st: Store, out: Outcome<T>): (s: Step<T>)
    ensures s.st == st && s.notices == [] && s.out == out
  {
    Step(out, st, [])
  }

  // ---------------------------------------------------------------------
  // Integrity constraints
  // ---------------------------------------------------------------------

  /** UNIQUE (username) and UNIQUE (email). */
  predicate UniqueAccounts(users: map<Id, User>) {
    forall a, b :: a in users && b in users && a != b ==>
      users[a].username != users[b].username && users[a].email != users[b].email
  }

  /** UNIQUE (name) on groups. */
  predicate UniqueGroupNames(groups: map<Id, Group>) {
    forall a, b :: a in groups && b in groups && a != b ==> groups[a].name != groups[b].name
  }

  /** UNIQUE (ticket_number), every number drawn from the sequence. */
  predicate NumbersFromSequence(tickets: map<Id, Ticket>, lastNumber: nat) {
    (forall a, b :: a in tickets && b in tickets && a != b ==> tickets[a].number != tickets[b].number)
    && forall t :: t in tickets ==> 1 <= tickets[t].number <= lastNumber
  }

  predicate RefersToUser(st: Store, o: Option<Id>) {
    o.Some? ==> o.value in st.users
  }

  /** Foreign keys of `user_groups`. */
  predicate MembersRef(st: Store) {
    forall m :: m in st.members ==> m.user in st.users && m.group in st.groups
  }

  /** Foreign keys of `tickets`. */
  predicate TicketsRef(st: Store) {
    forall t :: t in st.tickets ==>
      RefersToUser(st, st.tickets[t].customer) && RefersToUser(st, st.tickets[t].assignedTo)
      && (st.tickets[t].group.Some? ==> st.tickets[t].group.value in st.groups)
  }

  /** Foreign keys of `comments`. */
  predicate CommentsRef(st: Store) {
    forall c :: c in st.comments ==>
      st.comments[c].ticket in st.tickets && RefersToUser(st, st.comments[c].author)
  }

  /** Foreign keys of `attachments`; a comment's attachment sits on that
      comment's ticket. */
  predicate AttachmentsRef(st: Store) {
    forall a :: a in st.attachments ==>
      st.attachments[a].ticket in st.tickets && RefersToUser(st, st.attachments[a].uploader)
      && (st.attachments[a].comment.Some? ==>
            st.attachments[a].comment.value in st.comments
            && st.comments[st.attachments[a].comment.value].ticket == st.attachments[a].ticket)
  }

  /** Foreign key of `settings`. */
  predicate SettingsRef(st: Store) {
    forall k :: k in st.settings ==> RefersToUser(st, st.settings[k].updatedBy)
  }

  /** Every foreign key points at an existing row. */
  predicate Referential(st: Store) {
    MembersRef(st) && TicketsRef(st) && CommentsRef(st) && AttachmentsRef(st) && SettingsRef(st)
  }

  /** The constraints the schema enforces on every committed state. */
  predicate Valid(st: Store) {
    UniqueAccounts(st.users) && UniqueGroupNames(st.groups)
    && NumbersFromSequence(st.tickets, st.lastNumber) && Referential(st)
  }

  lemma EmptyIsValid()
    ensures Valid(Empty)
  {
  }

  // ---------------------------------------------------------------------
  // Lookups by unique column
  // ---------------------------------------------------------------------

  /** `SELECT ... FROM users WHERE email = $1`. */
  ghost function UserByEmail(st: Store, email: string): (r: Option<Id>)
    ensures r.Some? ==> r.value in st.users && st.users[r.value].email == email
    ensures r.None? <==> forall u :: u in st.users ==> st.users[u].email != email
  {
    if exists u :: u in st.users && st.users[u].email == email then
      var u :| u in st.users && st.users[u].email == email; Some(u)
    else None
  }

  /** `SELECT ... FROM users WHERE username = $1`. */
  ghost function UserByName(st: Store, name: string): (r: Option<Id>)
    ensures r.Some? ==> r.value in st.users && st.users[r.value].username == name
    ensures r.None? <==> forall u :: u in st.users ==> st.users[u].username != name
  {
    if exists u :: u in st.users && st.users[u].username == name then
      var u :| u in st.users && st.users[u].username == name; Some(u)
    else None
  }

  /** Under the uniqueness constraint the email lookup finds THE account. */
  lemma UserByEmailIsTheAccount(st: Store, email: string, u: Id)
    requires UniqueAccounts(st.users)
    requires u in st.users && st.users[u].email == email
    ensures UserByEmail(st, email) == Some(u)
  {
  }

  lemma UserByNameIsTheAccount(st: Store, name: string, u: Id)
    requires UniqueAccounts(st.users)
    requires u in st.users && st.users[u].username == name
    ensures UserByName(st, name) == Some(u)
  {
  }

  predicate EmailTaken(st: Store, email: string) {
    exists u :: u in st.users && st.users[u].email == email
  }

  predicate UsernameTaken(st: Store, name: string) {
    exists u :: u in st.users && st.users[u].username == name
  }

  /** The value column of a setting, NULL and missing rows alike giving None. */
  function SettingValue(st: Store, key: string): (r: Option<string>)
    ensures r.Some? <==> key in st.settings && st.settings[key].value.Some?
    ensures r.Some? ==> r.value == st.settings[key].value.value
  {
    if key in st.settings then st.settings[key].value else None
  }

  /** Which columns `INSERT INTO settings ... ON CONFLICT (key) DO UPDATE`
      rewrites besides `value` when the key already exists. */
  datatype OnConflict = ValueOnly | ValueAndAuthor | ValueAndDescription

  /** An upsert of one settings row. A new key gets the whole row. */
  function Upsert(settings: map<string, Setting>, key: string, row: Setting, mode: OnConflict): (r: map<string, Setting>)
    ensures r.Keys == settings.Keys + {key}
    ensures forall k :: k in settings && k != key ==> r[k] == settings[k]
    ensures r[key].value == row.value
    ensures key !in settings ==> r[key] == row
    ensures key in settings ==>
      r[key].description == (if mode == ValueAndDescription then row.description else settings[key].description)
    ensures key in settings ==>
      r[key].updatedBy == (if mode == ValueAndAuthor then row.updatedBy else settings[key].updatedBy)
  {
    if key !in settings then settings[key := row]
    else
      var cur := settings[key];
      match mode
      case ValueOnly => settings[key := cur.(value := row.value)]
      case ValueAndAuthor => settings[key := cur.(value := row.value, updatedBy := row.updatedBy)]
      case ValueAndDescription => settings[key := cur.(value := row.value, description := row.description)]
  }

  /** Fresh ids: no two alike. */
  predicate Distinct(ids: seq<Id>) {
    forall i, j :: 0 <= i < j < |ids| ==> ids[i] != ids[j]
  }

  /** The `INSERT INTO attachments` loop of the ticket and comment routes:
      one row per uploaded file, under the ids given for them. */
  function AddAttachments(atts: map<Id, Attachment>, ticket: Id, comment: Option<Id>, uploader: Id,
                          files: seq<FileMeta>, ids: seq<Id>, now: nat): (r: map<Id, Attachment>)
    requires |ids| == |files| && Distinct(ids)
    ensures forall a :: a in r <==> a in atts || a in ids
    ensures forall a :: a in atts && a !in ids ==> r[a] == atts[a]
    ensures forall i :: 0 <= i < |ids| ==> r[ids[i]] == Attachment(ticket, comment, Some(uploader), files[i], now)
  {
    var added := map i | 0 <= i < |ids| :: ids[i] := Attachment(ticket, comment, Some(uploader), files[i], now);
    assert forall a :: a in added <==> a in ids;
    atts + added
  }

  // ---------------------------------------------------------------------
  // DELETE and its referential actions
  // ---------------------------------------------------------------------

  /** ON DELETE SET NULL applied to one nullable reference. */
  function Unlink(o: Option<Id>, id: Id): (r: Option<Id>)
    ensures r != Some(id)
    ensures o != Some(id) ==> r == o
  {
    if o == Some(id) then None else o
  }

  /** `DELETE FROM users WHERE id = $1`: memberships cascade; tickets'
      customer and assignee, comment and attachment authors and settings'
      `updated_by` are set to NULL. */
  function DeleteUserRow(st: Store, id: Id): (r: Store)
    ensures r.users == st.users - {id}
    ensures forall m :: m in r.members <==> m in st.members && m.user != id
    ensures r.tickets.Keys == st.tickets.Keys && r.comments.Keys == st.comments.Keys
    ensures r.attachments.Keys == st.attachments.Keys && r.settings.Keys == st.settings.Keys
    ensures forall t :: t in r.tickets ==>
      r.tickets[t].customer != Some(id) && r.tickets[t].assignedTo != Some(id)
      && r.tickets[t].(customer := st.tickets[t].customer, assignedTo := st.tickets[t].assignedTo) == st.tickets[t]
    ensures forall c :: c in r.comments ==>
      r.comments[c].author != Some(id) && r.comments[c].(author := st.comments[c].author) == st.comments[c]
    ensures forall a :: a in r.attachments ==>
      r.attachments[a].uploader != Some(id) && r.attachments[a].(uploader := st.attachments[a].uploader) == st.attachments[a]
    ensures forall k :: k in r.settings ==>
      r.settings[k].updatedBy != Some(id) && r.settings[k].(updatedBy := st.settings[k].updatedBy) == st.settings[k]
    ensures r.groups == st.groups && r.lastNumber == st.lastNumber
  {
    st.(
      users := st.users - {id},
      members := (set m | m in st.members && m.user != id),
      tickets := (map t | t in st.tickets ::
        st.tickets[t].(customer := Unlink(st.tickets[t].customer, id),
                       assignedTo := Unlink(st.tickets[t].assignedTo, id))),
      comments := (map c | c in st.comments ::
        st.comments[c].(author := Unlink(st.comments[c].author, id))),
      attachments := (map a | a in st.attachments ::
        st.attachments[a].(uploader := Unlink(st.attachments[a].uploader, id))),
      settings := (map k | k in st.settings ::
        st.settings[k].(updatedBy := Unlink(st.settings[k].updatedBy, id))))
  }

  /** `DELETE FROM groups WHERE id = $1`: memberships cascade, tickets'
      `group_id` is set to NULL. */
  function DeleteGroupRow(st: Store, id: Id): (r: Store)
    ensures r.groups == st.groups - {id}
    ensures forall m :: m in r.members <==> m in st.members && m.group != id
    ensures r.tickets.Keys == st.tickets.Keys
    ensures forall t :: t in r.tickets ==>
      r.tickets[t].group != Some(id) && r.tickets[t].(group := st.tickets[t].group) == st.tickets[t]
    ensures r.(groups := st.groups, members := st.members, tickets := st.tickets) == st
  {
    st.(
      groups := st.groups - {id},
      members := (set m | m in st.members && m.group != id),
      tickets := (map t | t in st.tickets :: st.tickets[t].(group := Unlink(st.tickets[t].group, id))))
  }

  /** `DELETE FROM comments WHERE id = $1`: the comment's attachments cascade. */
  function DeleteCommentRow(st: Store, id: Id): (r: Store)
    ensures r.comments == st.comments - {id}
    ensures forall a :: a in r.attachments <==> a in st.attachments && st.attachments[a].comment != Some(id)
    ensures forall a :: a in r.attachments ==> r.attachments[a] == st.attachments[a]
    ensures r.(comments := st.comments, attachments := st.attachments) == st
  {
    st.(
      comments := st.comments - {id},
      attachments := (map a | a in st.attachments && st.attachments[a].comment != Some(id) :: st.attachments[a]))
  }

  /** A comment goes with its ticket. */
  predicate CommentGoes(st: Store, ticket: Id, c: Id)
    requires c in st.comments
  {
    st.comments[c].ticket == ticket
  }

  /** An attachment goes with its ticket, and with its comment when that goes. */
  predicate AttachmentGoes(st: Store, ticket: Id, a: Id)
    requires a in st.attachments
  {
    var att := st.attachments[a];
    att.ticket == ticket
    || (att.comment.Some? && att.comment.value in st.comments && CommentGoes(st, ticket, att.comment.value))
  }

  /** `DELETE FROM tickets WHERE id = $1`: its comments cascade, and the
      attachments cascade from both the ticket and the deleted comments. */
  function DeleteTicketRow(st: Store, id: Id): (r: Store)
    ensures r.tickets == st.tickets - {id}
    ensures forall c :: c in r.comments <==> c in st.comments && st.comments[c].ticket != id
    ensures forall c :: c in r.comments ==> r.comments[c] == st.comments[c]
    ensures forall a :: a in r.attachments <==> a in st.attachments && !AttachmentGoes(st, id, a)
    ensures forall a :: a in r.attachments ==> r.attachments[a] == st.attachments[a]
    ensures r.(tickets := st.tickets, comments := st.comments, attachments := st.attachments) == st
  {
    st.(
      tickets := st.tickets - {id},
      comments := (map c | c in st.comments && !CommentGoes(st, id, c) :: st.comments[c]),
      attachments := (map a | a in st.attachments && !AttachmentGoes(st, id, a) :: st.attachments[a]))
  }

  // ---------------------------------------------------------------------
  // The deletes keep the constraints
  // ---------------------------------------------------------------------

  lemma DeleteUserKeepsValid(st: Store, id: Id)
    requires Valid(st)
    ensures Valid(DeleteUserRow(st, id))
  {
    DeleteUserKeepsTicketRefs(st, id);
    DeleteUserKeepsOtherRefs(st, id);
    var r := DeleteUserRow(st, id);
    assert NumbersFromSequence(r.tickets, r.lastNumber) by {
      forall t | t in r.tickets ensures r.tickets[t].number == st.tickets[t].number {
      }
    }
  }

  lemma DeleteUserKeepsTicketRefs(st: Store, id: Id)
    requires Valid(st)
    ensures TicketsRef(DeleteUserRow(st, id))
  {
    var r := DeleteUserRow(st, id);
    forall t | t in r.tickets
      ensures RefersToUser(r, r.tickets[t].customer) && RefersToUser(r, r.tickets[t].assignedTo)
      ensures r.tickets[t].group.Some? ==> r.tickets[t].group.value in r.groups
    {
      assert RefersToUser(st, st.tickets[t].customer) && RefersToUser(st, st.tickets[t].assignedTo);
    }
  }

  lemma DeleteUserKeepsOtherRefs(st: Store, id: Id)
    requires Valid(st)
    ensures MembersRef(DeleteUserRow(st, id)) && CommentsRef(DeleteUserRow(st, id))
    ensures AttachmentsRef(DeleteUserRow(st, id)) && SettingsRef(DeleteUserRow(st, id))
  {
    DeleteUserKeepsCommentRefs(st, id);
    DeleteUserKeepsAttachmentRefs(st, id);
    var r := DeleteUserRow(st, id);
    forall k | k in r.settings ensures RefersToUser(r, r.settings[k].updatedBy) {
      assert RefersToUser(st, st.settings[k].updatedBy);
    }
  }

  lemma DeleteUserKeepsCommentRefs(st: Store, id: Id)
    requires Valid(st)
    ensures CommentsRef(DeleteUserRow(st, id))
  {
    var r := DeleteUserRow(st, id);
    forall c | c in r.comments ensures r.comments[c].ticket in r.tickets && RefersToUser(r, r.comments[c].author) {
      assert RefersToUser(st, st.comments[c].author);
    }
  }

  lemma DeleteUserKeepsAttachmentRefs(st: Store, id: Id)
    requires Valid(st)
    ensures AttachmentsRef(DeleteUserRow(st, id))
  {
    var r := DeleteUserRow(st, id);
    forall a | a in r.attachments
      ensures r.attachments[a].ticket in r.tickets && RefersToUser(r, r.attachments[a].uploader)
      ensures r.attachments[a].comment.Some? ==>
        r.attachments[a].comment.value in r.comments
        && r.comments[r.attachments[a].comment.value].ticket == r.attachments[a].ticket
    {
      assert RefersToUser(st, st.attachments[a].uploader);
      var c := r.attachments[a].comment;
      if c.Some? {
        assert r.comments[c.value].ticket == st.comments[c.value].ticket;
      }
    }
  }

  lemma DeleteGroupKeepsValid(st: Store, id: Id)
    requires Valid(st)
    ensures Valid(DeleteGroupRow(st, id))
  {
  }

  lemma DeleteCommentKeepsValid(st: Store, id: Id)
    requires Valid(st)
    ensures Valid(DeleteCommentRow(st, id))
  {
  }

  lemma DeleteTicketKeepsValid(st: Store, id: Id)
    requires Valid(st)
    ensures Valid(DeleteTicketRow(st, id))
  {
    var r := DeleteTicketRow(st, id);
    assert CommentsRef(r) by {
      forall c | c in r.comments ensures r.comments[c].ticket in r.tickets {
        assert !CommentGoes(st, id, c);
      }
    }
    assert AttachmentsRef(r) by {
      forall a | a in r.attachments
        ensures r.attachments[a].ticket in r.tickets
        ensures r.attachments[a].comment.Some? ==>
          r.attachments[a].comment.value in r.comments
          && r.comments[r.attachments[a].comment.value].ticket == r.attachments[a].ticket
      {
        assert !AttachmentGoes(st, id, a);
      }
    }
  }

  /** After a ticket is deleted nothing refers to it any more. */
  lemma DeleteTicketLeavesNoOrphans(st: Store, id: Id)
    requires Valid(st)
    ensures forall c :: c in DeleteTicketRow(st, id).comments ==> DeleteTicketRow(st, id).comments[c].ticket != id
    ensures forall a :: a in DeleteTicketRow(st, id).attachments ==> DeleteTicketRow(st, id).attachments[a].ticket != id
  {
  }

  // ---------------------------------------------------------------------
  // Single-row writes that keep the constraints
  // ---------------------------------------------------------------------

  /** Row `u` stored under `id` clashes with no other account. */
  predicate AccountFits(users: map<Id, User>, id: Id, u: User) {
    forall v :: v in users && v != id ==> users[v].username != u.username && users[v].email != u.email
  }

  /** An INSERT or UPDATE of one user row that passes the UNIQUE checks. */
  lemma PutUserKeepsValid(st: Store, id: Id, u: User)
    requires Valid(st) && AccountFits(st.users, id, u)
    ensures Valid(st.(users := st.users[id := u]))
  {
    var r := st.(users := st.users[id := u]);
    assert UniqueAccounts(r.users) by {
      forall a, b | a in r.users && b in r.users && a != b
        ensures r.users[a].username != r.users[b].username && r.users[a].email != r.users[b].email
      {
        if a == id { assert r.users[b] == st.users[b]; }
        else if b == id { assert r.users[a] == st.users[a]; }
      }
    }
  }

  /** An upsert whose `updated_by` names an existing user. */
  lemma UpsertKeepsValid(st: Store, key: string, row: Setting, mode: OnConflict)
    requires Valid(st) && RefersToUser(st, row.updatedBy)
    ensures Valid(st.(settings := Upsert(st.settings, key, row, mode)))
  {
  }

  lemma DropSettingKeepsValid(st: Store, key: string)
    requires Valid(st)
    ensures Valid(st.(settings := st.settings - {key}))
  {
  }
}

=== FILE: seqs.dfy ===
/** Order-preserving filtering of sequences, as `Array.prototype.filter`
    does it, and the facts the page helpers need about it. */
module Seqs {

  /** The elements of `xs` that satisfy `p`, in their original order. */
  function Keep<T(!new)>(xs: seq<T>, p: T -> bool): (r: seq<T>)
    ensures |r| <= |xs|
    ensures forall x :: x in r <==> x in xs && p(x)
  {
    if xs == [] then [] else (if p(xs[0]) then [xs[0]] else []) + Keep(xs[1..], p)
  }

  /** `a` is `b` with some elements dropped, the rest kept in order. */
  predicate Subsequence<T(==)>(a: seq<T>, b: seq<T>)
    decreases |b|
  {
    a == [] || (b != [] && ((a[0] == b[0] && Subsequence(a[1..], b[1..])) || Subsequence(a, b[1..])))
  }

  /** The filtered list is the input with elements dropped, never reordered. */
  lemma {:induction false} KeepIsSubsequence<T(!new)>(xs: seq<T>, p: T -> bool)
    ensures Subsequence(Keep(xs, p), xs)
  {
    if xs != [] {
      KeepIsSubsequence(xs[1..], p);
      KeepHead(xs, p);
      var k := Keep(xs, p);
      if p(xs[0]) {
        assert k[0] == xs[0] && k[1..] == Keep(xs[1..], p);
        assert Subsequence(k[1..], xs[1..]);
      } else {
        assert k == Keep(xs[1..], p);
      }
    }
  }

  /** Filtering by two predicates in either order keeps the same elements. */
  lemma {:induction false} KeepCommutes<T(!new)>(xs: seq<T>, p: T -> bool, q: T -> bool)
    ensures Keep(Keep(xs, p), q) == Keep(Keep(xs, q), p)
  {
    if xs != [] {
      KeepCommutes(xs[1..], p, q);
      KeepHead(xs, p);
      KeepHead(xs, q);
      KeepHead(xs, p);
      var x := xs[0];
      var hp := if p(x) then [x] else [];
      var hq := if q(x) then [x] else [];
      KeepAppend(hp, Keep(xs[1..], p), q);
      KeepAppend(hq, Keep(xs[1..], q), p);
    }
  }

  lemma KeepHead<T(!new)>(xs: seq<T>, p: T -> bool)
    requires xs != []
    ensures Keep(xs, p) == (if p(xs[0]) then [xs[0]] else []) + Keep(xs[1..], p)
  {
  }

  /** Filtering distributes over concatenation. */
  lemma {:induction false} KeepAppend<T(!new)>(a: seq<T>, b: seq<T>, p: T -> bool)
    ensures Keep(a + b, p) == Keep(a, p) + Keep(b, p)
  {
    if a != [] {
      KeepAppend(a[1..], b, p);
      assert (a + b)[1..] == a[1..] + b;
    } else {
      assert a + b == b;
    }
  }

  /** Filtering by a predicate every element satisfies changes nothing. */
  lemma {:induction false} KeepAll<T(!new)>(xs: seq<T>, p: T -> bool)
    requires forall i :: 0 <= i < |xs| ==> p(xs[i])
    ensures Keep(xs, p) == xs
  {
    if xs != [] {
      KeepAll(xs[1..], p);
    }
  }

  /** Filtering by a predicate no element satisfies leaves nothing. */
  lemma {:induction false} KeepNone<T(!new)>(xs: seq<T>, p: T -> bool)
    requires forall i :: 0 <= i < |xs| ==> !p(xs[i])
    ensures Keep(xs, p) == []
  {
    if xs != [] {
      KeepNone(xs[1..], p);
    }
  }

  /** Two predicates that agree on every element filter alike. */
  lemma {:induction false} KeepSame<T(!new)>(xs: seq<T>, p: T -> bool, q: T -> bool)
    requires forall i :: 0 <= i < |xs| ==> p(xs[i]) == q(xs[i])
    ensures Keep(xs, p) == Keep(xs, q)
  {
    if xs != [] {
      KeepSame(xs[1..], p, q);
    }
  }

  /** A filter applied only when `on` holds keeps what `on ==> p` keeps. */
  lemma KeepWhen<T(!new)>(xs: seq<T>, on: bool, p: T -> bool, guarded: T -> bool)
    requires forall x :: guarded(x) == (on ==> p(x))
    ensures (if on then Keep(xs, p) else xs) == Keep(xs, guarded)
  {
    if on {
      KeepSame(xs, p, guarded);
    } else {
      KeepAll(xs, guarded);
    }
  }

  /** Three filters, each applied only when its switch is on, keep what
      the conjunction of the guarded conditions keeps. */
  lemma GuardedFilters<T(!new)>(xs: seq<T>, a: bool, p: T -> bool, b: bool, q: T -> bool, c: bool, r: T -> bool,
                                 all: T -> bool)
    requires forall x :: all(x) == ((a ==> p(x)) && (b ==> q(x)) && (c ==> r(x)))
    ensures var s1 := if a then Keep(xs, p) else xs;
      var s2 := if b then Keep(s1, q) else s1;
      (if c then Keep(s2, r) else s2) == Keep(xs, all)
  {
    var gp := (x: T) => a ==> p(x);
    var gq := (x: T) => b ==> q(x);
    var gr := (x: T) => c ==> r(x);
    var pq := (x: T) => gp(x) && gq(x);
    var s1 := if a then Keep(xs, p) else xs;
    KeepWhen(xs, a, p, gp);
    var s2 := if b then Keep(s1, q) else s1;
    KeepWhen(s1, b, q, gq);
    KeepKeep(xs, gp, gq, pq);
    KeepWhen(s2, c, r, gr);
    KeepKeep(xs, pq, gr, all);
  }

  /** Filtering twice is filtering once by the conjunction. */
  lemma {:induction false} KeepKeep<T(!new)>(xs: seq<T>, p: T -> bool, q: T -> bool, both: T -> bool)
    requires forall x :: both(x) == (p(x) && q(x))
    ensures Keep(Keep(xs, p), q) == Keep(xs, both)
  {
    if xs != [] {
      KeepKeep(xs[1..], p, q, both);
      KeepHead(xs, p);
      KeepHead(xs, both);
      var hp := if p(xs[0]) then [xs[0]] else [];
      KeepAppend(hp, Keep(xs[1..], p), q);
    }
  }
}

=== FILE: settings.dfy ===
/** The settings routes (`routes/settings.js`): admin-only reads and writes
    of the key/value table, and the database reset that clears all tickets
    and restores the default settings. */
module Settings {

  import opened Common
  import opened Schema

  // ---------------------------------------------------------------------
  // GET / and GET /:key
  // ---------------------------------------------------------------------

  /** What the listing shows of one row (`updatedAt` is not modelled). */
  datatype SettingView = SettingView(value: Option<string>, description: Option<string>)

  function ListSettings(st: Store, actor: Actor): (r: Outcome<map<string, SettingView>>)
    ensures r.Success() <==> actor.role == Admin
    ensures !r.Success() ==> r == Err(Forbidden403, Insufficient)
    ensures r.Success() ==> r.value.Keys == st.settings.Keys
    ensures r.Success() ==> forall k :: k in r.value ==>
      r.value[k].value == st.settings[k].value && r.value[k].description == st.settings[k].description
  {
    match AdminOnly(actor.role == Admin)
    case Some(e) => e
    case None =>
      Ok(Ok200, map k | k in st.settings :: SettingView(st.settings[k].value, st.settings[k].description))
  }

  function GetSetting(st: Store, actor: Actor, key: string): (r: Outcome<Setting>)
    ensures actor.role != Admin ==> r == Err(Forbidden403, Insufficient)
    ensures actor.role == Admin && key !in st.settings ==> r == Err(NotFound404, "Setting not found")
    ensures r.Success() <==> actor.role == Admin && key in st.settings
    ensures r.Success() ==> r.value == st.settings[key]
  {
    match AdminOnly(actor.role == Admin)
    case Some(e) => e
    case None =>
      if key in st.settings then Ok(Ok200, st.settings[key]) else Err(NotFound404, "Setting not found")
  }

  // ---------------------------------------------------------------------
  // PUT /:key
  // ---------------------------------------------------------------------

  /** An UPDATE of the supplied columns, stamping the author; when no row
      has the key, an INSERT of the whole row (absent members as NULL). */
  function PutSetting(st: Store, actor: Actor, key: string, value: Field<string>, description: Field<string>): (s: Step<Setting>)
    ensures s.notices == []
    ensures !s.out.Success() ==> s.st == st
    ensures actor.role != Admin ==> s.out == Err(Forbidden403, Insufficient)
    ensures actor.role == Admin && !Defined(value) && !Defined(description) ==>
      s.out == Err(BadRequest400, "No updates provided")
    ensures s.out.Success() <==> actor.role == Admin && (Defined(value) || Defined(description)) && actor.id in st.users
    ensures s.out.Success() ==> s.out.code == (if key in st.settings then Ok200 else Created201)
    ensures s.out.Success() ==> s.st == st.(settings := st.settings[key := s.out.value])
    ensures s.out.Success() ==> s.out.value.updatedBy == Some(actor.id)
    ensures s.out.Success() ==>
      s.out.value.value == (if Defined(value) then Nullable(value) else if key in st.settings then st.settings[key].value else None)
    ensures s.out.Success() ==>
      s.out.value.description ==
        (if Defined(description) then Nullable(description) else if key in st.settings then st.settings[key].description else None)
  {
    match AdminOnly(actor.role == Admin)
    case Some(e) => Answer(st, e)
    case None =>
      if !Defined(value) && !Defined(description) then Answer(st, Err(BadRequest400, "No updates provided"))
      else if actor.id !in st.users then Answer(st, Err(ServerError500, "Failed to update setting"))
      else if key in st.settings then
        var cur := st.settings[key];
        var row := Setting(if Defined(value) then Nullable(value) else cur.value,
                           if Defined(description) then Nullable(description) else cur.description,
                           Some(actor.id));
        Answer(st.(settings := st.settings[key := row]), Ok(Ok200, row))
      else
        var row := Setting(Stored(value), Stored(description), Some(actor.id));
        Answer(st.(settings := st.settings[key := row]), Ok(Created201, row))
  }

  /** Reading a key back returns what was written, and no other key moves. */
  lemma PutThenGet(st: Store, actor: Actor, key: string, value: Field<string>, k: string)
    requires actor.role == Admin && actor.id in st.users && Defined(value)
    ensures var s := PutSetting(st, actor, key, value, Undefined);
      GetSetting(s.st, actor, key) == Ok(Ok200, Setting(Nullable(value), if key in st.settings then st.settings[key].description else None, Some(actor.id)))
      && (k != key ==> GetSetting(s.st, actor, k) == GetSetting(st, actor, k))
  {
  }

  /** The list shows a written key with the row the write returned, and
      every other key as it was. */
  lemma PutThenList(st: Store, actor: Actor, key: string, value: Field<string>, description: Field<string>)
    requires PutSetting(st, actor, key, value, description).out.Success()
    ensures var s := PutSetting(st, actor, key, value, description);
      var l := ListSettings(s.st, actor);
      l.Success() && l.value.Keys == st.settings.Keys + {key}
      && l.value[key] == SettingView(s.out.value.value, s.out.value.description)
      && forall k :: k in st.settings && k != key ==> l.value[k] == SettingView(st.settings[k].value, st.settings[k].description)
  {
  }

  /** Repeating a write changes nothing more. */
  lemma PutSettingIdempotent(st: Store, actor: Actor, key: string, value: Field<string>, description: Field<string>)
    ensures var s1 := PutSetting(st, actor, key, value, description);
      var s2 := PutSetting(s1.st, actor, key, value, description);
      s2.st == s1.st && (s1.out.Success() <==> s2.out.Success())
  {
  }

  lemma PutSettingKeepsValid(st: Store, actor: Actor, key: string, value: Field<string>, description: Field<string>)
    requires Valid(st)
    ensures Valid(PutSetting(st, actor, key, value, description).st)
  {
  }

  // ---------------------------------------------------------------------
  // DELETE /:key
  // ---------------------------------------------------------------------

  function DeleteSetting(st: Store, actor: Actor, key: string): (s: Step<string>)
    ensures s.notices == []
    ensures actor.role != Admin ==> s == Answer(st, Err(Forbidden403, Insufficient))
    ensures actor.role == Admin && key !in st.settings ==> s == Answer(st, Err(NotFound404, "Setting not found"))
    ensures s.out.Success() <==> actor.role == Admin && key in st.settings
    ensures s.out.Success() ==>
      s.st == st.(settings := st.settings - {key}) && s.out.value == "Setting deleted successfully"
  {
    match AdminOnly(actor.role == Admin)
    case Some(e) => Answer(st, e)
    case None =>
      if key !in st.settings then Answer(st, Err(NotFound404, "Setting not found"))
      else Answer(st.(settings := st.settings - {key}), Ok(Ok200, "Setting deleted successfully"))
  }

  /** Creating a key and deleting it again leaves the table as it was. */
  lemma DeleteUndoesCreate(st: Store, actor: Actor, key: string, value: Field<string>)
    requires actor.role == Admin && actor.id in st.users && key !in st.settings && Defined(value)
    ensures DeleteSetting(PutSetting(st, actor, key, value, Undefined).st, actor, key).st == st
  {
    var s := PutSetting(st, actor, key, value, Undefined);
    assert s.st.settings - {key} == st.settings;
  }

  // ---------------------------------------------------------------------
  // POST /reset-database
  // ---------------------------------------------------------------------

  /** The keys the reset leaves alone. */
  const Preserved: set<string> := {"registration_enabled", "allowed_email_domains"}

  /** A default setting: key, value, description. */
  datatype Default = Default(key: string, value: string, description: string)

  /** The rows the reset writes back, in the order it writes them. */
  const Defaults: seq<Default> := [
    Default("site_name", "TicketForge Help Desk", "Name of the help desk system"),
    Default("tickets_per_page", "25", "Number of tickets to display per page"),
    Default("max_attachment_size", "26214400", "Maximum attachment size in bytes (25MB)"),
    Default("theme_mode", "light", "Theme mode (light or dark)"),
    Default("primary_color", "#1976d2", "Primary color for the theme"),
    Default("company_name", "TicketForge", "Company name displayed in the application")
  ]

  /** `DELETE FROM settings WHERE key NOT IN (...)`. */
  function KeepPreserved(settings: map<string, Setting>): (r: map<string, Setting>)
    ensures forall k :: k in r <==> k in settings && k in Preserved
    ensures forall k :: k in r ==> r[k] == settings[k]
  {
    map k | k in settings && k in Preserved :: settings[k]
  }

  /** The loop of upserts, `ON CONFLICT (key) DO UPDATE SET value,
      description`. */
  function WriteDefaults(settings: map<string, Setting>, ds: seq<Default>, author: Id): map<string, Setting>
    decreases |ds|
  {
    if ds == [] then settings
    else WriteDefaults(Upsert(settings, ds[0].key, Setting(Some(ds[0].value), Some(ds[0].description), Some(author)), ValueAndDescription),
                       ds[1..], author)
  }

  predicate DistinctKeys(ds: seq<Default>) {
    forall i, j :: 0 <= i < j < |ds| ==> ds[i].key != ds[j].key
  }

  /** Upserting fresh, distinct keys inserts exactly the default rows and
      leaves the other rows alone. */
  lemma {:induction false} WriteFreshDefaults(settings: map<string, Setting>, ds: seq<Default>, author: Id)
    requires DistinctKeys(ds)
    requires forall i :: 0 <= i < |ds| ==> ds[i].key !in settings
    ensures var r := WriteDefaults(settings, ds, author);
      (forall k :: k in r <==> k in settings || exists i :: 0 <= i < |ds| && ds[i].key == k)
      && (forall k :: k in settings ==> k in r && r[k] == settings[k])
      && (forall i :: 0 <= i < |ds| ==> ds[i].key in r && r[ds[i].key] == Setting(Some(ds[i].value), Some(ds[i].description), Some(author)))
    decreases |ds|
  {
    if ds != [] {
      var d := ds[0];
      var s1 := Upsert(settings, d.key, Setting(Some(d.value), Some(d.description), Some(author)), ValueAndDescription);
      var rest := ds[1..];
      assert forall i :: 0 <= i < |rest| ==> rest[i] == ds[i + 1];
      assert forall i :: 0 <= i < |rest| ==> rest[i].key !in s1 by {
        forall i | 0 <= i < |rest| ensures rest[i].key !in s1 {
          assert rest[i].key != d.key && rest[i].key !in settings;
        }
      }
      WriteFreshDefaults(s1, rest, author);
      var r := WriteDefaults(settings, ds, author);
      assert r == WriteDefaults(s1, rest, author);
      forall k ensures k in r <==> k in settings || exists i :: 0 <= i < |ds| && ds[i].key == k {
        if exists i :: 0 <= i < |ds| && ds[i].key == k {
          var i :| 0 <= i < |ds| && ds[i].key == k;
          if i > 0 { assert rest[i - 1].key == k; }
        }
        if exists i :: 0 <= i < |rest| && rest[i].key == k {
          var i :| 0 <= i < |rest| && rest[i].key == k;
          assert ds[i + 1].key == k;
        }
      }
      forall i | 0 <= i < |ds|
        ensures ds[i].key in r && r[ds[i].key] == Setting(Some(ds[i].value), Some(ds[i].description), Some(author))
      {
        if i > 0 { assert ds[i] == rest[i - 1]; }
      }
    }
  }

  /** The reset runs in one transaction; a caller whose row is gone fails
      the `updated_by` foreign key and rolls everything back. */
  function ResetDatabase(st: Store, actor: Actor): (s: Step<string>)
    ensures s.notices == []
    ensures actor.role != Admin ==> s == Answer(st, Err(Forbidden403, Insufficient))
    ensures actor.role == Admin && actor.id !in st.users ==> s == Answer(st, Err(ServerError500, "Failed to reset database"))
    ensures s.out.Success() <==> actor.role == Admin && actor.id in st.users
    ensures s.out.Success() ==>
      s.out.value == "Database reset successfully. All tickets deleted and settings restored to defaults."
      && s.st.users == st.users && s.st.groups == st.groups && s.st.members == st.members
      && s.st.tickets == map[] && s.st.comments == map[] && s.st.attachments == map[]
      && s.st.lastNumber == 0
  {
    match AdminOnly(actor.role == Admin)
    case Some(e) => Answer(st, e)
    case None =>
      if actor.id !in st.users then Answer(st, Err(ServerError500, "Failed to reset database"))
      else
        var cleared := st.(tickets := map[], comments := map[], attachments := map[], lastNumber := 0);
        Answer(cleared.(settings := WriteDefaults(KeepPreserved(st.settings), Defaults, actor.id)),
               Ok(Ok200, "Database reset successfully. All tickets deleted and settings restored to defaults."))
  }

  lemma DefaultKeysDistinct()
    ensures DistinctKeys(Defaults)
    ensures forall i :: 0 <= i < |Defaults| ==> Defaults[i].key !in Preserved
  {
  }

  /** After a reset the table holds exactly the two preserved rows that
      existed, untouched, and the six defaults, written by the caller. */
  lemma ResetRestoresDefaults(st: Store, actor: Actor)
    requires actor.role == Admin && actor.id in st.users
    ensures var r := ResetDatabase(st, actor).st.settings;
      (forall k :: k in r <==> (k in st.settings && k in Preserved) || exists i :: 0 <= i < |Defaults| && Defaults[i].key == k)
      && (forall k :: k in Preserved && k in st.settings ==> k in r && r[k] == st.settings[k])
      && (forall i :: 0 <= i < |Defaults| ==>
            Defaults[i].key in r
            && r[Defaults[i].key] == Setting(Some(Defaults[i].value), Some(Defaults[i].description), Some(actor.id)))
  {
    DefaultKeysDistinct();
    WriteFreshDefaults(KeepPreserved(st.settings), Defaults, actor.id);
  }

  lemma ResetKeepsValid(st: Store, actor: Actor)
    requires Valid(st)
    ensures Valid(ResetDatabase(st, actor).st)
  {
    var s := ResetDatabase(st, actor);
    if s.out.Success() {
      ResetRestoresDefaults(st, actor);
      var r := s.st.settings;
      forall k | k in r ensures RefersToUser(s.st, r[k].updatedBy) {
        if !(k in st.settings && k in Preserved) {
          var i :| 0 <= i < |Defaults| && Defaults[i].key == k;
        }
      }
    }
  }
}

=== FILE: text.dfy ===
/** String helpers standing in for the JavaScript built-ins the routes use:
    regex character classes, `toLowerCase`, `trim`, `includes`, `endsWith`,
    `split`, `length` and number formatting. Character classes and case
    folding are ASCII-based; see README for what that leaves out. Lengths
    count UTF-16 code units, as JavaScript does. */
module Text {

  import opened Common

  predicate IsUpper(c: char) { 'A' <= c <= 'Z' }
  predicate IsLower(c: char) { 'a' <= c <= 'z' }
  predicate IsDigit(c: char) { '0' <= c <= '9' }

  /** The members of the password policy's symbol class
      `[!@#$%^&*()_+\-=\[\]{};':"\\|,.<>\/?]`. */
  const Symbols: string := "!@#$%^&*()_+-=[]{};':\"\\|,.<>/?"

  predicate IsSymbol(c: char) { c in Symbols }

  /** Number of characters of `s` in a class: `(s.match(/[..]/g) || []).length`. */
  function Count(s: string, p: char -> bool): (n: nat)
    ensures n <= |s|
    ensures n > 0 <==> exists i :: 0 <= i < |s| && p(s[i])
  {
    if s == [] then 0
    else
      var rest := Count(s[1..], p);
      assert forall i :: 0 <= i < |s| - 1 ==> s[1..][i] == s[i + 1];
      (if p(s[0]) then 1 else 0) + rest
  }

  /** A character outside the Basic Multilingual Plane, which JavaScript
      stores as a surrogate pair of two code units. */
  predicate IsAstral(c: char) {
    c as int >= 0x1_0000
  }

  /** `s.length`: code units, not characters. */
  function Utf16Length(s: string): (n: nat)
    ensures |s| <= n <= 2 * |s|
    ensures n == |s| <==> forall i :: 0 <= i < |s| ==> !IsAstral(s[i])
  {
    |s| + Count(s, IsAstral)
  }

  /** Two emoji are two characters and four code units. */
  lemma TwoEmojiAreFourUnits()
    ensures |"\U{1F600}\U{1F600}"| == 2 && Utf16Length("\U{1F600}\U{1F600}") == 4
  {
    var s := "\U{1F600}\U{1F600}";
    assert IsAstral(s[0]) && s[1..] == "\U{1F600}" && s[1..][1..] == [];
  }

  /** ASCII `toLowerCase`. */
  function LowerChar(c: char): char {
    if IsUpper(c) then (c as int + 32) as char else c
  }

  function Lower(s: string): (r: string)
    ensures |r| == |s|
    ensures forall i :: 0 <= i < |s| ==> r[i] == LowerChar(s[i])
  {
    seq(|s|, i requires 0 <= i < |s| => LowerChar(s[i]))
  }

  /** The white space `trim` removes and `\s` matches: tab, vertical tab,
      form feed, the byte-order mark, the line terminators (line feed,
      carriage return, U+2028, U+2029) and every Unicode space separator. */
  predicate IsSpace(c: char) {
    c == '\t' || c == '\n' || c == '\U{000B}' || c == '\U{000C}' || c == '\r'
    || c == '\U{FEFF}' || c == '\U{2028}' || c == '\U{2029}'
    || IsSpaceSeparator(c)
  }

  /** The characters of Unicode category Zs. */
  predicate IsSpaceSeparator(c: char) {
    c == ' ' || c == '\U{00A0}' || c == '\U{1680}' || '\U{2000}' <= c <= '\U{200A}'
    || c == '\U{202F}' || c == '\U{205F}' || c == '\U{3000}'
  }

  predicate AllSpace(s: string) {
    forall i :: 0 <= i < |s| ==> IsSpace(s[i])
  }

  function TrimStart(s: string): (r: string)
    ensures exists k :: 0 <= k <= |s| && r == s[k..] && AllSpace(s[..k])
    ensures r != [] ==> !IsSpace(r[0])
    decreases |s|
  {
    if s != [] && IsSpace(s[0]) then
      var r := TrimStart(s[1..]);
      var k :| 0 <= k <= |s[1..]| && r == s[1..][k..] && AllSpace(s[1..][..k]);
      assert r == s[k + 1..];
      assert AllSpace(s[..k + 1]) by {
        forall i | 0 <= i < k + 1 ensures IsSpace(s[i]) {
          if i > 0 { assert s[i] == s[1..][..k][i - 1]; }
        }
      }
      r
    else
      assert s == s[0..];
      s
  }

  function TrimEnd(s: string): (r: string)
    ensures exists k :: 0 <= k <= |s| && r == s[..k] && AllSpace(s[k..])
    ensures r != [] ==> !IsSpace(r[|r| - 1])
    decreases |s|
  {
    if s != [] && IsSpace(s[|s| - 1]) then
      var r := TrimEnd(s[..|s| - 1]);
      var k :| 0 <= k <= |s| - 1 && r == s[..|s| - 1][..k] && AllSpace(s[..|s| - 1][k..]);
      assert r == s[..k];
      assert AllSpace(s[k..]) by {
        forall i | 0 <= i < |s| - k ensures IsSpace(s[k..][i]) {
          if i < |s| - 1 - k { assert s[k..][i] == s[..|s| - 1][k..][i]; }
        }
      }
      r
    else
      assert s == s[..|s|];
      s
  }

  /** `String.prototype.trim`. */
  function Trim(s: string): string {
    TrimEnd(TrimStart(s))
  }

  lemma {:induction false} TrimStartAllSpace(s: string)
    requires AllSpace(s)
    ensures TrimStart(s) == []
    decreases |s|
  {
    if s != [] {
      assert IsSpace(s[0]);
      assert AllSpace(s[1..]) by {
        forall i | 0 <= i < |s| - 1 ensures IsSpace(s[1..][i]) { assert s[1..][i] == s[i + 1]; }
      }
      TrimStartAllSpace(s[1..]);
    }
  }

  /** A string with no white space at either end trims to itself. */
  lemma TrimUnchanged(s: string)
    requires s != [] ==> !IsSpace(s[0]) && !IsSpace(s[|s| - 1])
    ensures Trim(s) == s
  {
    assert TrimStart(s) == s;
  }

  /** A string trims to nothing exactly when it is all white space. */
  lemma TrimEmptyIffAllSpace(s: string)
    ensures Trim(s) == [] <==> AllSpace(s)
  {
    var t := TrimStart(s);
    var k :| 0 <= k <= |s| && t == s[k..] && AllSpace(s[..k]);
    if AllSpace(s) {
      TrimStartAllSpace(s);
    }
    if Trim(s) == [] {
      var j :| 0 <= j <= |t| && Trim(s) == t[..j] && AllSpace(t[j..]);
      assert j == 0 && t[j..] == t;
      assert t == [];
      assert s[..k] == s;
    }
  }

  /** `sub` occurs in `s` starting at position `i`. */
  predicate OccursAt(s: string, sub: string, i: int) {
    0 <= i && i + |sub| <= |s| && s[i..i + |sub|] == sub
  }

  /** `s.includes(sub)`. */
  function Contains(s: string, sub: string): (r: bool)
    ensures r <==> exists i :: OccursAt(s, sub, i)
    decreases |s|
  {
    if |sub| > |s| then false
    else if s[..|sub|] == sub then assert OccursAt(s, sub, 0); true
    else
      var r := Contains(s[1..], sub);
      assert r ==> exists i :: OccursAt(s, sub, i) by {
        if r {
          var i :| OccursAt(s[1..], sub, i);
          assert s[1..][i..i + |sub|] == s[i + 1..i + 1 + |sub|];
          assert OccursAt(s, sub, i + 1);
        }
      }
      assert (exists i :: OccursAt(s, sub, i)) ==> r by {
        if exists i :: OccursAt(s, sub, i) {
          var i :| OccursAt(s, sub, i);
          assert i != 0;
          assert s[1..][i - 1..i - 1 + |sub|] == s[i..i + |sub|];
          assert OccursAt(s[1..], sub, i - 1);
        }
      }
      r
  }

  /** `s.endsWith(suffix)`. */
  predicate EndsWith(s: string, suffix: string) {
    |suffix| <= |s| && s[|s| - |suffix|..] == suffix
  }

  /** `s.split(sep)` for a one-character separator: the pieces between
      separators, one more piece than there are separators. */
  function Split(s: string, sep: char): (pieces: seq<string>)
    ensures |pieces| >= 1
    ensures |pieces| == 1 <==> sep !in s
    ensures forall i :: 0 <= i < |pieces| ==> sep !in pieces[i]
    decreases |s|
  {
    if sep !in s then [s]
    else
      var k := IndexOf(s, sep);
      [s[..k]] + Split(s[k + 1..], sep)
  }

  /** Splitting stops at the first separator. */
  lemma SplitAtFirst(a: string, sep: char, b: string)
    requires sep !in a
    ensures Split(a + [sep] + b, sep) == [a] + Split(b, sep)
  {
    var s := a + [sep] + b;
    assert s[|a|] == sep;
    var k := IndexOf(s, sep);
    assert s[..|a|] == a;
    assert k == |a| by {
      assert forall i :: 0 <= i < |a| ==> s[i] == a[i];
    }
    assert s[k + 1..] == b;
  }

  /** The first position of `c` in `s`. */
  function IndexOf(s: string, c: char): (k: nat)
    requires c in s
    ensures k < |s| && s[k] == c && c !in s[..k]
  {
    if s[0] == c then 0 else 1 + IndexOf(s[1..], c)
  }

  /** `pieces.join(sep)`. */
  function Join(pieces: seq<string>, sep: char): string
    requires |pieces| >= 1
  {
    if |pieces| == 1 then pieces[0] else pieces[0] + [sep] + Join(pieces[1..], sep)
  }

  /** `pieces.join(sep)` for any separator, the empty list giving "". */
  function JoinWith(pieces: seq<string>, sep: string): (r: string)
    ensures pieces == [] ==> r == []
    ensures |pieces| == 1 ==> r == pieces[0]
  {
    if pieces == [] then []
    else if |pieces| == 1 then pieces[0]
    else pieces[0] + sep + JoinWith(pieces[1..], sep)
  }

  /** Splitting and re-joining on the same separator gives the input back. */
  lemma {:induction false} SplitJoin(s: string, sep: char)
    ensures Join(Split(s, sep), sep) == s
    decreases |s|
  {
    if sep in s {
      var k := IndexOf(s, sep);
      var a, b := s[..k], s[k + 1..];
      assert s == a + [sep] + b;
      SplitAtFirst(a, sep, b);
      SplitJoin(b, sep);
      JoinFirst(a, Split(b, sep), sep);
    }
  }

  lemma JoinFirst(a: string, rest: seq<string>, sep: char)
    requires |rest| >= 1
    ensures Join([a] + rest, sep) == a + [sep] + Join(rest, sep)
  {
    assert ([a] + rest)[1..] == rest;
  }

  /** Decimal digits of a natural number (`n.toString()`). */
  function Decimal(n: nat): (r: string)
    ensures r != [] && forall i :: 0 <= i < |r| ==> IsDigit(r[i])
  {
    if n < 10 then [DigitChar(n)] else Decimal(n / 10) + [DigitChar(n % 10)]
  }

  function DigitChar(d: nat): (c: char)
    requires d < 10
    ensures IsDigit(c)
  {
    ('0' as int + d) as char
  }

  /** Value of an all-digit string. */
  function DigitsValue(s: string): nat
    requires forall i :: 0 <= i < |s| ==> IsDigit(s[i])
  {
    if s == [] then 0
    else
      assert IsDigit(s[|s| - 1]);
      10 * DigitsValue(s[..|s| - 1]) + (s[|s| - 1] as int - '0' as int)
  }

  /** Reading a decimal number back: `None` unless the text is a non-empty run
      of digits. */
  function ParseDecimal(s: string): (r: Option<nat>)
    ensures r.Some? <==> s != [] && forall i :: 0 <= i < |s| ==> IsDigit(s[i])
  {
    if s != [] && forall i :: 0 <= i < |s| ==> IsDigit(s[i]) then Some(DigitsValue(s)) else None
  }

  /** Reading a formatted number gives the number back. */
  lemma {:induction false} DecimalRoundTrip(n: nat)
    ensures ParseDecimal(Decimal(n)) == Some(n)
  {
    if n >= 10 {
      DecimalRoundTrip(n / 10);
      var d := Decimal(n);
      assert d[..|d| - 1] == Decimal(n / 10);
      assert d[|d| - 1] == DigitChar(n % 10);
      assert DigitsValue(d) == 10 * DigitsValue(Decimal(n / 10)) + n % 10;
    }
  }

  /** Different numbers are formatted differently. */
  lemma DecimalInjective(m: nat, n: nat)
    ensures Decimal(m) == Decimal(n) ==> m == n
  {
    DecimalRoundTrip(m);
    DecimalRoundTrip(n);
  }
}

=== FILE: theme.dfy ===
/** The branding routes (`routes/theme.js`): the public theme read, the
    admin update of mode, colour and company name, and the logo/favicon
    upload that records the stored file's URL in the settings table. */
module Theme {

  import opened Common
  import opened Text
  import opened Schema

  const ThemeKeys: set<string> := {"theme_mode", "primary_color", "logo_url", "favicon_url", "company_name"}

  /** The shown value of a key that falls back to a default when its row is
      missing, NULL or empty (`settings.x || default`). */
  predicate ShowsOrDefault(st: Store, r: map<string, Option<string>>, key: string, default: string) {
    key in r
    && r[key] == Some(if SettingValue(st, key).Some? && SettingValue(st, key).value != "" then SettingValue(st, key).value
                      else default)
  }

  // ---------------------------------------------------------------------
  // GET /settings
  // ---------------------------------------------------------------------

  /** The theme object: every theme row that exists, with the three
      defaulted keys always present. */
  function ThemeSettings(st: Store): (r: map<string, Option<string>>)
    ensures forall k :: k in r <==> k in ThemeKeys && (k in st.settings || k !in {"logo_url", "favicon_url"})
    ensures ShowsOrDefault(st, r, "theme_mode", "light")
    ensures ShowsOrDefault(st, r, "primary_color", "#1976d2")
    ensures ShowsOrDefault(st, r, "company_name", "TicketForge")
    ensures "logo_url" in st.settings ==> r["logo_url"] == st.settings["logo_url"].value
    ensures "favicon_url" in st.settings ==> r["favicon_url"] == st.settings["favicon_url"].value
  {
    var rows := map k | k in st.settings && k in ThemeKeys :: st.settings[k].value;
    rows["theme_mode" := Some(OrDefault(SettingValue(st, "theme_mode"), "light"))]
        ["primary_color" := Some(OrDefault(SettingValue(st, "primary_color"), "#1976d2"))]
        ["company_name" := Some(OrDefault(SettingValue(st, "company_name"), "TicketForge"))]
  }

  /** The three defaulted keys always carry a non-empty value. */
  lemma ThemeNeverBlank(st: Store, k: string)
    requires k in {"theme_mode", "primary_color", "company_name"}
    ensures var r := ThemeSettings(st); k in r && r[k].Some? && r[k].value != ""
  {
  }

  // ---------------------------------------------------------------------
  // PUT /settings
  // ---------------------------------------------------------------------

  datatype ThemeChange = ThemeChange(themeMode: Field<string>, primaryColor: Field<string>, companyName: Field<string>)

  /** One upsert of the loop, skipped for a falsy member: a new row gets the
      description `Theme setting: <key>`, an existing one keeps its own. */
  function PutTheme(settings: map<string, Setting>, key: string, f: Field<string>, author: Id): (r: map<string, Setting>)
    ensures !Truthy(f) ==> r == settings
    ensures Truthy(f) ==> r.Keys == settings.Keys + {key} && r[key].value == Some(f.v) && r[key].updatedBy == Some(author)
    ensures Truthy(f) ==>
      r[key].description == (if key in settings then settings[key].description else Some("Theme setting: " + key))
    ensures forall k :: k in settings && k != key ==> r[k] == settings[k]
  {
    if Truthy(f) then Upsert(settings, key, Setting(Some(f.v), Some("Theme setting: " + key), Some(author)), ValueAndAuthor)
    else settings
  }

  predicate AnyTheme(c: ThemeChange) {
    Truthy(c.themeMode) || Truthy(c.primaryColor) || Truthy(c.companyName)
  }

  /** The upserts run in one transaction; with nothing to write the route
      still answers success. A caller whose row is gone fails the
      `updated_by` foreign key on the first upsert. */
  function UpdateTheme(st: Store, actor: Actor, c: ThemeChange): (s: Step<string>)
    ensures s.notices == []
    ensures !s.out.Success() ==> s.st == st
    ensures actor.role != Admin ==> s.out == Err(Forbidden403, Insufficient)
    ensures actor.role == Admin && AnyTheme(c) && actor.id !in st.users ==>
      s.out == Err(ServerError500, "Failed to update theme settings")
    ensures s.out.Success() <==> actor.role == Admin && (!AnyTheme(c) || actor.id in st.users)
    ensures s.out.Success() ==> s.out.value == "Theme settings updated successfully"
    ensures s.out.Success() ==> s.st == st.(settings := s.st.settings)
    ensures s.out.Success() ==> forall k :: k in st.settings && k !in {"theme_mode", "primary_color", "company_name"} ==>
      k in s.st.settings && s.st.settings[k] == st.settings[k]
  {
    match AdminOnly(actor.role == Admin)
    case Some(e) => Answer(st, e)
    case None =>
      if AnyTheme(c) && actor.id !in st.users then Answer(st, Err(ServerError500, "Failed to update theme settings"))
      else
        var s1 := PutTheme(st.settings, "theme_mode", c.themeMode, actor.id);
        var s2 := PutTheme(s1, "primary_color", c.primaryColor, actor.id);
        var s3 := PutTheme(s2, "company_name", c.companyName, actor.id);
        Answer(st.(settings := s3), Ok(Ok200, "Theme settings updated successfully"))
  }

  /** A successful update shows each supplied value in the theme read, and
      keeps what the read showed for each member left out. */
  lemma UpdateThenRead(st: Store, actor: Actor, c: ThemeChange)
    requires actor.role == Admin && actor.id in st.users
    ensures var r := ThemeSettings(UpdateTheme(st, actor, c).st);
      var before := ThemeSettings(st);
      r["theme_mode"] == (if Truthy(c.themeMode) then Some(c.themeMode.v) else before["theme_mode"])
      && r["primary_color"] == (if Truthy(c.primaryColor) then Some(c.primaryColor.v) else before["primary_color"])
      && r["company_name"] == (if Truthy(c.companyName) then Some(c.companyName.v) else before["company_name"])
  {
    var after := UpdateTheme(st, actor, c).st;
    ShownAfterUpdate(st, after, "theme_mode", c.themeMode, "light");
    ShownAfterUpdate(st, after, "primary_color", c.primaryColor, "#1976d2");
    ShownAfterUpdate(st, after, "company_name", c.companyName, "TicketForge");
  }

  /** One key of the update, as the theme read shows it: the value written
      when the member was supplied, the old reading otherwise. */
  lemma ShownAfterUpdate(st: Store, after: Store, key: string, f: Field<string>, default: string)
    requires Truthy(f) ==> SettingValue(after, key) == Some(f.v)
    requires !Truthy(f) ==> SettingValue(after, key) == SettingValue(st, key)
    ensures OrDefault(SettingValue(after, key), default) ==
            (if Truthy(f) then f.v else OrDefault(SettingValue(st, key), default))
  {
  }

  lemma UpdateThemeKeepsValid(st: Store, actor: Actor, c: ThemeChange)
    requires Valid(st)
    ensures Valid(UpdateTheme(st, actor, c).st)
  {
    if actor.role == Admin && AnyTheme(c) && actor.id in st.users {
      var a := actor.id;
      PutThemeKeepsValid(st, "theme_mode", c.themeMode, a);
      var st1 := st.(settings := PutTheme(st.settings, "theme_mode", c.themeMode, a));
      PutThemeKeepsValid(st1, "primary_color", c.primaryColor, a);
      var st2 := st1.(settings := PutTheme(st1.settings, "primary_color", c.primaryColor, a));
      PutThemeKeepsValid(st2, "company_name", c.companyName, a);
      assert UpdateTheme(st, actor, c).st == st2.(settings := PutTheme(st2.settings, "company_name", c.companyName, a));
    }
  }

  lemma PutThemeKeepsValid(st: Store, key: string, f: Field<string>, author: Id)
    requires Valid(st) && author in st.users
    ensures Valid(st.(settings := PutTheme(st.settings, key, f, author)))
  {
    if Truthy(f) {
      UpsertKeepsValid(st, key, Setting(Some(f.v), Some("Theme setting: " + key), Some(author)), ValueAndAuthor);
    }
  }

  // ---------------------------------------------------------------------
  // POST /upload/:type
  // ---------------------------------------------------------------------

  /** The file part as the upload middleware sees it. */
  datatype Upload = Upload(mimeType: string, size: nat)

  /** The upload middleware's size limit: 5 MB. */
  const MaxBrandingSize: nat := 5 * 1024 * 1024

  /** The MIME types the file filter accepts per upload type. */
  function AllowedTypes(kind: string): (r: Option<seq<string>>)
    ensures r.Some? <==> kind in {"logo", "favicon"}
  {
    if kind == "logo" then Some(["image/png", "image/jpeg", "image/svg+xml"])
    else if kind == "favicon" then Some(["image/x-icon", "image/png"])
    else None
  }

  predicate Accepted(kind: string, mimeType: string) {
    AllowedTypes(kind).Some? && mimeType in AllowedTypes(kind).value
  }

  /** The filter's error text; an unknown type lists `undefined`. */
  function FilterMessage(kind: string): string {
    "Invalid file type for " + kind + ". Allowed: "
      + (if AllowedTypes(kind).Some? then JoinWith(AllowedTypes(kind).value, ", ") else "undefined")
  }

  /** Where the processed image is served from: always a `.png` under the
      branding directory, named by type and upload time. */
  function BrandingUrl(kind: string, now: nat): (url: string)
    ensures EndsWith(url, ".png")
  {
    var url := "/uploads/branding/" + kind + "-" + Decimal(now) + ".png";
    assert url[|url| - 4..] == ".png";
    url
  }

  function UrlKey(kind: string): string {
    if kind == "logo" then "logo_url" else "favicon_url"
  }

  datatype UploadReply = UploadReply(message: string, url: string)

  /** PostgreSQL's message for a settings row whose `updated_by` names no
      account. A reference declared on the column gets the default
      constraint name `settings_updated_by_fkey`. */
  const AuthorViolation: string :=
    "insert or update on table \"settings\" violates foreign key constraint \"settings_updated_by_fkey\""

  /** The middleware runs first: its filter and size limit reject the file
      before the handler. Those refusals are modelled as a 500 carrying the
      middleware's message. The handler's own type check comes after a file
      was accepted, so it can never fire. A failed write is answered with
      the database error's own message, which the catch echoes. */
  function UploadBranding(st: Store, actor: Actor, kind: string, file: Option<Upload>, now: nat): (s: Step<UploadReply>)
    ensures s.notices == []
    ensures !s.out.Success() ==> s.st == st
    ensures actor.role != Admin ==> s.out == Err(Forbidden403, Insufficient)
    ensures actor.role == Admin && file.Some? && !Accepted(kind, file.value.mimeType) ==>
      s.out == Err(ServerError500, FilterMessage(kind))
    ensures actor.role == Admin && file.None? ==> s.out == Err(BadRequest400, "No file uploaded")
    ensures actor.role == Admin && file.Some? && Accepted(kind, file.value.mimeType)
            && file.value.size <= MaxBrandingSize && actor.id !in st.users
            ==> s.out == Err(ServerError500, AuthorViolation)
    ensures s.out.Success() <==>
      actor.role == Admin && file.Some? && Accepted(kind, file.value.mimeType) && file.value.size <= MaxBrandingSize
      && actor.id in st.users
    ensures s.out.Success() ==>
      s.out.value == UploadReply(kind + " uploaded successfully", BrandingUrl(kind, now))
      && s.st == st.(settings := Upsert(st.settings, UrlKey(kind),
                                       Setting(Some(BrandingUrl(kind, now)), Some(kind + " file URL"), Some(actor.id)),
                                       ValueAndAuthor))
  {
    match AdminOnly(actor.role == Admin)
    case Some(e) => Answer(st, e)
    case None =>
      if file.Some? && !Accepted(kind, file.value.mimeType) then Answer(st, Err(ServerError500, FilterMessage(kind)))
      else if file.Some? && file.value.size > MaxBrandingSize then Answer(st, Err(ServerError500, "File too large"))
      else if file.None? then Answer(st, Err(BadRequest400, "No file uploaded"))
      else if kind !in {"logo", "favicon"} then Answer(st, Err(BadRequest400, "Invalid upload type"))
      else if actor.id !in st.users then Answer(st, Err(ServerError500, AuthorViolation))
      else
        var url := BrandingUrl(kind, now);
        var row := Setting(Some(url), Some(kind + " file URL"), Some(actor.id));
        Answer(st.(settings := Upsert(st.settings, UrlKey(kind), row, ValueAndAuthor)),
               Ok(Ok200, UploadReply(kind + " uploaded successfully", url)))
  }

  /** The handler's "Invalid upload type" answer is unreachable. */
  lemma InvalidTypeUnreachable(st: Store, actor: Actor, kind: string, file: Option<Upload>, now: nat)
    ensures UploadBranding(st, actor, kind, file, now).out != Err(BadRequest400, "Invalid upload type")
  {
  }

  /** After an upload the theme read serves the new file's URL. */
  lemma UploadShowsInTheme(st: Store, actor: Actor, kind: string, file: Option<Upload>, now: nat)
    requires UploadBranding(st, actor, kind, file, now).out.Success()
    ensures var r := ThemeSettings(UploadBranding(st, actor, kind, file, now).st);
      UrlKey(kind) in r && r[UrlKey(kind)] == Some(BrandingUrl(kind, now))
  {
  }

  /** Uploads of one type at different times get different URLs, so a new
      logo never overwrites the file the old URL names. */
  lemma UrlsDistinct(kind: string, m: nat, n: nat)
    requires m != n
    ensures BrandingUrl(kind, m) != BrandingUrl(kind, n)
  {
    var p := "/uploads/branding/" + kind + "-";
    if BrandingUrl(kind, m) == BrandingUrl(kind, n) {
      var a := p + Decimal(m) + ".png";
      var b := p + Decimal(n) + ".png";
      assert |Decimal(m)| == |Decimal(n)|;
      assert Decimal(m) == a[|p|..|a| - 4];
      assert Decimal(n) == b[|p|..|b| - 4];
      DecimalInjective(m, n);
    }
  }

  lemma UploadKeepsValid(st: Store, actor: Actor, kind: string, file: Option<Upload>, now: nat)
    requires Valid(st)
    ensures Valid(UploadBranding(st, actor, kind, file, now).st)
  {
  }
}

=== FILE: ticket_detail.dfy ===
/** The ticket page (`pages/TicketDetail.js`): which controls it offers to
    whom, the requests those controls send, and the comment composer's
    reply / internal-note state. Each control is checked against the route
    that serves its request. */
module TicketDetail {

  import opened Common
  import opened Text
  import opened Schema
  import Tickets
  import Comments

  /** `isAgent`: administrators and agents. */
  predicate IsAgent(role: Role) {
    role == Admin || role == Agent
  }

  /** The page's notion of staff is the server's. */
  lemma AgentMeansStaff(role: Role)
    ensures IsAgent(role) <==> IsStaff(role)
  {
  }

  // ---------------------------------------------------------------------
  // Which controls render
  // ---------------------------------------------------------------------

  /** The status, priority and assignee pickers, and the internal-note
      button. */
  predicate ShowsStaffControls(role: Role) {
    IsAgent(role)
  }

  predicate ShowsDeleteTicket(role: Role) {
    role == Admin
  }

  /** The edit icon on a comment: `comment.user_id === user?.id`. A comment
      whose author is gone belongs to no viewer. */
  predicate ShowsEdit(viewer: Id, c: Comment) {
    c.author == Some(viewer)
  }

  predicate ShowsReply(role: Role, c: Comment) {
    !c.isInternal || IsAgent(role)
  }

  /** The save button of an edit is disabled while the text is blank. */
  predicate CanSaveEdit(text: string) {
    Trim(text) != ""
  }

  // ---------------------------------------------------------------------
  // Agreement with the routes
  // ---------------------------------------------------------------------

  /** The Delete Ticket button shows exactly to the callers the delete
      route obeys. */
  lemma DeleteButtonMatchesServer(st: Store, actor: Actor, id: Id)
    requires id in st.tickets
    ensures ShowsDeleteTicket(actor.role) <==> Tickets.DeleteTicket(st, actor, id).out.Success()
  {
  }

  /** A saveable edit from the edit icon succeeds exactly when the icon is
      shown: the page and the route agree that only the author edits. */
  lemma EditIconMatchesServer(st: Store, actor: Actor, c: Id, text: string, now: nat)
    requires c in st.comments && CanSaveEdit(text)
    ensures ShowsEdit(actor.id, st.comments[c]) <==> Comments.EditComment(st, actor, c, Val(text), now).out.Success()
  {
    assert Trim("") == "";
  }

  /** Every comment the thread route hands the viewer has a Reply button. */
  lemma ReplyOnEveryShownComment(st: Store, actor: Actor, ticket: Id, c: Id)
    requires c in st.comments && Comments.Shown(st, actor, ticket, c)
    ensures ShowsReply(actor.role, st.comments[c])
  {
  }

  // ---------------------------------------------------------------------
  // The staff pickers
  // ---------------------------------------------------------------------

  /** A choice in one of the three pickers. The assignee picker's
      "Unassigned" entry has the empty value. */
  datatype Pick = StatusPick(status: Status) | PriorityPick(priority: Priority) | AssigneePick(agent: string)

  /** `handleUpdateTicket(field, value)`: a body with the one member; an
      empty assignee is sent as `null`. */
  function PickChange(p: Pick): (c: Tickets.TicketChange)
    ensures !Defined(c.subject) && !Defined(c.description)
  {
    match p
    case StatusPick(s) => Tickets.TicketChange(Undefined, Undefined, Val(StatusName(s)), Undefined, Undefined, Undefined)
    case PriorityPick(x) => Tickets.TicketChange(Undefined, Undefined, Undefined, Val(PriorityName(x)), Undefined, Undefined)
    case AssigneePick(a) =>
      Tickets.TicketChange(Undefined, Undefined, Undefined, Undefined, if a == "" then Null else Val(a), Undefined)
  }

  /** A picker choice by staff is stored: the status or priority picked, or
      the assignee picked, "Unassigned" clearing the column. */
  lemma StaffPicksAccepted(st: Store, actor: Actor, id: Id, p: Pick, now: nat)
    requires ShowsStaffControls(actor.role) && id in st.tickets
    requires p.AssigneePick? && p.agent != "" ==> p.agent in st.users
    ensures var s := Tickets.UpdateTicket(st, actor, id, PickChange(p), now);
      s.out.Success()
      && (p.StatusPick? ==> s.st.tickets[id].status == Some(p.status))
      && (p.PriorityPick? ==> s.st.tickets[id].priority == Some(p.priority))
      && (p.AssigneePick? ==> s.st.tickets[id].assignedTo == (if p.agent == "" then None else Some(p.agent)))
  {
    EnumLabelsRoundTrip(Admin, if p.StatusPick? then p.status else Open, if p.PriorityPick? then p.priority else Low);
  }

  /** The pickers are hidden from customers, and the route refuses every
      request they would send. */
  lemma CustomerPicksRefused(st: Store, actor: Actor, id: Id, p: Pick, now: nat)
    requires !ShowsStaffControls(actor.role)
    ensures !Tickets.UpdateTicket(st, actor, id, PickChange(p), now).out.Success()
  {
  }

  // ---------------------------------------------------------------------
  // The comment composer
  // ---------------------------------------------------------------------

  /** The composer's state: which comment is being answered, whether the
      internal-note form is open, the internal flag the post will carry,
      the text and the number of attached files. */
  datatype Composer = Composer(replyingTo: Option<Id>, noteForm: bool, isInternal: bool, text: string, files: nat)

  const Idle := Composer(None, false, false, "", 0)

  datatype Event =
    | ReplyClick(comment: Id, commentIsInternal: bool)
    | InternalNoteClick
    | CancelReply
    | Typed(text: string)
    | Attached(files: nat)
    | Posted

  /** One handler. A reply copies the answered comment's flag, the note
      button sets it, and cancelling or a successful post clears it. */
  function Apply(c: Composer, e: Event): (r: Composer)
    ensures e.ReplyClick? ==> r.replyingTo == Some(e.comment) && r.isInternal == e.commentIsInternal && !r.noteForm
    ensures e.InternalNoteClick? ==> r.noteForm && r.isInternal && r.replyingTo.None?
    ensures e.CancelReply? || e.Posted? ==> r == Idle
    ensures e.Typed? || e.Attached? ==> r.replyingTo == c.replyingTo && r.noteForm == c.noteForm && r.isInternal == c.isInternal
  {
    match e
    case ReplyClick(id, internal) => Composer(Some(id), false, internal, "", 0)
    case InternalNoteClick => Composer(None, true, true, "", 0)
    case CancelReply => Idle
    case Typed(t) => c.(text := t)
    case Attached(n) => c.(files := n)
    case Posted => Idle
  }

  function Run(c: Composer, es: seq<Event>): Composer
    decreases |es|
  {
    if es == [] then c else Run(Apply(c, es[0]), es[1..])
  }

  /** The form at the foot of the thread shows when no reply and no note
      is under way. */
  predicate MainFormShown(c: Composer) {
    c.replyingTo.None? && !c.noteForm
  }

  /** What every reachable state satisfies: the main form posts public
      comments, the note form internal ones, and at most one form is open. */
  predicate Coherent(c: Composer) {
    (MainFormShown(c) ==> !c.isInternal)
    && (c.noteForm ==> c.isInternal && c.replyingTo.None?)
  }

  lemma {:induction false} RunStaysCoherent(c: Composer, es: seq<Event>)
    requires Coherent(c)
    ensures Coherent(Run(c, es))
    decreases |es|
  {
    if es != [] {
      RunStaysCoherent(Apply(c, es[0]), es[1..]);
    }
  }

  /** The multipart body: the flag is sent as the text of the boolean. */
  function CommentRequest(ticket: Id, c: Composer): (r: Comments.NewCommentRequest)
    ensures r.content == Val(c.text)
    ensures r.isInternal == Val("true") <==> c.isInternal
  {
    Comments.NewCommentRequest(Val(ticket), Val(c.text), Val(if c.isInternal then "true" else "false"))
  }

  lemma RunTwo(c: Composer, a: Event, b: Event)
    ensures Run(c, [a, b]) == Apply(Apply(c, a), b)
  {
    assert [a, b][1..] == [b] && [b][1..] == [];
    var c1 := Apply(c, a);
    assert Run(c, [a, b]) == Run(c1, [b]);
    assert Run(c1, [b]) == Run(Apply(c1, b), []);
  }

  /** Whatever the viewer clicked before, a post from the main form is
      stored public. */
  lemma MainFormPostsPublic(actor: Actor, ticket: Id, es: seq<Event>)
    requires MainFormShown(Run(Idle, es))
    ensures !Comments.MakesInternal(actor, CommentRequest(ticket, Run(Idle, es)))
  {
    RunStaysCoherent(Idle, es);
  }

  /** A reply is stored internal exactly when it answers an internal
      comment and the author is staff; a note from the note form is stored
      internal exactly when the author is staff. */
  lemma PostsKeepTheThreadsVisibility(actor: Actor, ticket: Id, c: Composer, id: Id, internal: bool, text: string)
    ensures var r := Run(c, [ReplyClick(id, internal), Typed(text)]);
      Comments.MakesInternal(actor, CommentRequest(ticket, r)) <==> internal && IsAgent(actor.role)
    ensures var n := Run(c, [InternalNoteClick, Typed(text)]);
      Comments.MakesInternal(actor, CommentRequest(ticket, n)) <==> IsAgent(actor.role)
  {
    RunTwo(c, ReplyClick(id, internal), Typed(text));
    RunTwo(c, InternalNoteClick, Typed(text));
  }

  // ---------------------------------------------------------------------
  // Attachment previews
  // ---------------------------------------------------------------------

  const ImageExtensions: seq<string> := [".jpg", ".jpeg", ".png", ".gif", ".bmp", ".webp", ".svg"]

  /** `isImageFile`: the lowercased name ends with an image extension. */
  predicate IsImageFile(name: string) {
    exists i :: 0 <= i < |ImageExtensions| && EndsWith(Lower(name), ImageExtensions[i])
  }

  lemma LowerIdempotent(s: string)
    ensures Lower(Lower(s)) == Lower(s)
  {
  }

  /** The test ignores case. */
  lemma ImageTestIgnoresCase(name: string)
    ensures IsImageFile(Lower(name)) <==> IsImageFile(name)
  {
    LowerIdempotent(name);
  }

  /** Every extension starts with a dot, so a name without one is never
      previewed. */
  lemma ImageNeedsDot(name: string)
    requires IsImageFile(name)
    ensures '.' in name
  {
    var i :| 0 <= i < |ImageExtensions| && EndsWith(Lower(name), ImageExtensions[i]);
    var k := |name| - |ImageExtensions[i]|;
    assert Lower(name)[k] == ImageExtensions[i][0] == '.';
    assert name[k] == '.';
  }
}

=== FILE: ticket_list.dfy ===
/** The ticket list page (`pages/TicketList.js`): the rows the server sent,
    narrowed on the client by a free-text search and by status and
    priority pickers. */
module TicketList {

  import opened Common
  import opened Text
  import opened Schema
  import opened Seqs
  import Tickets

  /** A row of `GET /tickets` as the page reads it. The customer's name
      comes from an outer join and is missing when the account is gone. */
  datatype Row = Row(number: nat, subject: string, customerName: Option<string>,
                     status: Option<Status>, priority: Option<Priority>, createdAt: nat)

  /** The row the server sends for a stored ticket. */
  function RowOf(st: Store, t: Id): Row
    requires t in st.tickets
  {
    var tk := st.tickets[t];
    Row(tk.number, tk.subject,
        if tk.customer.Some? && tk.customer.value in st.users then Some(st.users[tk.customer.value].username) else None,
        tk.status, tk.priority, tk.createdAt)
  }

  function RowsOf(st: Store, ids: seq<Id>): (rows: seq<Row>)
    requires forall i :: 0 <= i < |ids| ==> ids[i] in st.tickets
    ensures |rows| == |ids|
    ensures forall i :: 0 <= i < |ids| ==> rows[i] == RowOf(st, ids[i])
  {
    if ids == [] then [] else [RowOf(st, ids[0])] + RowsOf(st, ids[1..])
  }

  // ---------------------------------------------------------------------
  // The three filters
  // ---------------------------------------------------------------------

  /** The search: the query, already lowercased and trimmed, occurs in the
      lowercased ticket number, subject or customer name. */
  predicate Matches(t: Row, q: string) {
    Contains(Lower(Decimal(t.number)), q)
    || Contains(Lower(t.subject), q)
    || Contains(if t.customerName.Some? then Lower(t.customerName.value) else "", q)
  }

  /** A picker set to anything but `all` requires the row's label to be
      exactly the picked one; a NULL status or priority equals no label. */
  predicate StatusIs(t: Row, picked: string) {
    t.status.Some? && StatusName(t.status.value) == picked
  }

  predicate PriorityIs(t: Row, picked: string) {
    t.priority.Some? && PriorityName(t.priority.value) == picked
  }

  /** What the page keeps, as one condition. */
  predicate Selected(t: Row, status: string, priority: string, query: string) {
    (Trim(query) != "" ==> Matches(t, Trim(Lower(query))))
    && (status != "all" ==> StatusIs(t, status))
    && (priority != "all" ==> PriorityIs(t, priority))
  }

  /** `filterTickets`: search first, then status, then priority. */
  function FilterTickets(rows: seq<Row>, status: string, priority: string, query: string): (r: seq<Row>)
    ensures forall t :: t in r <==> t in rows && Selected(t, status, priority, query)
    ensures Subsequence(r, rows)
  {
    var q := Trim(Lower(query));
    var searched := if Trim(query) != "" then Keep(rows, t => Matches(t, q)) else rows;
    var byStatus := if status != "all" then Keep(searched, t => StatusIs(t, status)) else searched;
    var r := if priority != "all" then Keep(byStatus, t => PriorityIs(t, priority)) else byStatus;
    assert r == Keep(rows, t => Selected(t, status, priority, query)) by {
      FilterIsOneKeep(rows, status, priority, query);
    }
    KeepIsSubsequence(rows, t => Selected(t, status, priority, query));
    r
  }

  /** The three filters in a row select what their conjunction selects. */
  lemma FilterIsOneKeep(rows: seq<Row>, status: string, priority: string, query: string)
    ensures var q := Trim(Lower(query));
      var searched := if Trim(query) != "" then Keep(rows, t => Matches(t, q)) else rows;
      var byStatus := if status != "all" then Keep(searched, t => StatusIs(t, status)) else searched;
      var r := if priority != "all" then Keep(byStatus, t => PriorityIs(t, priority)) else byStatus;
      r == Keep(rows, t => Selected(t, status, priority, query))
  {
    var q := Trim(Lower(query));
    GuardedFilters(rows, Trim(query) != "", t => Matches(t, q), status != "all", t => StatusIs(t, status),
                   priority != "all", t => PriorityIs(t, priority), t => Selected(t, status, priority, query));
  }

  /** The filters commute: narrowing by priority, then status, then the
      search gives the page's list too. */
  lemma FilterOrderIrrelevant(rows: seq<Row>, status: string, priority: string, query: string)
    ensures var q := Trim(Lower(query));
      var byPriority := Keep(rows, t => priority != "all" ==> PriorityIs(t, priority));
      var byStatus := Keep(byPriority, t => status != "all" ==> StatusIs(t, status));
      Keep(byStatus, t => Trim(query) != "" ==> Matches(t, q)) == FilterTickets(rows, status, priority, query)
  {
    var q := Trim(Lower(query));
    var search := (t: Row) => Trim(query) != "" ==> Matches(t, q);
    var byStatus := (t: Row) => status != "all" ==> StatusIs(t, status);
    var byPriority := (t: Row) => priority != "all" ==> PriorityIs(t, priority);
    var first := (t: Row) => byPriority(t) && byStatus(t);
    KeepKeep(rows, byPriority, byStatus, first);
    KeepKeep(rows, first, search, t => Selected(t, status, priority, query));
    FilterIsOneKeep(rows, status, priority, query);
  }

  /** A query of nothing but whitespace applies no search. */
  lemma BlankQueryIgnored(rows: seq<Row>, status: string, priority: string, query: string)
    requires AllSpace(query)
    ensures FilterTickets(rows, status, priority, query) == FilterTickets(rows, status, priority, "")
  {
    TrimEmptyIffAllSpace(query);
    assert AllSpace("");
    TrimEmptyIffAllSpace("");
  }

  /** With both pickers on `all` and no query, every row is listed. */
  lemma NoFilterKeepsAll(rows: seq<Row>)
    ensures FilterTickets(rows, "all", "all", "") == rows
  {
    assert AllSpace("");
    TrimEmptyIffAllSpace("");
  }

  /** Searching for a ticket's number lists that ticket. */
  lemma NumberFindsTicket(t: Row)
    ensures Selected(t, "all", "all", Decimal(t.number))
  {
    var d := Decimal(t.number);
    DigitsAreTheirOwnQuery(d);
    assert OccursAt(d, d, 0);
  }

  /** A run of digits survives the page's lowercasing and trimming. */
  lemma DigitsAreTheirOwnQuery(d: string)
    requires d != [] && forall i :: 0 <= i < |d| ==> IsDigit(d[i])
    ensures Lower(d) == d && Trim(d) == d && Trim(d) != ""
  {
    assert !IsSpace(d[0]) && !IsSpace(d[|d| - 1]);
    TrimUnchanged(d);
  }

  // ---------------------------------------------------------------------
  // Agreement with the server's filter
  // ---------------------------------------------------------------------

  /** Picking a status on the page keeps the rows the server itself keeps
      for the same status in its query string. */
  lemma {:induction false} StatusPickerAgreesWithServer(st: Store, ids: seq<Id>, s: Status)
    requires forall i :: 0 <= i < |ids| ==> ids[i] in st.tickets
    ensures var q := Tickets.TicketQuery(Val(StatusName(s)), Undefined, Undefined, Undefined, Undefined);
      var kept := Keep(ids, t => t in st.tickets && Tickets.MatchesQuery(st.tickets[t], q));
      (forall i :: 0 <= i < |kept| ==> kept[i] in st.tickets)
      && FilterTickets(RowsOf(st, ids), StatusName(s), "all", "") == RowsOf(st, kept)
  {
    var q := Tickets.TicketQuery(Val(StatusName(s)), Undefined, Undefined, Undefined, Undefined);
    var p := (t: Id) => t in st.tickets && Tickets.MatchesQuery(st.tickets[t], q);
    var kept := Keep(ids, p);
    StatusRowsAgree(st, ids, s, q, p);
    StatusFilterIsKeep(RowsOf(st, ids), StatusName(s));
  }

  lemma StatusFilterIsKeep(rows: seq<Row>, picked: string)
    requires picked != "all"
    ensures FilterTickets(rows, picked, "all", "") == Keep(rows, t => StatusIs(t, picked))
  {
    assert AllSpace("");
    TrimEmptyIffAllSpace("");
  }

  lemma {:induction false} StatusRowsAgree(st: Store, ids: seq<Id>, s: Status, q: Tickets.TicketQuery,
                                           p: Id -> bool)
    requires forall i :: 0 <= i < |ids| ==> ids[i] in st.tickets
    requires q == Tickets.TicketQuery(Val(StatusName(s)), Undefined, Undefined, Undefined, Undefined)
    requires forall t :: p(t) == (t in st.tickets && Tickets.MatchesQuery(st.tickets[t], q))
    ensures forall i :: 0 <= i < |Keep(ids, p)| ==> Keep(ids, p)[i] in st.tickets
    ensures Keep(RowsOf(st, ids), t => StatusIs(t, StatusName(s))) == RowsOf(st, Keep(ids, p))
  {
    if ids != [] {
      StatusRowsAgree(st, ids[1..], s, q, p);
      var rows := RowsOf(st, ids);
      assert rows[1..] == RowsOf(st, ids[1..]);
      KeepHead(rows, t => StatusIs(t, StatusName(s)));
      KeepHead(ids, p);
      var tk := st.tickets[ids[0]];
      assert StatusIs(rows[0], StatusName(s)) == p(ids[0]) by {
        if tk.status.Some? && StatusName(tk.status.value) == StatusName(s) {
          EnumLabelsRoundTrip(Admin, tk.status.value, Low);
          EnumLabelsRoundTrip(Admin, s, Low);
        }
      }
      var rest := Keep(ids[1..], p);
      if p(ids[0]) {
        assert Keep(ids, p) == [ids[0]] + rest;
        assert RowsOf(st, [ids[0]] + rest)[1..] == RowsOf(st, rest) by {
          assert ([ids[0]] + rest)[1..] == rest;
        }
      }
    }
  }
}

=== FILE: tickets.dfy ===
/** The ticket routes (`routes/tickets.js`): listing with filters, reading
    one ticket with its attachments, opening a ticket, updating it under the
    customer/staff field rules, and deleting it. */
module Tickets {

  import opened Common
  import opened Schema
  import opened Ordering

  /** Customers reach only the tickets they opened; staff reach every ticket. */
  predicate MayAccess(actor: Actor, tk: Ticket) {
    actor.role != Customer || tk.customer == Some(actor.id)
  }

  // ---------------------------------------------------------------------
  // GET /
  // ---------------------------------------------------------------------

  /** The query-string filters; an empty or missing one is not applied. */
  datatype TicketQuery = TicketQuery(status: Field<string>, priority: Field<string>, assignedTo: Field<string>,
                                     customerId: Field<string>, groupId: Field<string>)

  const NoFilter := TicketQuery(Undefined, Undefined, Undefined, Undefined, Undefined)

  /** The WHERE clause built from the filters. A NULL column equals nothing. */
  predicate MatchesQuery(tk: Ticket, q: TicketQuery) {
    (Truthy(q.status) ==> tk.status.Some? && StatusName(tk.status.value) == q.status.v)
    && (Truthy(q.priority) ==> tk.priority.Some? && PriorityName(tk.priority.value) == q.priority.v)
    && (Truthy(q.assignedTo) ==> tk.assignedTo == Some(q.assignedTo.v))
    && (Truthy(q.customerId) ==> tk.customer == Some(q.customerId.v))
    && (Truthy(q.groupId) ==> tk.group == Some(q.groupId.v))
  }

  /** `ORDER BY t.created_at DESC` as an ascending key. */
  function NewestFirst(st: Store): Id -> int {
    t => if t in st.tickets then -(st.tickets[t].createdAt as int) else 0
  }

  /** A status or priority filter that is not an enum label makes the cast
      in the query fail. */
  predicate QueryCastable(q: TicketQuery) {
    (Truthy(q.status) ==> ParseStatus(q.status.v).Some?)
    && (Truthy(q.priority) ==> ParsePriority(q.priority.v).Some?)
  }

  ghost function ListTickets(st: Store, actor: Actor, q: TicketQuery): (r: Outcome<seq<Id>>)
    ensures r.Success() <==> QueryCastable(q)
    ensures !r.Success() ==> r == Err(ServerError500, "Failed to fetch tickets")
    ensures r.Success() ==> forall t :: t in r.value <==>
      t in st.tickets && MayAccess(actor, st.tickets[t]) && MatchesQuery(st.tickets[t], q)
    ensures r.Success() ==> forall i, j :: 0 <= i < j < |r.value| ==>
      r.value[i] != r.value[j] && st.tickets[r.value[i]].createdAt >= st.tickets[r.value[j]].createdAt
  {
    if !QueryCastable(q) then Err(ServerError500, "Failed to fetch tickets")
    else
      var picked := set t | t in st.tickets && MayAccess(actor, st.tickets[t]) && MatchesQuery(st.tickets[t], q);
      var xs := OrderBy(picked, NewestFirst(st));
      assert forall i, j :: 0 <= i < j < |xs| ==> NewestFirst(st)(xs[i]) <= NewestFirst(st)(xs[j]);
      Ok(Ok200, xs)
  }

  /** Filters only narrow: a filtered list is part of the unfiltered one,
      which for a customer holds only their own tickets. */
  lemma FiltersOnlyNarrow(st: Store, actor: Actor, q: TicketQuery)
    requires QueryCastable(q)
    ensures forall t :: t in ListTickets(st, actor, q).value ==> t in ListTickets(st, actor, NoFilter).value
    ensures actor.role == Customer ==>
      forall t :: t in ListTickets(st, actor, NoFilter).value ==> st.tickets[t].customer == Some(actor.id)
  {
  }

  // ---------------------------------------------------------------------
  // GET /:id
  // ---------------------------------------------------------------------

  /** The attachment columns the route selects: no storage path. */
  datatype FileInfo = FileInfo(filename: string, originalName: string, mimeType: string, size: nat, createdAt: nat)

  function Info(a: Attachment): FileInfo {
    FileInfo(a.file.filename, a.file.originalName, a.file.mimeType, a.file.size, a.createdAt)
  }

  datatype TicketView = TicketView(ticket: Ticket, attachments: map<Id, FileInfo>)

  /** The checks shared by reading, updating and commenting: 404 before 403. */
  function AccessError<T>(st: Store, actor: Actor, id: Id): (e: Option<Outcome<T>>)
    ensures e.None? <==> id in st.tickets && MayAccess(actor, st.tickets[id])
    ensures id !in st.tickets ==> e == Some(Err(NotFound404, "Ticket not found"))
    ensures id in st.tickets && !MayAccess(actor, st.tickets[id]) ==> e == Some(Err(Forbidden403, Insufficient))
  {
    if id !in st.tickets then Some(Err(NotFound404, "Ticket not found"))
    else if !MayAccess(actor, st.tickets[id]) then Some(Err(Forbidden403, Insufficient))
    else None
  }

  /** The route as written: every attachment whose `ticket_id` is the ticket,
      including those of internal comments. */
  function GetTicketAsWritten(st: Store, actor: Actor, id: Id): (r: Outcome<TicketView>)
    ensures !r.Success() ==> Some(r) == AccessError(st, actor, id)
    ensures r.Success() ==> AccessError<TicketView>(st, actor, id).None? && r.value.ticket == st.tickets[id]
    ensures r.Success() ==> forall a :: a in r.value.attachments <==> a in st.attachments && st.attachments[a].ticket == id
  {
    match AccessError(st, actor, id)
    case Some(e) => e
    case None =>
      Ok(Ok200, TicketView(st.tickets[id],
        map a | a in st.attachments && st.attachments[a].ticket == id :: Info(st.attachments[a])))
  }

  /** An attachment posted with an internal comment, which a customer must
      not see. */
  predicate HiddenFrom(st: Store, actor: Actor, a: Attachment) {
    actor.role == Customer && a.comment.Some? && a.comment.value in st.comments
    && st.comments[a.comment.value].isInternal
  }

  /** The route as intended: a customer's view leaves out the attachments of
      internal comments, as the comment list does. */
  function GetTicket(st: Store, actor: Actor, id: Id): (r: Outcome<TicketView>)
    ensures !r.Success() ==> Some(r) == AccessError(st, actor, id)
    ensures r.Success() ==> AccessError<TicketView>(st, actor, id).None? && r.value.ticket == st.tickets[id]
    ensures r.Success() ==> forall a :: a in r.value.attachments <==>
      a in st.attachments && st.attachments[a].ticket == id && !HiddenFrom(st, actor, st.attachments[a])
    ensures r.Success() ==> forall a :: a in r.value.attachments ==> r.value.attachments[a] == Info(st.attachments[a])
  {
    match AccessError(st, actor, id)
    case Some(e) => e
    case None =>
      Ok(Ok200, TicketView(st.tickets[id],
        map a | a in st.attachments && st.attachments[a].ticket == id && !HiddenFrom(st, actor, st.attachments[a])
              :: Info(st.attachments[a])))
  }

  /** Staff see the same attachments under both versions. */
  lemma StaffViewUnchanged(st: Store, actor: Actor, id: Id)
    requires IsStaff(actor.role)
    ensures GetTicket(st, actor, id) == GetTicketAsWritten(st, actor, id)
  {
    if GetTicket(st, actor, id).Success() {
      assert GetTicket(st, actor, id).value.attachments == GetTicketAsWritten(st, actor, id).value.attachments;
    }
  }

  /** A small store: customer `c` owns ticket `t`, on which agent `g` left
      an internal note `n` with attached file `f`. */
  function LeakExample(): Store {
    var file := FileMeta("1-notes.pdf", "notes.pdf", "application/pdf", 10, "uploads/tickets/1-notes.pdf");
    Store(
      map["c" := User("cust", "c@x.io", Hashed("pw"), None, None, Customer, true, true, false, 0, None),
          "g" := User("agent", "g@x.io", Hashed("pw"), None, None, Agent, true, true, false, 0, None)],
      map[], {},
      map["t" := Ticket(1, "s", "d", Some(Open), Some(Low), Some("c"), Some("g"), None, 0, 0, None, None)],
      map["n" := Comment("t", Some("g"), "staff only", true, 1, 1)],
      map["f" := Attachment("t", Some("n"), Some("g"), file, 1)],
      map[], 1)
  }

  /** As written, the customer reading the ticket is shown the internal
      note's file; the corrected route does not show it. */
  lemma InternalAttachmentLeaks()
    ensures Valid(LeakExample())
    ensures var view := GetTicketAsWritten(LeakExample(), Actor("c", Customer), "t");
      view.Success() && "f" in view.value.attachments && LeakExample().comments["n"].isInternal
    ensures var view := GetTicket(LeakExample(), Actor("c", Customer), "t");
      view.Success() && "f" !in view.value.attachments
  {
    var st := LeakExample();
    assert st.users.Keys == {"c", "g"};
    assert UniqueAccounts(st.users) by {
      assert st.users["c"].username != st.users["g"].username;
      assert st.users["c"].email != st.users["g"].email;
    }
  }

  // ---------------------------------------------------------------------
  // POST /
  // ---------------------------------------------------------------------

  /** `rows[0]?.value || null` of the `auto_assign_agent` setting. */
  function AutoAssignee(st: Store): (r: Option<Id>)
    ensures r.Some? <==> SettingValue(st, "auto_assign_agent").Some? && SettingValue(st, "auto_assign_agent").value != ""
    ensures r.Some? ==> r == SettingValue(st, "auto_assign_agent")
  {
    var v := SettingValue(st, "auto_assign_agent");
    if v.Some? && v.value != "" then v else None
  }

  /** `priority || 'low'`. */
  function RequestedPriority(priority: Field<string>): string {
    if Truthy(priority) then priority.v else "low"
  }

  datatype NewTicketRequest = NewTicketRequest(subject: Field<string>, description: Field<string>, priority: Field<string>)

  /** The row a successful request inserts. */
  function OpenedTicket(st: Store, actor: Actor, req: NewTicketRequest, now: nat): (tk: Ticket)
    requires Truthy(req.subject) && Truthy(req.description) && ParsePriority(RequestedPriority(req.priority)).Some?
    ensures tk.status == Some(Open) && tk.customer == Some(actor.id)
    ensures tk.subject == req.subject.v && tk.description == req.description.v
    ensures tk.priority.Some? && PriorityName(tk.priority.value) == RequestedPriority(req.priority)
    ensures !Truthy(req.priority) ==> tk.priority == Some(Low)
    ensures tk.assignedTo == AutoAssignee(st) && tk.number == st.lastNumber + 1
    ensures tk.resolvedAt.None? && tk.closedAt.None? && tk.group.None?
  {
    Ticket(st.lastNumber + 1, req.subject.v, req.description.v, Some(Open),
           ParsePriority(RequestedPriority(req.priority)), Some(actor.id), AutoAssignee(st), None,
           now, now, None, None)
  }

  /** The INSERT fails on a foreign key: the caller's account, or the
      auto-assigned agent, is not a row of `users`. The row has already
      drawn its `ticket_number` by then, and the rollback does not return
      that value to the sequence. */
  predicate FailsOnForeignKey(st: Store, actor: Actor, req: NewTicketRequest) {
    Truthy(req.subject) && Truthy(req.description) && ParsePriority(RequestedPriority(req.priority)).Some?
    && (actor.id !in st.users || (AutoAssignee(st).Some? && AutoAssignee(st).value !in st.users))
  }

  /** The tables after the ticket's INSERT and those of its files. */
  function Inserted(st: Store, actor: Actor, req: NewTicketRequest, files: seq<FileMeta>,
                    newId: Id, fileIds: seq<Id>, now: nat): (r: Store)
    requires Truthy(req.subject) && Truthy(req.description) && ParsePriority(RequestedPriority(req.priority)).Some?
    requires |fileIds| == |files| && Distinct(fileIds)
    ensures r.tickets == st.tickets[newId := OpenedTicket(st, actor, req, now)]
    ensures r.lastNumber == st.lastNumber + 1
    ensures forall a :: a in r.attachments <==> a in st.attachments || a in fileIds
    ensures forall a :: a in st.attachments && a !in fileIds ==> r.attachments[a] == st.attachments[a]
    ensures forall i :: 0 <= i < |fileIds| ==>
      r.attachments[fileIds[i]] == Attachment(newId, None, Some(actor.id), files[i], now)
    ensures r == st.(tickets := r.tickets, attachments := r.attachments, lastNumber := r.lastNumber)
  {
    st.(tickets := st.tickets[newId := OpenedTicket(st, actor, req, now)],
        attachments := AddAttachments(st.attachments, newId, None, actor.id, files, fileIds, now),
        lastNumber := st.lastNumber + 1)
  }

  /** The request is refused: a field is missing, the priority is not a
      label of the enum, or the INSERT breaks a foreign key. */
  predicate Refusal(st: Store, actor: Actor, req: NewTicketRequest) {
    !(Truthy(req.subject) && Truthy(req.description))
    || ParsePriority(RequestedPriority(req.priority)).None? || FailsOnForeignKey(st, actor, req)
  }

  /** The answer to a refused request. The transaction leaves the tables as
      they were; only a foreign-key failure has used up a ticket number. */
  function Refused(st: Store, actor: Actor, req: NewTicketRequest): (s: Step<Id>)
    requires Refusal(st, actor, req)
    ensures !s.out.Success() && s.notices == []
    ensures s.st == st.(lastNumber := if FailsOnForeignKey(st, actor, req) then st.lastNumber + 1 else st.lastNumber)
    ensures !(Truthy(req.subject) && Truthy(req.description)) ==>
      s.out == Err(BadRequest400, "Subject and description are required")
    ensures Truthy(req.subject) && Truthy(req.description) ==> s.out == Err(ServerError500, "Failed to create ticket")
  {
    if !Truthy(req.subject) || !Truthy(req.description) then
      Answer(st, Err(BadRequest400, "Subject and description are required"))
    else if ParsePriority(RequestedPriority(req.priority)).None? then
      Answer(st, Err(ServerError500, "Failed to create ticket"))
    else
      Answer(st.(lastNumber := st.lastNumber + 1), Err(ServerError500, "Failed to create ticket"))
  }

  /** The answer to an accepted request: the new ticket, its files, and the
      notice to staff. */
  function Opened(st: Store, actor: Actor, req: NewTicketRequest, files: seq<FileMeta>,
                  newId: Id, fileIds: seq<Id>, now: nat): (s: Step<Id>)
    requires !Refusal(st, actor, req)
    requires |fileIds| == |files| && Distinct(fileIds)
    ensures newId in s.st.tickets
    ensures var tk := s.st.tickets[newId];
      s.out == Ok(Created201, newId)
      && s.st.tickets == st.tickets[newId := tk]
      && tk.status == Some(Open) && tk.customer == Some(actor.id)
      && tk.subject == req.subject.v && tk.description == req.description.v
      && tk.priority.Some? && PriorityName(tk.priority.value) == RequestedPriority(req.priority)
      && (!Truthy(req.priority) ==> tk.priority == Some(Low))
      && tk.assignedTo == AutoAssignee(st)
      && tk.number == st.lastNumber + 1 && s.st.lastNumber == tk.number
      && tk.resolvedAt.None? && tk.closedAt.None? && tk.group.None?
      && s.notices == [NewTicket(newId)]
    ensures (forall a :: a in s.st.attachments <==> a in st.attachments || a in fileIds)
      && (forall i :: 0 <= i < |fileIds| ==>
            s.st.attachments[fileIds[i]] == Attachment(newId, None, Some(actor.id), files[i], now))
      && s.st == st.(tickets := s.st.tickets, attachments := s.st.attachments, lastNumber := s.st.lastNumber)
  {
    Step(Ok(Created201, newId), Inserted(st, actor, req, files, newId, fileIds, now), [NewTicket(newId)])
  }

  /** Opening a ticket. */
  function CreateTicket(st: Store, actor: Actor, req: NewTicketRequest, files: seq<FileMeta>,
                        newId: Id, fileIds: seq<Id>, now: nat): (s: Step<Id>)
    requires newId !in st.tickets
    requires |fileIds| == |files| && Distinct(fileIds) && forall i :: 0 <= i < |fileIds| ==> fileIds[i] !in st.attachments
    ensures !s.out.Success() ==> s.notices == []
    ensures !s.out.Success() ==>
      s.st == st.(lastNumber := if FailsOnForeignKey(st, actor, req) then st.lastNumber + 1 else st.lastNumber)
    ensures !(Truthy(req.subject) && Truthy(req.description)) ==>
      s.out == Err(BadRequest400, "Subject and description are required")
    ensures Truthy(req.subject) && Truthy(req.description) && ParsePriority(RequestedPriority(req.priority)).None? ==>
      s.out == Err(ServerError500, "Failed to create ticket")
    ensures FailsOnForeignKey(st, actor, req) ==> s.out == Err(ServerError500, "Failed to create ticket")
    ensures s.out.Success() ==>
      newId in s.st.tickets &&
      var tk := s.st.tickets[newId];
      s.out == Ok(Created201, newId)
      && s.st.tickets == st.tickets[newId := tk]
      && tk.status == Some(Open) && tk.customer == Some(actor.id)
      && tk.subject == req.subject.v && tk.description == req.description.v
      && tk.priority.Some? && PriorityName(tk.priority.value) == RequestedPriority(req.priority)
      && (!Truthy(req.priority) ==> tk.priority == Some(Low))
      && tk.assignedTo == AutoAssignee(st)
      && tk.number == st.lastNumber + 1 && s.st.lastNumber == tk.number
      && tk.resolvedAt.None? && tk.closedAt.None? && tk.group.None?
      && s.notices == [NewTicket(newId)]
    ensures s.out.Success() ==>
      (forall a :: a in s.st.attachments <==> a in st.attachments || a in fileIds)
      && (forall i :: 0 <= i < |fileIds| ==>
            s.st.attachments[fileIds[i]] == Attachment(newId, None, Some(actor.id), files[i], now))
      && s.st == st.(tickets := s.st.tickets, attachments := s.st.attachments, lastNumber := s.st.lastNumber)
  {
    if Refusal(st, actor, req) then Refused(st, actor, req)
    else Opened(st, actor, req, files, newId, fileIds, now)
  }

  lemma CreateTicketKeepsValid(st: Store, actor: Actor, req: NewTicketRequest, files: seq<FileMeta>,
                               newId: Id, fileIds: seq<Id>, now: nat)
    requires Valid(st) && newId !in st.tickets
    requires |fileIds| == |files| && Distinct(fileIds) && forall i :: 0 <= i < |fileIds| ==> fileIds[i] !in st.attachments
    ensures Valid(CreateTicket(st, actor, req, files, newId, fileIds, now).st)
  {
    if CreateTicket(st, actor, req, files, newId, fileIds, now).out.Success() {
      InsertedKeepsValid(st, actor, req, files, newId, fileIds, now);
    }
  }

  lemma InsertedKeepsValid(st: Store, actor: Actor, req: NewTicketRequest, files: seq<FileMeta>,
                           newId: Id, fileIds: seq<Id>, now: nat)
    requires Valid(st) && newId !in st.tickets
    requires Truthy(req.subject) && Truthy(req.description) && ParsePriority(RequestedPriority(req.priority)).Some?
    requires actor.id in st.users && (AutoAssignee(st).Some? ==> AutoAssignee(st).value in st.users)
    requires |fileIds| == |files| && Distinct(fileIds) && forall i :: 0 <= i < |fileIds| ==> fileIds[i] !in st.attachments
    ensures Valid(Inserted(st, actor, req, files, newId, fileIds, now))
  {
    var r := Inserted(st, actor, req, files, newId, fileIds, now);
    var tk := OpenedTicket(st, actor, req, now);
    NewNumberKeepsSequence(st.tickets, st.lastNumber, newId, tk);
    assert TicketsRef(r) by {
      forall t | t in r.tickets
        ensures RefersToUser(r, r.tickets[t].customer) && RefersToUser(r, r.tickets[t].assignedTo)
        ensures r.tickets[t].group.Some? ==> r.tickets[t].group.value in r.groups
      {
        if t != newId { assert r.tickets[t] == st.tickets[t]; }
      }
    }
    assert AttachmentsRef(r) by {
      forall a | a in r.attachments
        ensures r.attachments[a].ticket in r.tickets && RefersToUser(r, r.attachments[a].uploader)
        ensures r.attachments[a].comment.Some? ==>
          r.attachments[a].comment.value in r.comments
          && r.comments[r.attachments[a].comment.value].ticket == r.attachments[a].ticket
      {
        if a !in st.attachments {
          var i :| 0 <= i < |fileIds| && fileIds[i] == a;
          assert r.attachments[a] == Attachment(newId, None, Some(actor.id), files[i], now);
        }
      }
    }
  }

  /** A ticket numbered one past the sequence keeps numbers distinct and
      within the new sequence value. */
  lemma NewNumberKeepsSequence(tickets: map<Id, Ticket>, lastNumber: nat, newId: Id, tk: Ticket)
    requires NumbersFromSequence(tickets, lastNumber) && newId !in tickets && tk.number == lastNumber + 1
    ensures NumbersFromSequence(tickets[newId := tk], lastNumber + 1)
  {
    var r := tickets[newId := tk];
    forall a, b | a in r && b in r && a != b ensures r[a].number != r[b].number {
      if a == newId { assert r[b].number <= lastNumber; }
      if b == newId { assert r[a].number <= lastNumber; }
    }
  }

  /** Ticket numbers can skip: after an insert that failed on a foreign
      key, the next ticket opened gets the number after the lost one. */
  lemma FailedInsertSkipsANumber(st: Store, actor: Actor, req: NewTicketRequest, other: Actor, req2: NewTicketRequest,
                                 newId: Id, now: nat)
    requires newId !in st.tickets && FailsOnForeignKey(st, actor, req)
    ensures var st1 := CreateTicket(st, actor, req, [], newId, [], now).st;
      var s2 := CreateTicket(st1, other, req2, [], newId, [], now);
      s2.out.Success() ==> s2.st.tickets[newId].number == st.lastNumber + 2
  {
  }

  // ---------------------------------------------------------------------
  // PUT /:id
  // ---------------------------------------------------------------------

  datatype TicketChange = TicketChange(subject: Field<string>, description: Field<string>, status: Field<string>,
                                       priority: Field<string>, assignedTo: Field<string>, groupId: Field<string>)

  /** `status || priority || assignedTo || groupId`. */
  predicate AsksForStaffField(c: TicketChange) {
    Truthy(c.status) || Truthy(c.priority) || Truthy(c.assignedTo) || Truthy(c.groupId)
  }

  /** A staff-only column is written when the member is present and the
      caller is not a customer. */
  predicate Writes(f: Field<string>, isCustomer: bool) {
    Defined(f) && !isCustomer
  }

  /** The SET list is empty. */
  predicate NothingToUpdate(c: TicketChange, isCustomer: bool) {
    !Defined(c.subject) && !Defined(c.description)
    && !Writes(c.status, isCustomer) && !Writes(c.priority, isCustomer)
    && !Writes(c.assignedTo, isCustomer) && !Writes(c.groupId, isCustomer)
  }

  /** The UPDATE fails in the database: a NULL into a NOT NULL column, a
      label outside an enum, or a reference to no row. */
  predicate UpdateRejected(st: Store, c: TicketChange, isCustomer: bool) {
    c.subject.Null? || c.description.Null?
    || (Writes(c.status, isCustomer) && c.status.Val? && ParseStatus(c.status.v).None?)
    || (Writes(c.priority, isCustomer) && c.priority.Val? && ParsePriority(c.priority.v).None?)
    || (Writes(c.assignedTo, isCustomer) && c.assignedTo.Val? && c.assignedTo.v !in st.users)
    || (Writes(c.groupId, isCustomer) && c.groupId.Val? && c.groupId.v !in st.groups)
  }

  /** The value a written status member stores: a label's status, or NULL. */
  function WrittenStatus(f: Field<string>): Option<Status> {
    match f
    case Val(v) => ParseStatus(v)
    case _ => None
  }

  function WrittenPriority(f: Field<string>): Option<Priority> {
    match f
    case Val(v) => ParsePriority(v)
    case _ => None
  }

  /** The row after the UPDATE: present members replace their columns;
      `'resolved'` and `'closed'` stamp their timestamps, and the
      `update_tickets_updated_at` trigger stamps `updated_at`. */
  function Applied(tk: Ticket, c: TicketChange, isCustomer: bool, now: nat): Ticket {
    tk.(updatedAt := now,
        subject := if c.subject.Val? then c.subject.v else tk.subject,
        description := if c.description.Val? then c.description.v else tk.description,
        status := if Writes(c.status, isCustomer) then WrittenStatus(c.status) else tk.status,
        resolvedAt := if Writes(c.status, isCustomer) && c.status == Val("resolved") then Some(now) else tk.resolvedAt,
        closedAt := if Writes(c.status, isCustomer) && c.status == Val("closed") then Some(now) else tk.closedAt,
        priority := if Writes(c.priority, isCustomer) then WrittenPriority(c.priority) else tk.priority,
        assignedTo := if Writes(c.assignedTo, isCustomer) then Nullable(c.assignedTo) else tk.assignedTo,
        group := if Writes(c.groupId, isCustomer) then Nullable(c.groupId) else tk.group)
  }

  /** The label of a stored status, as the route compares it. */
  function StatusLabel(s: Option<Status>): Option<string> {
    match s
    case None => None
    case Some(x) => Some(StatusName(x))
  }

  /** The mail the route asks for, as written: a status notice whenever the
      status member is present and differs from the prior label, even when
      the caller is a customer whose status was not written. */
  function UpdateNoticesAsWritten(id: Id, prior: Ticket, c: TicketChange): seq<Notice> {
    (if Defined(c.status) && Nullable(c.status) != StatusLabel(prior.status)
     then [StatusChange(id, StatusLabel(prior.status), Nullable(c.status))] else [])
    + (if Truthy(c.assignedTo) && Some(c.assignedTo.v) != prior.assignedTo then [Assignment(id, c.assignedTo.v)] else [])
  }

  /** The mail as intended: a status notice only for a status that was
      written. */
  function UpdateNotices(id: Id, prior: Ticket, c: TicketChange, isCustomer: bool): seq<Notice> {
    (if Writes(c.status, isCustomer) && Nullable(c.status) != StatusLabel(prior.status)
     then [StatusChange(id, StatusLabel(prior.status), Nullable(c.status))] else [])
    + (if Truthy(c.assignedTo) && Some(c.assignedTo.v) != prior.assignedTo then [Assignment(id, c.assignedTo.v)] else [])
  }

  /** The checks and the UPDATE, without the mail. */
  function UpdateOutcome(st: Store, actor: Actor, id: Id, c: TicketChange, now: nat): (s: Step<Ticket>)
    ensures s.notices == []
    ensures !s.out.Success() ==> s.st == st
    ensures id !in st.tickets ==> s.out == Err(NotFound404, "Ticket not found")
    ensures id in st.tickets && actor.role == Customer && st.tickets[id].customer != Some(actor.id) ==>
      s.out == Err(Forbidden403, Insufficient)
    ensures id in st.tickets && actor.role == Customer && st.tickets[id].customer == Some(actor.id) && AsksForStaffField(c) ==>
      s.out == Err(Forbidden403, "Insufficient permissions to update these fields")
    ensures s.out.Success() <==>
      id in st.tickets && MayAccess(actor, st.tickets[id])
      && !(actor.role == Customer && AsksForStaffField(c))
      && !NothingToUpdate(c, actor.role == Customer) && !UpdateRejected(st, c, actor.role == Customer)
    ensures id in st.tickets && MayAccess(actor, st.tickets[id]) && !(actor.role == Customer && AsksForStaffField(c)) ==>
      (NothingToUpdate(c, actor.role == Customer) ==> s.out == Err(BadRequest400, "No updates provided"))
      && (!NothingToUpdate(c, actor.role == Customer) && UpdateRejected(st, c, actor.role == Customer) ==>
            s.out == Err(ServerError500, "Failed to update ticket"))
    ensures s.out.Success() ==>
      s.st == st.(tickets := st.tickets[id := Applied(st.tickets[id], c, actor.role == Customer, now)])
    ensures s.out.Success() ==> s.out.value == s.st.tickets[id]
  {
    var isCustomer := actor.role == Customer;
    if id !in st.tickets then Answer(st, Err(NotFound404, "Ticket not found"))
    else if isCustomer && st.tickets[id].customer != Some(actor.id) then Answer(st, Err(Forbidden403, Insufficient))
    else if isCustomer && AsksForStaffField(c) then
      Answer(st, Err(Forbidden403, "Insufficient permissions to update these fields"))
    else if NothingToUpdate(c, isCustomer) then Answer(st, Err(BadRequest400, "No updates provided"))
    else if UpdateRejected(st, c, isCustomer) then Answer(st, Err(ServerError500, "Failed to update ticket"))
    else
      var tk := Applied(st.tickets[id], c, isCustomer, now);
      Answer(st.(tickets := st.tickets[id := tk]), Ok(Ok200, tk))
  }

  function UpdateTicketAsWritten(st: Store, actor: Actor, id: Id, c: TicketChange, now: nat): (s: Step<Ticket>)
    ensures s.out == UpdateOutcome(st, actor, id, c, now).out && s.st == UpdateOutcome(st, actor, id, c, now).st
    ensures !s.out.Success() ==> s.notices == []
    ensures s.out.Success() ==> s.notices == UpdateNoticesAsWritten(id, st.tickets[id], c)
  {
    var s := UpdateOutcome(st, actor, id, c, now);
    if s.out.Success() then s.(notices := UpdateNoticesAsWritten(id, st.tickets[id], c)) else s
  }

  function UpdateTicket(st: Store, actor: Actor, id: Id, c: TicketChange, now: nat): (s: Step<Ticket>)
    ensures s.out == UpdateOutcome(st, actor, id, c, now).out && s.st == UpdateOutcome(st, actor, id, c, now).st
    ensures !s.out.Success() ==> s.notices == []
    ensures s.out.Success() ==> s.notices == UpdateNotices(id, st.tickets[id], c, actor.role == Customer)
  {
    var s := UpdateOutcome(st, actor, id, c, now);
    if s.out.Success() then s.(notices := UpdateNotices(id, st.tickets[id], c, actor.role == Customer)) else s
  }

  /** A customer's successful update touches only subject and description
      (and the trigger's `updated_at`): status, priority, assignee, group
      and both stamps stay as they were, even when those members were sent
      empty or null. */
  lemma CustomerKeepsStaffFields(st: Store, actor: Actor, id: Id, c: TicketChange, now: nat)
    requires actor.role == Customer && UpdateTicket(st, actor, id, c, now).out.Success()
    ensures var tk := UpdateTicket(st, actor, id, c, now).st.tickets[id];
      var prior := st.tickets[id];
      tk.(subject := prior.subject, description := prior.description, updatedAt := prior.updatedAt) == prior
      && (c.subject.Val? || c.description.Val?)
  {
  }

  /** No update clears a stamp; every update sets `updated_at`, and a
      written `'resolved'` (`'closed'`) sets `resolved_at` (`closed_at`), to
      the time of the update. */
  lemma StampsOnlyGrow(st: Store, actor: Actor, id: Id, c: TicketChange, now: nat)
    requires UpdateTicket(st, actor, id, c, now).out.Success()
    ensures var tk := UpdateTicket(st, actor, id, c, now).st.tickets[id];
      var prior := st.tickets[id];
      tk.updatedAt == now && tk.createdAt == prior.createdAt
      && (prior.resolvedAt.Some? ==> tk.resolvedAt.Some?) && (prior.closedAt.Some? ==> tk.closedAt.Some?)
      && (actor.role != Customer && c.status == Val("resolved") ==> tk.resolvedAt == Some(now) && tk.status == Some(Resolved))
      && (actor.role != Customer && c.status == Val("closed") ==> tk.closedAt == Some(now) && tk.status == Some(Closed))
  {
  }

  /** With the corrected notices, a status mail goes out exactly when the
      stored status changes. */
  lemma StatusNoticeIffStatusChanged(st: Store, actor: Actor, id: Id, c: TicketChange, now: nat)
    requires UpdateTicket(st, actor, id, c, now).out.Success()
    ensures var s := UpdateTicket(st, actor, id, c, now);
      (exists o, n :: StatusChange(id, o, n) in s.notices) <==> s.st.tickets[id].status != st.tickets[id].status
  {
    var s := UpdateTicket(st, actor, id, c, now);
    var prior := st.tickets[id];
    var isCustomer := actor.role == Customer;
    if Writes(c.status, isCustomer) && c.status.Val? {
      var x := ParseStatus(c.status.v).value;
      assert StatusName(x) == c.status.v;
      assert prior.status.Some? ==> (StatusName(prior.status.value) == c.status.v <==> prior.status.value == x);
    }
    if s.st.tickets[id].status != prior.status {
      assert StatusChange(id, StatusLabel(prior.status), Nullable(c.status)) in s.notices;
    }
  }

  /** As written, a customer who edits the subject and sends an empty status
      triggers a status mail although the status stays as it was. */
  lemma SpuriousStatusNotice()
    ensures var st := LeakExample();
      var c := TicketChange(Val("new subject"), Undefined, Val(""), Undefined, Undefined, Undefined);
      var s := UpdateTicketAsWritten(st, Actor("c", Customer), "t", c, 5);
      s.out.Success() && s.st.tickets["t"].status == st.tickets["t"].status
      && StatusChange("t", Some("open"), Some("")) in s.notices
  {
  }

  lemma UpdateTicketKeepsValid(st: Store, actor: Actor, id: Id, c: TicketChange, now: nat)
    requires Valid(st)
    ensures Valid(UpdateTicket(st, actor, id, c, now).st)
  {
    var s := UpdateTicket(st, actor, id, c, now);
    if s.out.Success() {
      var r := s.st;
      assert NumbersFromSequence(r.tickets, r.lastNumber) by {
        assert forall t :: t in r.tickets ==> r.tickets[t].number == st.tickets[t].number;
      }
      assert TicketsRef(r) by {
        forall t | t in r.tickets
          ensures RefersToUser(r, r.tickets[t].customer) && RefersToUser(r, r.tickets[t].assignedTo)
          ensures r.tickets[t].group.Some? ==> r.tickets[t].group.value in r.groups
        {
          assert RefersToUser(st, st.tickets[t].customer) && RefersToUser(st, st.tickets[t].assignedTo);
        }
      }
    }
  }

  // ---------------------------------------------------------------------
  // DELETE /:id
  // ---------------------------------------------------------------------

  function DeleteTicket(st: Store, actor: Actor, id: Id): (s: Step<string>)
    ensures s.notices == []
    ensures actor.role != Admin ==> s == Answer(st, Err(Forbidden403, Insufficient))
    ensures actor.role == Admin && id !in st.tickets ==> s == Answer(st, Err(NotFound404, "Ticket not found"))
    ensures s.out.Success() <==> actor.role == Admin && id in st.tickets
    ensures s.out.Success() ==> s.st == DeleteTicketRow(st, id) && id !in s.st.tickets
  {
    match AdminOnly(actor.role == Admin)
    case Some(e) => Answer(st, e)
    case None =>
      if id !in st.tickets then Answer(st, Err(NotFound404, "Ticket not found"))
      else Answer(DeleteTicketRow(st, id), Ok(Ok200, "Ticket deleted successfully"))
  }
}

=== FILE: users.dfy ===
/** The user administration routes (`routes/users.js`): listing, reading,
    creating, updating and deleting accounts, the password route, the
    verification toggle and the administrator's password reset. */
module Users {

  import opened Common
  import opened Text
  import opened Schema
  import opened PasswordPolicy
  import opened Ordering
  import opened Auth
  import Notify

  /** Admins may act on anyone; everyone else only on their own account. */
  predicate SelfOrAdmin(actor: Actor, id: Id) {
    actor.role == Admin || actor.id == id
  }

  /** A JSON boolean written into a flag column; NULL reads as false. */
  function Flag(f: Field<bool>): bool {
    f == Val(true)
  }

  // ---------------------------------------------------------------------
  // GET /
  // ---------------------------------------------------------------------

  /** The labels of a `role` query: `role.split(',')`. */
  function RoleFilter(role: string): seq<string> {
    Split(role, ',')
  }

  /** Every label of the filter names a role, so the array cast succeeds. */
  predicate RoleFilterCastable(role: string) {
    forall p :: p in RoleFilter(role) ==> ParseRole(p).Some?
  }

  /** `ORDER BY created_at DESC` as an ascending key. */
  function NewestAccountFirst(st: Store): Id -> int {
    u => if u in st.users then -(st.users[u].createdAt as int) else 0
  }

  ghost function ListUsers(st: Store, actor: Actor, role: Field<string>): (r: Outcome<seq<Id>>)
    ensures actor.role != Admin && !Truthy(role) ==> r == Err(Forbidden403, Insufficient)
    ensures r.Success() <==> (actor.role == Admin || Truthy(role)) && (Truthy(role) ==> RoleFilterCastable(role.v))
    ensures (actor.role == Admin || Truthy(role)) && !r.Success() ==> r == Err(ServerError500, "Failed to fetch users")
    ensures r.Success() ==> forall u :: u in r.value <==>
      u in st.users && (Truthy(role) ==> RoleName(st.users[u].role) in RoleFilter(role.v))
    ensures r.Success() ==> forall i, j :: 0 <= i < j < |r.value| ==>
      r.value[i] != r.value[j] && st.users[r.value[i]].createdAt >= st.users[r.value[j]].createdAt
  {
    if actor.role != Admin && !Truthy(role) then Err(Forbidden403, Insufficient)
    else if Truthy(role) && !RoleFilterCastable(role.v) then Err(ServerError500, "Failed to fetch users")
    else
      var picked := set u | u in st.users && (Truthy(role) ==> RoleName(st.users[u].role) in RoleFilter(role.v));
      var xs := OrderBy(picked, NewestAccountFirst(st));
      assert forall i, j :: 0 <= i < j < |xs| ==> NewestAccountFirst(st)(xs[i]) <= NewestAccountFirst(st)(xs[j]);
      Ok(Ok200, xs)
  }

  /** The role filter is the only gate: a customer who asks for
      `role=admin,agent` is shown every staff account. */
  lemma RoleFilterOpensTheList(st: Store, actor: Actor)
    ensures var r := ListUsers(st, actor, Val("admin,agent"));
      r.Success() && forall u :: u in st.users && IsStaff(st.users[u].role) ==> u in r.value
  {
    StaffFilter();
    var r := ListUsers(st, actor, Val("admin,agent"));
    forall u | u in st.users && IsStaff(st.users[u].role) ensures u in r.value {
      assert RoleName(st.users[u].role) in RoleFilter("admin,agent");
    }
  }

  lemma StaffFilter()
    ensures RoleFilter("admin,agent") == ["admin", "agent"]
    ensures RoleFilterCastable("admin,agent")
  {
    var a, b := RoleName(Admin), RoleName(Agent);
    assert ',' !in a && ',' !in b;
    assert "admin,agent" == a + [','] + b;
    SplitAtFirst(a, ',', b);
    assert Split(b, ',') == [b];
    EnumLabelsRoundTrip(Admin, Open, Low);
    EnumLabelsRoundTrip(Agent, Open, Low);
  }

  // ---------------------------------------------------------------------
  // GET /:id
  // ---------------------------------------------------------------------

  /** The columns the route returns: no hash, no verification flag. */
  datatype Account = Account(username: string, email: string, firstName: Option<string>, lastName: Option<string>,
                             role: Role, isActive: bool, createdAt: nat, lastLogin: Option<nat>)

  function AccountOf(u: User): Account {
    Account(u.username, u.email, u.firstName, u.lastName, u.role, u.isActive, u.createdAt, u.lastLogin)
  }

  function GetUser(st: Store, actor: Actor, id: Id): (r: Outcome<Account>)
    ensures !SelfOrAdmin(actor, id) ==> r == Err(Forbidden403, Insufficient)
    ensures SelfOrAdmin(actor, id) && id !in st.users ==> r == Err(NotFound404, "User not found")
    ensures r.Success() <==> SelfOrAdmin(actor, id) && id in st.users
    ensures r.Success() ==> r.value.username == st.users[id].username && r.value.email == st.users[id].email
                            && r.value.role == st.users[id].role
  {
    if !SelfOrAdmin(actor, id) then Err(Forbidden403, Insufficient)
    else if id !in st.users then Err(NotFound404, "User not found")
    else Ok(Ok200, AccountOf(st.users[id]))
  }

  // ---------------------------------------------------------------------
  // POST /
  // ---------------------------------------------------------------------

  datatype NewUser = NewUser(username: Field<string>, email: Field<string>, password: Field<string>,
                             firstName: Field<string>, lastName: Field<string>, role: Field<string>)

  /** `role || 'customer'`, once the label has been checked. */
  function ChosenRole(role: Field<string>): Role {
    if Truthy(role) && ParseRole(role.v).Some? then ParseRole(role.v).value else Customer
  }

  /** The row an administrator creates: active, unverified, and not forced
      to change the password the administrator chose. */
  function CreatedUser(req: NewUser, now: nat): User
    requires req.username.Val? && req.email.Val? && req.password.Val?
  {
    User(req.username.v, req.email.v, Hashed(req.password.v), Stored(req.firstName), Stored(req.lastName),
         ChosenRole(req.role), true, false, false, now, None)
  }

  function CreateUser(st: Store, actor: Actor, req: NewUser, newId: Id, now: nat): (s: Step<Id>)
    requires newId !in st.users
    ensures s.notices == []
    ensures !s.out.Success() ==> s.st == st
    ensures actor.role != Admin ==> s.out == Err(Forbidden403, Insufficient)
    ensures actor.role == Admin && !(Truthy(req.username) && Truthy(req.email) && Truthy(req.password)) ==>
      s.out == Err(BadRequest400, "Username, email, and password are required")
    ensures actor.role == Admin && Truthy(req.username) && Truthy(req.email) && Truthy(req.password)
            && !Validate(req.password.v).isValid ==>
      s.out == Err(BadRequest400, ErrorText(Validate(req.password.v), ". "))
    ensures s.out.Success() <==>
      actor.role == Admin && Truthy(req.username) && Truthy(req.email) && Truthy(req.password)
      && Validate(req.password.v).isValid && (Truthy(req.role) ==> ParseRole(req.role.v).Some?)
      && !UsernameTaken(st, req.username.v) && !EmailTaken(st, req.email.v)
    ensures s.out.Success() ==>
      s.out == Ok(Created201, newId) && s.st == st.(users := st.users[newId := CreatedUser(req, now)])
      && (!Truthy(req.role) ==> CreatedUser(req, now).role == Customer)
  {
    match AdminOnly(actor.role == Admin)
    case Some(e) => Answer(st, e)
    case None =>
      if !Truthy(req.username) || !Truthy(req.email) || !Truthy(req.password) then
        Answer(st, Err(BadRequest400, "Username, email, and password are required"))
      else if !Validate(req.password.v).isValid then
        Answer(st, Err(BadRequest400, ErrorText(Validate(req.password.v), ". ")))
      else if Truthy(req.role) && ParseRole(req.role.v).None? then
        Answer(st, Err(BadRequest400, "Invalid role"))
      else if UsernameTaken(st, req.username.v) || EmailTaken(st, req.email.v) then
        Answer(st, Err(BadRequest400, "Username or email already exists"))
      else
        Answer(st.(users := st.users[newId := CreatedUser(req, now)]), Ok(Created201, newId))
  }

  lemma CreateUserKeepsValid(st: Store, actor: Actor, req: NewUser, newId: Id, now: nat)
    requires Valid(st) && newId !in st.users
    ensures Valid(CreateUser(st, actor, req, newId, now).st)
  {
    if CreateUser(st, actor, req, newId, now).out.Success() {
      PutUserKeepsValid(st, newId, CreatedUser(req, now));
    }
  }

  /** An account an administrator creates logs in at once with the chosen
      password, and is not sent to the forced password change, unlike a
      self-registered one. */
  lemma CreatedUserLogsIn(st: Store, actor: Actor, req: NewUser, newId: Id, now: nat, later: nat)
    requires Valid(st) && newId !in st.users
    requires CreateUser(st, actor, req, newId, now).out.Success() && '@' !in req.username.v
    ensures var st' := CreateUser(st, actor, req, newId, now).st;
      Login(st', Val(req.username.v), req.password, later).out
        == Ok(Ok200, Session(newId, ChosenRole(req.role), false))
  {
    var st' := CreateUser(st, actor, req, newId, now).st;
    PutUserKeepsValid(st, newId, CreatedUser(req, now));
    FindAccountIsTheAccount(st', req.username.v, newId);
  }

  /** A created account reads back, to its creator, with the columns the
      request gave it, the default role when none was picked, active, and
      never logged in. */
  lemma CreatedUserReadsBack(st: Store, actor: Actor, req: NewUser, newId: Id, now: nat)
    requires newId !in st.users && CreateUser(st, actor, req, newId, now).out.Success()
    ensures GetUser(CreateUser(st, actor, req, newId, now).st, actor, newId)
      == Ok(Ok200, Account(req.username.v, req.email.v, Stored(req.firstName), Stored(req.lastName),
                           ChosenRole(req.role), true, now, None))
  {
  }

  // ---------------------------------------------------------------------
  // PUT /:id
  // ---------------------------------------------------------------------

  datatype UserChange = UserChange(username: Field<string>, email: Field<string>, firstName: Field<string>,
                                   lastName: Field<string>, role: Field<string>, isActive: Field<bool>)

  /** Role and active flag are written only by administrators. */
  predicate AdminWrites<T>(f: Field<T>, actor: Actor) {
    Defined(f) && actor.role == Admin
  }

  predicate NoUserUpdates(c: UserChange, actor: Actor) {
    !Defined(c.username) && !Defined(c.email) && !Defined(c.firstName) && !Defined(c.lastName)
    && !AdminWrites(c.role, actor) && !AdminWrites(c.isActive, actor)
  }

  /** The row after the UPDATE. */
  function Changed(u: User, c: UserChange, actor: Actor): User
    requires !AdminWrites(c.role, actor) || (c.role.Val? && ParseRole(c.role.v).Some?)
  {
    u.(username := if c.username.Val? then c.username.v else u.username,
       email := if c.email.Val? then c.email.v else u.email,
       firstName := if Defined(c.firstName) then Stored(c.firstName) else u.firstName,
       lastName := if Defined(c.lastName) then Stored(c.lastName) else u.lastName,
       role := if AdminWrites(c.role, actor) then ParseRole(c.role.v).value else u.role,
       isActive := if AdminWrites(c.isActive, actor) then Flag(c.isActive) else u.isActive)
  }

  function UpdateUser(st: Store, actor: Actor, id: Id, c: UserChange): (s: Step<Account>)
    ensures s.notices == []
    ensures !s.out.Success() ==> s.st == st
    ensures !SelfOrAdmin(actor, id) ==> s.out == Err(Forbidden403, Insufficient)
    ensures SelfOrAdmin(actor, id) && AdminWrites(c.role, actor) && !(c.role.Val? && ParseRole(c.role.v).Some?) ==>
      s.out == Err(BadRequest400, "Invalid role")
    ensures s.out.Success() <==>
      SelfOrAdmin(actor, id) && (AdminWrites(c.role, actor) ==> c.role.Val? && ParseRole(c.role.v).Some?)
      && !NoUserUpdates(c, actor) && id in st.users && !c.username.Null? && !c.email.Null?
      && AccountFits(st.users, id, Changed(st.users[id], c, actor))
    ensures s.out.Success() ==>
      s.st == st.(users := st.users[id := Changed(st.users[id], c, actor)])
      && s.out.value == AccountOf(s.st.users[id])
  {
    if !SelfOrAdmin(actor, id) then Answer(st, Err(Forbidden403, Insufficient))
    else if AdminWrites(c.role, actor) && !(c.role.Val? && ParseRole(c.role.v).Some?) then
      Answer(st, Err(BadRequest400, "Invalid role"))
    else if NoUserUpdates(c, actor) then Answer(st, Err(BadRequest400, "No updates provided"))
    else if id !in st.users then Answer(st, Err(NotFound404, "User not found"))
    else if c.username.Null? || c.email.Null? then Answer(st, Err(ServerError500, "Failed to update user"))
    else
      var u := Changed(st.users[id], c, actor);
      if !AccountFits(st.users, id, u) then Answer(st, Err(BadRequest400, "Username or email already exists"))
      else Answer(st.(users := st.users[id := u]), Ok(Ok200, AccountOf(u)))
  }

  /** A non-administrator cannot change their own role or active flag:
      those members are ignored, and a request with nothing else is
      refused. */
  lemma NoSelfPromotion(st: Store, actor: Actor, id: Id, c: UserChange)
    requires actor.role != Admin
    ensures var s := UpdateUser(st, actor, id, c);
      s.out.Success() ==> s.st.users[id].role == st.users[id].role && s.st.users[id].isActive == st.users[id].isActive
    ensures !Defined(c.username) && !Defined(c.email) && !Defined(c.firstName) && !Defined(c.lastName) && actor.id == id ==>
      UpdateUser(st, actor, id, c).out == Err(BadRequest400, "No updates provided")
  {
  }

  lemma UpdateUserKeepsValid(st: Store, actor: Actor, id: Id, c: UserChange)
    requires Valid(st)
    ensures Valid(UpdateUser(st, actor, id, c).st)
  {
    var s := UpdateUser(st, actor, id, c);
    if s.out.Success() {
      PutUserKeepsValid(st, id, Changed(st.users[id], c, actor));
    }
  }

  // ---------------------------------------------------------------------
  // PUT /:id/password
  // ---------------------------------------------------------------------

  /** The route reads and writes a `password` column the schema does not
      have, so once its own checks pass the query fails. */
  function ChangeUserPassword(st: Store, actor: Actor, id: Id, current: Field<string>, newPassword: Field<string>): (s: Step<string>)
    ensures s.st == st && s.notices == []
    ensures !SelfOrAdmin(actor, id) ==> s.out == Err(Forbidden403, Insufficient)
    ensures SelfOrAdmin(actor, id) && !(Truthy(current) && Truthy(newPassword)) ==>
      s.out == Err(BadRequest400, "Current password and new password are required")
    ensures SelfOrAdmin(actor, id) && Truthy(current) && Truthy(newPassword) && !Validate(newPassword.v).isValid ==>
      s.out == Err(BadRequest400, ErrorText(Validate(newPassword.v), ", "))
    ensures SelfOrAdmin(actor, id) && Truthy(current) && Truthy(newPassword) && Validate(newPassword.v).isValid ==>
      s.out == Err(ServerError500, "Failed to change password")
  {
    if !SelfOrAdmin(actor, id) then Answer(st, Err(Forbidden403, Insufficient))
    else if !Truthy(current) || !Truthy(newPassword) then
      Answer(st, Err(BadRequest400, "Current password and new password are required"))
    else if !Validate(newPassword.v).isValid then
      Answer(st, Err(BadRequest400, ErrorText(Validate(newPassword.v), ", ")))
    else Answer(st, Err(ServerError500, "Failed to change password"))
  }

  /** The two password-change routes report the same policy failures in
      different words: joined by `". "` on `/auth/change-password` and by
      `", "` here, which differ whenever two or more rules fail. */
  lemma PolicyMessagesJoinedDifferently(st: Store, actor: Actor, current: string, pw: string)
    requires current != [] && pw != [] && |Validate(pw).errors| >= 2
    ensures ChangePassword(st, actor, Val(current), Val(pw)).out == Err(BadRequest400, ErrorText(Validate(pw), ". "))
    ensures ChangeUserPassword(st, actor, actor.id, Val(current), Val(pw)).out == Err(BadRequest400, ErrorText(Validate(pw), ", "))
    ensures ErrorText(Validate(pw), ". ") != ErrorText(Validate(pw), ", ")
  {
    SeparatorShows(Validate(pw));
  }

  lemma SeparatorShows(v: Validation)
    requires |v.errors| >= 2
    ensures ErrorText(v, ". ") != ErrorText(v, ", ")
  {
    var ms := seq(|v.errors|, i requires 0 <= i < |v.errors| => Message(v.errors[i]));
    var m := ms[0];
    assert ErrorText(v, ". ") == m + ". " + JoinWith(ms[1..], ". ");
    assert ErrorText(v, ", ") == m + ", " + JoinWith(ms[1..], ", ");
    assert (m + ". " + JoinWith(ms[1..], ". "))[|m|] == '.';
    assert (m + ", " + JoinWith(ms[1..], ", "))[|m|] == ',';
  }

  // ---------------------------------------------------------------------
  // DELETE /:id
  // ---------------------------------------------------------------------

  function DeleteUser(st: Store, actor: Actor, id: Id): (s: Step<string>)
    ensures s.notices == []
    ensures !s.out.Success() ==> s.st == st
    ensures actor.role != Admin ==> s.out == Err(Forbidden403, Insufficient)
    ensures actor.role == Admin && id == actor.id ==> s.out == Err(BadRequest400, "Cannot delete your own account")
    ensures actor.role == Admin && id != actor.id && id !in st.users ==> s.out == Err(NotFound404, "User not found")
    ensures s.out.Success() <==> actor.role == Admin && id != actor.id && id in st.users
    ensures s.out.Success() ==> s.st == DeleteUserRow(st, id) && s.out.value == "User deleted successfully"
  {
    match AdminOnly(actor.role == Admin)
    case Some(e) => Answer(st, e)
    case None =>
      if id == actor.id then Answer(st, Err(BadRequest400, "Cannot delete your own account"))
      else if id !in st.users then Answer(st, Err(NotFound404, "User not found"))
      else Answer(DeleteUserRow(st, id), Ok(Ok200, "User deleted successfully"))
  }

  /** An administrator never deletes themself, so the acting admin is
      still there afterwards. */
  lemma DeleteKeepsActingAdmin(st: Store, actor: Actor, id: Id)
    requires actor.id in st.users
    ensures actor.id in DeleteUser(st, actor, id).st.users
  {
  }

  // ---------------------------------------------------------------------
  // PATCH /:id/verify-email
  // ---------------------------------------------------------------------

  function SetEmailVerified(st: Store, actor: Actor, id: Id, verified: Field<bool>): (s: Step<bool>)
    ensures s.notices == []
    ensures !s.out.Success() ==> s.st == st
    ensures actor.role != Admin ==> s.out == Err(Forbidden403, Insufficient)
    ensures actor.role == Admin && verified.Undefined? ==> s.out == Err(BadRequest400, "email_verified field is required")
    ensures s.out.Success() <==> actor.role == Admin && Defined(verified) && id in st.users
    ensures s.out.Success() ==>
      s.st == st.(users := st.users[id := st.users[id].(emailVerified := verified == Val(true))])
      && s.out.value == (verified == Val(true))
  {
    match AdminOnly(actor.role == Admin)
    case Some(e) => Answer(st, e)
    case None =>
      if verified.Undefined? then Answer(st, Err(BadRequest400, "email_verified field is required"))
      else if id !in st.users then Answer(st, Err(NotFound404, "User not found"))
      else
        var flag := Flag(verified);
        Answer(st.(users := st.users[id := st.users[id].(emailVerified := flag)]), Ok(Ok200, flag))
  }

  /** The flag the toggle writes is the one the mail service reads: an
      active staff account is on the staff mailing list exactly when it was
      last marked verified. */
  lemma VerifiedFlagReachesMail(st: Store, actor: Actor, id: Id, verified: Field<bool>)
    requires UniqueAccounts(st.users)
    requires SetEmailVerified(st, actor, id, verified).out.Success()
    requires IsStaff(st.users[id].role) && st.users[id].isActive
    ensures var st' := SetEmailVerified(st, actor, id, verified).st;
      st.users[id].email in Notify.NewTicketRecipients(st') <==> verified == Val(true)
  {
    var st' := SetEmailVerified(st, actor, id, verified).st;
    if st.users[id].email in Notify.NewTicketRecipients(st') {
      var u :| u in st'.users && Notify.OnStaffList(st'.users[u]) && st'.users[u].email == st.users[id].email;
      assert u == id;
    }
    if verified == Val(true) {
      assert Notify.OnStaffList(st'.users[id]) && st'.users[id].email == st.users[id].email;
    }
  }

  /** Logging in does not read the flag: every login answers as before. */
  lemma VerifiedFlagIgnoredByLogin(st: Store, actor: Actor, id: Id, verified: Field<bool>, login: Field<string>,
                                   password: Field<string>, now: nat)
    requires UniqueAccounts(st.users)
    requires SetEmailVerified(st, actor, id, verified).out.Success()
    ensures Login(SetEmailVerified(st, actor, id, verified).st, login, password, now).out
      == Login(st, login, password, now).out
  {
    FlagKeepsLogin(st, id, verified == Val(true), login, password, now);
  }

  lemma FlagKeepsLogin(st: Store, id: Id, flag: bool, login: Field<string>, password: Field<string>, now: nat)
    requires UniqueAccounts(st.users) && id in st.users
    ensures Login(st.(users := st.users[id := st.users[id].(emailVerified := flag)]), login, password, now).out
      == Login(st, login, password, now).out
  {
    var st' := st.(users := st.users[id := st.users[id].(emailVerified := flag)]);
    if Truthy(login) && Truthy(password) {
      match FindAccount(st, login.v)
      case None =>
        assert FindAccount(st', login.v).None? by {
          forall u | u in st'.users ensures !Identifies(st'.users[u], login.v) {
            assert st'.users[u].username == st.users[u].username && st'.users[u].email == st.users[u].email;
          }
        }
      case Some(u) =>
        FlagKeepsAccounts(st, id, flag);
        assert Identifies(st'.users[u], login.v);
        FindAccountIsTheAccount(st', login.v, u);
    }
  }

  lemma FlagKeepsAccounts(st: Store, id: Id, flag: bool)
    requires UniqueAccounts(st.users) && id in st.users
    ensures UniqueAccounts(st.users[id := st.users[id].(emailVerified := flag)])
  {
    var r := st.users[id := st.users[id].(emailVerified := flag)];
    forall a, b | a in r && b in r && a != b
      ensures r[a].username != r[b].username && r[a].email != r[b].email
    {
      assert r[a].username == st.users[a].username && r[a].email == st.users[a].email;
      assert r[b].username == st.users[b].username && r[b].email == st.users[b].email;
    }
  }

  // ---------------------------------------------------------------------
  // PATCH /:id/reset-password
  // ---------------------------------------------------------------------

  function AdminResetPassword(st: Store, actor: Actor, id: Id, password: Field<string>): (s: Step<string>)
    ensures s.notices == []
    ensures !s.out.Success() ==> s.st == st
    ensures actor.role != Admin ==> s.out == Err(Forbidden403, Insufficient)
    ensures actor.role == Admin && !Truthy(password) ==> s.out == Err(BadRequest400, "Password is required")
    ensures actor.role == Admin && Truthy(password) && Utf16Length(password.v) < 8 ==>
      s.out == Err(BadRequest400, "Password must be at least 8 characters")
    ensures s.out.Success() <==> actor.role == Admin && Truthy(password) && Utf16Length(password.v) >= 8 && id in st.users
    ensures s.out.Success() ==>
      s.st == st.(users := st.users[id := st.users[id].(passwordHash := Hashed(password.v))])
      && s.out.value == st.users[id].username
  {
    match AdminOnly(actor.role == Admin)
    case Some(e) => Answer(st, e)
    case None =>
      if !Truthy(password) then Answer(st, Err(BadRequest400, "Password is required"))
      else if Utf16Length(password.v) < 8 then Answer(st, Err(BadRequest400, "Password must be at least 8 characters"))
      else if id !in st.users then Answer(st, Err(NotFound404, "User not found"))
      else
        Answer(st.(users := st.users[id := st.users[id].(passwordHash := Hashed(password.v))]),
               Ok(Ok200, st.users[id].username))
  }

  /** The administrator's reset checks only the length: a password the
      policy refuses is accepted, and the account's forced-change flag is
      left as it was. */
  lemma AdminResetSkipsPolicy(st: Store, actor: Actor, id: Id)
    requires actor.role == Admin && id in st.users
    ensures !Validate("aaaaaaaa").isValid
    ensures var s := AdminResetPassword(st, actor, id, Val("aaaaaaaa"));
      s.out.Success() && s.st.users[id].forcePasswordChange == st.users[id].forcePasswordChange
      && PasswordMatches("aaaaaaaa", s.st.users[id].passwordHash)
  {
    assert Utf16Length("aaaaaaaa") == |"aaaaaaaa"|;
    assert !Satisfies("aaaaaaaa", Uppercase);
  }

  /** After the administrator's reset the account, when active, logs in
      with the new password by its username or address. */
  lemma AdminResetLogsIn(st: Store, actor: Actor, id: Id, password: string, login: string, now: nat)
    requires UniqueAccounts(st.users) && id in st.users && st.users[id].isActive
    requires AdminResetPassword(st, actor, id, Val(password)).out.Success()
    requires login != [] && Identifies(st.users[id], login)
    ensures Login(AdminResetPassword(st, actor, id, Val(password)).st, Val(login), Val(password), now).out
      == Ok(Ok200, Session(id, st.users[id].role, st.users[id].forcePasswordChange))
  {
    var st' := AdminResetPassword(st, actor, id, Val(password)).st;
    forall a, b | a in st'.users && b in st'.users && a != b
      ensures st'.users[a].username != st'.users[b].username && st'.users[a].email != st'.users[b].email
    {
      assert st'.users[a].username == st.users[a].username && st'.users[a].email == st.users[a].email;
      assert st'.users[b].username == st.users[b].username && st'.users[b].email == st.users[b].email;
    }
    FindAccountIsTheAccount(st', login, id);
  }
}
